=== FILE: README.md ===
# EV vs ICE decision support: a Dafny model of the data and cost layer

This project models the deterministic core of an EV-versus-ICE (electric
versus internal-combustion vehicle) decision-support dashboard and proves
properties of it:

- **CSV ingestion.** `src/lib/evDataUtils.ts` turns three CSV tables into
  records: the feature-engineered EV/ICE rows, the ML table and the city
  clusters. Header lines are dropped, short lines are skipped, and a missing
  or non-numeric number becomes 0. One pairing pass then writes cost and CO2
  advantages onto the first EV row of each `state-city-class` group.
- **Derived summaries.** Built on those records:
  - one summary per city, with the local cluster heuristic;
  - per-class comparisons for a location;
  - the dashboard totals;
  - the cost and emissions charts;
  - the merge of externally computed clusters;
  - the scenario defaults taken from the dataset.
- **Scenario simulator.** `calculateScenarioImpact` in
  `src/pages/Scenarios.tsx` is a seven-year TCO (total cost of ownership)
  comparison with a break-even, a yearly trajectory, the green-grid override
  and the petrol-price sensitivity sweep.
- **Location calculator.** The `comparison` memo of
  `src/pages/Calculator.tsx` does the same kind of TCO and break-even
  arithmetic for one vehicle class, driven by a fixed table of purchase
  prices.
- **Page folds.** The city analysis page has the cluster buckets and the
  scatter indices. The dashboard has the top-5 ranking, the Mumbai 4W cards,
  the nine-year trend and the maintenance "% lower" figure.

**Numbers and strings.**
- JS numbers are exact reals.
- `Math.round(x)` is `(x + 0.5).Floor`.
- `toFixed(d)` is the number its string denotes: rounded to `d` decimals,
  halves away from zero.
- `parseFloat` is a parameter `string -> Option<real>`, so `parseFloat(v) || 0`
  reads as "`None` or `Some(0)` gives 0".
- Labels (vehicle class, powertrain, cluster) stay strings, as the parsers
  cast them without checking.
- Grouping uses the source's own string keys (`state-city`,
  `state-city-class`), so hyphen collisions behave exactly as they do there.
- A JS `Map`/`Set` iterates in first-insertion order, modelled as `Seqs.Dedup`.

**Modules.**

| module | file | models |
|---|---|---|
| `Wrappers`, `Seqs`, `Text`, `Numbers` | wrappers.dfy, seqs.dfy, text.dfy, numbers.dfy | `Option`, array folds, `split`/`trim`, rounding |
| `Records` | records.dfy | the record types, readiness, grouping keys |
| `Parsing` | parsing.dfy | the three CSV parsers |
| `Advantages` | advantages.dfy | the EV/ICE pairing pass |
| `Cities` | cities.dfy | city summaries, states and cities, per-class data |
| `Summaries` | summaries.dfy | dashboard totals, charts, cluster merge, scenario defaults |
| `Tco` | tco.dfy | the break-even rule both calculators share |
| `Scenarios` | scenarios.dfy | the scenario simulator and sweep |
| `Calculator` | calculator.dfy | the location calculator |
| `CityAnalysis` | city_analysis.dfy | cluster buckets and scatter indices |
| `Dashboard` | dashboard.dfy | ranking, Mumbai 4W data, trend, maintenance percent |

## Model

| member | source | states |
|---|---|---|
| Text.Split | dazzling-display-delight-main/src/lib/evDataUtils.ts:115 | `split(',')` gives at least one piece; no piece contains the separator; joining the pieces with it gives the line back |
| Text.SplitCount | dazzling-display-delight-main/src/lib/evDataUtils.ts:115-116 | a line splits into one more field than it has separators, which is what the `values.length` test counts |
| Text.SplitJoin | dazzling-display-delight-main/src/lib/evDataUtils.ts:115 | splitting undoes joining when no piece holds the separator |
| Text.Trim | dazzling-display-delight-main/src/lib/evDataUtils.ts:110 | `trim()` returns a contiguous part of the text; only white space is cut from either end, and neither end of the result is white space |
| Text.TrimIdempotent | dazzling-display-delight-main/src/lib/evDataUtils.ts:110 | trimming twice is trimming once |
| Text.Lines | dazzling-display-delight-main/src/lib/evDataUtils.ts:110 | `text.trim().split('\n')`: at least one line, none holding a line feed, and the lines joined by line feeds give back the trimmed text |
| Text.Fields | dazzling-display-delight-main/src/lib/evDataUtils.ts:115 | the field count of a line is its comma count plus one |
| Numbers.Round | dazzling-display-delight-main/src/pages/Calculator.tsx:135-136 | `Math.round` is the integer within half a unit, halves rounding up |
| Numbers.RoundMonotone | dazzling-display-delight-main/src/pages/Calculator.tsx:176 | rounding never reverses an order between two amounts |
| Numbers.ToFixed | dazzling-display-delight-main/src/pages/Calculator.tsx:165 | the number `toFixed(d)` denotes is a whole count of `10^-d` units, within half a unit of the input |
| Numbers.Clamp | dazzling-display-delight-main/src/pages/CityAnalysis.tsx:79 | `min(hi, max(lo, x))` lies in `[lo, hi]`, is `x` inside the range, and is the nearer bound outside it |
| Seqs.Filter | dazzling-display-delight-main/src/lib/evDataUtils.ts:228-230 | `filter` keeps exactly the passing elements: every kept element passes and comes from the input, and every passing input element is kept |
| Seqs.FilterRejectPartition | dazzling-display-delight-main/src/lib/evDataUtils.ts:114-116 | every element is either kept or dropped, so the two counts add up to the input length |
| Seqs.Find | dazzling-display-delight-main/src/pages/Calculator.tsx:87 | `find` returns the FIRST passing element: it sits at an index before which no element passes; it returns nothing exactly when no element passes |
| Seqs.LastIndexAppend | dazzling-display-delight-main/src/lib/evDataUtils.ts:445 | after appending rows, the last match lies in the appended part when that part has one; otherwise it is the earlier last match |
| Seqs.Dedup | dazzling-display-delight-main/src/lib/evDataUtils.ts:320 | `[...new Set(xs)]` holds each input value exactly once and nothing else |
| Seqs.DedupFirstAppearance | dazzling-display-delight-main/src/lib/evDataUtils.ts:320 | a `Set` lists its values in order of their first appearance in the input |
| Seqs.FirstIndexesKept | dazzling-display-delight-main/src/lib/evDataUtils.ts:320 | adding a value at the end does not move the first occurrence of any value already seen |
| Seqs.NewLastComesLast | dazzling-display-delight-main/src/lib/evDataUtils.ts:320 | a value not seen before is first seen at the end, after every value seen earlier |
| Seqs.DedupCardinality | dazzling-display-delight-main/src/lib/evDataUtils.ts:344 | the de-duplicated list is as long as the set's `size` |
| Seqs.Mean | dazzling-display-delight-main/src/lib/evDataUtils.ts:244-246 | the guarded mean times the count is the sum, and the mean of nothing is 0 |
| Seqs.MeanUpperBound | dazzling-display-delight-main/src/lib/evDataUtils.ts:244-246 | a mean never exceeds a bound that every term respects |
| Seqs.MeanLowerBound | dazzling-display-delight-main/src/lib/evDataUtils.ts:244-246 | a mean is never below a bound that every term respects |
| Records.ChargingReadiness | dazzling-display-delight-main/src/lib/evDataUtils.ts:100-105 | the readiness is "High" exactly from 10 stations, "Medium" exactly from 3 up to 10, "Low" exactly above 0 and below 3, and "None" exactly without a station |
| Records.ReadinessMonotone | dazzling-display-delight-main/src/lib/evDataUtils.ts:100-105 | more stations never give a lower readiness category |
| Parsing.NumberAt | dazzling-display-delight-main/src/lib/evDataUtils.ts:118-120 | `parseFloat(values[i]) \|\| 0` is the parsed number, and 0 when the column is missing or not a number |
| Parsing.TextAt | dazzling-display-delight-main/src/lib/evDataUtils.ts:143-145 | `values[i] \|\| ''` is the column's text, and '' when the column is missing |
| Parsing.ParseRows | dazzling-display-delight-main/src/lib/evDataUtils.ts:114-116 | a parser makes one record per line with enough fields, built from that line's fields, in input order |
| Parsing.RowsPlusSkippedLines | dazzling-display-delight-main/src/lib/evDataUtils.ts:114-116 | records plus skipped short lines account for every line after the header |
| Parsing.FeatureRecord | dazzling-display-delight-main/src/lib/evDataUtils.ts:118-150 | a fresh feature record has zero advantages, density equal to stations/10 and the readiness of its station count; a line with at most 20, 21 or 22 fields leaves the location level, distribution company and consumer category empty from that column on |
| Parsing.ParseFeatureCsv | dazzling-display-delight-main/src/lib/evDataUtils.ts:109-116 | the feature parser returns one record per body line with at least 20 fields |
| Parsing.FeatureCsvKeepsLongLines | dazzling-display-delight-main/src/lib/evDataUtils.ts:110-116 | the record count is the line count minus the header and the short lines; record `j` is built from the `j`-th long line |
| Parsing.MlRecordOf | dazzling-display-delight-main/src/lib/evDataUtils.ts:194-203 | the station count and cost per km come from columns 7 and 4, with the `\|\| 0` default |
| Parsing.ParseMlCsv | dazzling-display-delight-main/src/lib/evDataUtils.ts:185-207 | the ML parser drops the header and every line with fewer than 8 fields; record j is built from the j-th kept line, so records keep input order |
| Parsing.ClusterRecordOf | dazzling-display-delight-main/src/lib/evDataUtils.ts:423-433 | a cluster line of exactly 8 fields gets maintenance cost 0, because `values[8]` is undefined |
| Parsing.ParseClusterCsv | dazzling-display-delight-main/src/lib/evDataUtils.ts:414-437 | the cluster parser drops the header and every line with fewer than 8 fields; record j is built from the j-th kept line, so records keep input order |
| Advantages.WithAdvantages | dazzling-display-delight-main/src/lib/evDataUtils.ts:155-180 | the pairing pass keeps count and order, changes only the two advantage fields, and changes only EV rows |
| Advantages.PairedAdvantage | dazzling-display-delight-main/src/lib/evDataUtils.ts:164-177 | the first EV row of a group that also has an ICE row gets the first ICE row's cost and CO2 minus its own |
| Advantages.UnpairedRowUnchanged | dazzling-display-delight-main/src/lib/evDataUtils.ts:164-177 | ICE rows, later EV rows of a group and EV rows without an ICE partner are left as parsed |
| Advantages.WithAdvantagesIdempotent | dazzling-display-delight-main/src/lib/evDataUtils.ts:155-180 | running the pass a second time changes nothing |
| Advantages.SameGroupsAfterPass | dazzling-display-delight-main/src/lib/evDataUtils.ts:155-166 | the pass does not change which row is first of each group and powertrain |
| Cities.HeuristicCluster | dazzling-display-delight-main/src/lib/evDataUtils.ts:249-256 | "EV-Ready" holds exactly with at least 10 stations and a positive mean advantage; "Low-Infra" holds exactly with no station and a non-positive mean; otherwise the label is "Moderate" |
| Cities.HeuristicClusterMonotone | dazzling-display-delight-main/src/lib/evDataUtils.ts:249-256 | more stations and larger advantages never move a city to a lower cluster |
| Cities.GetCityMetrics | dazzling-display-delight-main/src/lib/evDataUtils.ts:210-273 | one summary per distinct `state-city` key, with no ML indices and a cluster that obeys the heuristic |
| Cities.CityMetricsInFirstAppearanceOrder | dazzling-display-delight-main/src/lib/evDataUtils.ts:211-223 | the keys are distinct, listed in first-appearance order, and are exactly the keys of the rows |
| Cities.CityMetricsFromFirstRow | dazzling-display-delight-main/src/lib/evDataUtils.ts:224-267 | station count, density and readiness come from the city's first row; state and city names come back intact when they hold no '-' |
| Cities.HyphenatedStateIsCut | dazzling-display-delight-main/src/lib/evDataUtils.ts:224 | for a state "a-b", `key.split('-')` reports state `a` and city `b` |
| Cities.CityAdvantageIsFirstEvRow | dazzling-display-delight-main/src/lib/evDataUtils.ts:228-240 | a city's per-class advantage is its first EV row's value of that class, and 0 without one |
| Cities.CityEvRowsExact | dazzling-display-delight-main/src/lib/evDataUtils.ts:243 | the city's EV rows are rows of the input with the city's key, and there are some exactly when such a row exists |
| Cities.CityCo2AdvantageIsMean | dazzling-display-delight-main/src/lib/evDataUtils.ts:243-246 | the CO2 advantage is the mean over ALL the city's EV rows (not the first row's value), and 0 when the input has no EV row with the key |
| Cities.CityCo2AdvantageTimesCount | dazzling-display-delight-main/src/lib/evDataUtils.ts:243-246 | the CO2 advantage times the number of the city's EV rows is the sum of their CO2 advantages |
| Cities.CityCo2AdvantageWithinRowBounds | dazzling-display-delight-main/src/lib/evDataUtils.ts:243-246 | the CO2 advantage lies within any bounds all the city's EV rows share, and is 0 without EV rows |
| Cities.KeyMatchesNames | dazzling-display-delight-main/src/lib/evDataUtils.ts:277 | for hyphen-free names, matching the key is the same as matching state and city |
| Cities.UniqueStates | dazzling-display-delight-main/src/lib/evDataUtils.ts:319-321 | every row's state is listed, once, only states of rows are listed, and they come in order of first appearance |
| Cities.CitiesForState | dazzling-display-delight-main/src/lib/evDataUtils.ts:324-326 | every city of the state is listed, once, only cities of that state are listed, and they come in order of first appearance among the state's rows |
| Cities.ClassData | dazzling-display-delight-main/src/lib/evDataUtils.ts:280-314 | the EV cost per km is the mean over the class's EV rows; every other EV field and both advantages are the first EV row's, every ICE field the first ICE row's; a missing side reads as zeros |
| Cities.GetVehicleClassData | dazzling-display-delight-main/src/lib/evDataUtils.ts:276-316 | always three entries, ordered 2W, 3W, 4W, entry k being the class-k comparison of the rows whose state and city match |
| Cities.ClassEvFieldsFromFirstEvRow | dazzling-display-delight-main/src/lib/evDataUtils.ts:281-312 | the EV CO2, maintenance, replacement cost and cycle and both advantages are those of the first EV row of the class at the location |
| Cities.ClassIceFieldsFromFirstIceRow | dazzling-display-delight-main/src/lib/evDataUtils.ts:281-312 | every ICE field is that of the first ICE row of the class at the location |
| Cities.ClassSideAbsentAtLocation | dazzling-display-delight-main/src/lib/evDataUtils.ts:281-312 | without an EV (ICE) row of the class at the location, all EV (ICE) fields are 0 |
| Cities.ClassDataAgreesWithCityMetrics | dazzling-display-delight-main/src/lib/evDataUtils.ts:312 | for a key with one '-', the location's class advantages equal the city summary's advantages |
| Summaries.SavingsPercent | dazzling-display-delight-main/src/lib/evDataUtils.ts:355-358 | the percent is 0 without a positive ICE cost, and otherwise is the saving that turns the ICE cost into the EV cost; it lies in [0, 100] when 0 ≤ EV ≤ ICE |
| Summaries.CalculateDashboardMetrics | dazzling-display-delight-main/src/lib/evDataUtils.ts:329-369 | the record total is the input length and the city count is the number of distinct keys; the percent relation holds; the EV averages are 0 without EV rows and the ICE average 0 without ICE rows |
| Summaries.DashboardEvCostIsMean | dazzling-display-delight-main/src/lib/evDataUtils.ts:350-352 | the EV cost per km times the number of EV rows is the sum of their costs per km |
| Summaries.DashboardCostAdvantageIsMean | dazzling-display-delight-main/src/lib/evDataUtils.ts:334-336 | the cost advantage times the number of EV rows is the sum of their cost advantages |
| Summaries.DashboardCo2AdvantageIsMean | dazzling-display-delight-main/src/lib/evDataUtils.ts:339-341 | the CO2 advantage times the number of EV rows is the sum of their CO2 advantages times 1000 (grams) |
| Summaries.DashboardIceCostIsMean | dazzling-display-delight-main/src/lib/evDataUtils.ts:354-356 | the ICE cost per km times the number of ICE rows is the sum of their costs per km |
| Summaries.CitiesAnalyzedMatchesCityTable | dazzling-display-delight-main/src/lib/evDataUtils.ts:344 | the dashboard's city count equals the length of the city table |
| Summaries.SavingsPercentAtMost100 | dazzling-display-delight-main/src/lib/evDataUtils.ts:356-358 | with non-negative EV costs the percent never exceeds 100 |
| Summaries.SavingsPercentNonNegative | dazzling-display-delight-main/src/lib/evDataUtils.ts:356-358 | when every EV cost is at most every ICE cost, the percent is not negative |
| Summaries.CostComparisonOf | dazzling-display-delight-main/src/lib/evDataUtils.ts:375-391 | one class's bars are its EV and ICE mean costs to the cent, under the class's display name |
| Summaries.GetCostComparisonData | dazzling-display-delight-main/src/lib/evDataUtils.ts:372-393 | exactly three bar groups, named Two, Three and Four Wheeler in that order |
| Summaries.CostComparisonPerClass | dazzling-display-delight-main/src/lib/evDataUtils.ts:372-393 | the k-th bar group is the k-th class's group, whose two bars lie within half a cent of that class's EV and ICE mean cost per km |
| Summaries.EmissionSliceOf | dazzling-display-delight-main/src/lib/evDataUtils.ts:400-406 | a slice is named "EV x" or "ICE x", coloured by its side, and 0 when the class has no row of that side |
| Summaries.EmissionSliceWithoutRow | dazzling-display-delight-main/src/lib/evDataUtils.ts:403-404 | a class without a row of a powertrain gets a 0 slice for it |
| Summaries.GetEmissionsData | dazzling-display-delight-main/src/lib/evDataUtils.ts:396-411 | six slices, alternating EV and ICE, for 2W, 3W and 4W |
| Summaries.EmissionSliceIsFirstRow | dazzling-display-delight-main/src/lib/evDataUtils.ts:403-404 | a slice is the first matching row's CO2 in whole grams, not a mean |
| Summaries.ClusterOf | dazzling-display-delight-main/src/lib/evDataUtils.ts:444-448 | the lookup finds a row with the key, and finds nothing exactly when no row has the key |
| Summaries.MergeClusters | dazzling-display-delight-main/src/lib/evDataUtils.ts:440-459 | the merge keeps length and order and touches only cluster and indices; a summary without a cluster row is unchanged |
| Summaries.MergeLastRowWins | dazzling-display-delight-main/src/lib/evDataUtils.ts:445 | when cluster rows share a key, the last one wins |
| Summaries.MergeWithoutClusters | dazzling-display-delight-main/src/lib/evDataUtils.ts:440-459 | merging with no cluster rows changes nothing |
| Summaries.MergeIdempotent | dazzling-display-delight-main/src/lib/evDataUtils.ts:447-457 | merging twice with the same rows is merging once |
| Summaries.MergeSequential | dazzling-display-delight-main/src/lib/evDataUtils.ts:444-448 | merging `a` and then `b` is merging `a` followed by `b` |
| Summaries.RoundTo | dazzling-display-delight-main/src/lib/evDataUtils.ts:501 | `Math.round(x*k)/k` is a whole number of `1/k` steps, within half a step of `x` |
| Summaries.MeanOr | dazzling-display-delight-main/src/lib/evDataUtils.ts:468-470 | the fallback when there is nothing to average; otherwise a value that times the count gives the sum |
| Summaries.GetScenarioBaseParams | dazzling-display-delight-main/src/lib/evDataUtils.ts:462-509 | each default is the rounded mean over its rows, with the hard-coded fallback when there are none |
| Summaries.DefaultsSurviveRounding | dazzling-display-delight-main/src/lib/evDataUtils.ts:500-507 | without data the parameters are exactly 105, 8, 2, 0.3, 0.8, 1.5 and 0.07 |
| Summaries.PetrolPriceWithinPositivePrices | dazzling-display-delight-main/src/lib/evDataUtils.ts:467-470 | the petrol default is never negative and lies within half a cent of the range of the positive fuel prices |
| Tco.BreakEvenYears | dazzling-display-delight-main/src/pages/Scenarios.tsx:87 | the break-even is 99 without a positive saving; otherwise the break-even years times the saving repay the price gap |
| Tco.BreakEvenLabelOf | dazzling-display-delight-main/src/pages/Scenarios.tsx:118 | "15+" shows exactly from 15 years on; below that the years are shown to within 0.05 |
| Tco.RoundedComparison | dazzling-display-delight-main/src/pages/Scenarios.tsx:110-112 | rounding the TCOs and the saving never contradicts which side is cheaper |
| Tco.NoSavingShowsFifteenPlus | dazzling-display-delight-main/src/pages/Scenarios.tsx:118 | the 99 sentinel always shows as "15+" |
| Tco.BreakEvenAntitone | dazzling-display-delight-main/src/pages/Scenarios.tsx:87 | a larger saving never lengthens a non-negative break-even |
| Tco.NegativeBreakEven | dazzling-display-delight-main/src/pages/Scenarios.tsx:85-87 | a subsidy beyond the price gap gives a negative break-even, shown as a number, not clamped |
| Scenarios.YearlyData | dazzling-display-delight-main/src/pages/Scenarios.tsx:90-107 | eight points for years 0 to 7, each the year's cumulative cost rounded to lakhs |
| Scenarios.CalculateScenarioImpact | dazzling-display-delight-main/src/pages/Scenarios.tsx:47-122 | the verdict, the saving's sign and the rounded TCOs agree; "15+" shows without a saving; ICE CO2 is 120 g/km; eight yearly points |
| Scenarios.ImpactFigures | dazzling-display-delight-main/src/pages/Scenarios.tsx:109-119 | the shown TCOs, saving and CO2 saving are the rounded exact quantities; the per-km cost and EV CO2 are the fixed-point displays of theirs |
| Scenarios.BlendedRateBetween | dazzling-display-delight-main/src/pages/Scenarios.tsx:66 | the 70/30 blended rate lies between the home and public rates |
| Scenarios.EvPriceFallsWithReduction | dazzling-display-delight-main/src/pages/Scenarios.tsx:62 | a larger reduction never raises the EV price; with no reduction the price is 1800000; a reduction of 0 to 100 percent keeps the price in [0, 1800000] |
| Scenarios.TrajectoryEndpoints | dazzling-display-delight-main/src/pages/Scenarios.tsx:91-101 | the year-by-year formula starts at the net purchase prices and ends at the two TCOs |
| Scenarios.YearlyDataEnds | dazzling-display-delight-main/src/pages/Scenarios.tsx:102-106 | the plotted year 0 and year 7 are those amounts in lakhs |
| Scenarios.PetrolPriceRaisesIceSide | dazzling-display-delight-main/src/pages/Scenarios.tsx:74-87 | a higher petrol price strictly raises the ICE TCO, the saving and the annual saving, and leaves the EV TCO and price gap alone |
| Scenarios.PetrolPriceKeepsEvResults | dazzling-display-delight-main/src/pages/Scenarios.tsx:109-119 | a higher petrol price leaves every displayed EV figure unchanged and never lowers the displayed ICE TCO or saving |
| Scenarios.SubsidyOneForOne | dazzling-display-delight-main/src/pages/Scenarios.tsx:69-85 | the subsidy lowers the EV TCO and the break-even numerator one for one, and nothing else |
| Scenarios.EffectiveInputs | dazzling-display-delight-main/src/pages/Scenarios.tsx:147-158 | the green-grid switch replaces only the grid factor, with 50 |
| Scenarios.GreenGridFigures | dazzling-display-delight-main/src/pages/Scenarios.tsx:152 | on the green grid the EV shows 7 g/km against 120 and saves 11534 kg |
| Scenarios.SweepBreakEven | dazzling-display-delight-main/src/pages/Scenarios.tsx:175 | the corrected sweep plots the shown number of years, and 15 for "15+" |
| Scenarios.SweepBreakEvenAsWritten | dazzling-display-delight-main/src/pages/Scenarios.tsx:175 | `parseFloat(breakEven) \|\| 15` plots 15 for "15+" and the shown years when they are not 0 |
| Scenarios.SensitivitySweep | dazzling-display-delight-main/src/pages/Scenarios.tsx:161-179 | eight points at petrol prices 80, 90, ..., 150, each plotting its scenario's saving in lakhs and `parseFloat(breakEven) \|\| 15`: 15 for "15+" and for a break-even of 0, otherwise the shown years |
| Scenarios.CorrectedSensitivitySweep | dazzling-display-delight-main/src/pages/Scenarios.tsx:161-179 | the sweep with the break-even plotted as shown: same prices and savings, and equal to the page's sweep at exactly the points whose break-even is not 0 |
| Scenarios.SweepSavingsNonDecreasing | dazzling-display-delight-main/src/pages/Scenarios.tsx:163-174 | the plotted saving never falls as the petrol price rises |
| Scenarios.SweepBreakEvenTracksBreakEven | dazzling-display-delight-main/src/pages/Scenarios.tsx:175 | the corrected sweep plots each point's break-even to within 0.05, or 15 from 15 years on |
| Scenarios.SweepAsWrittenLosesZeroBreakEven | dazzling-display-delight-main/src/pages/Scenarios.tsx:175 | at petrol 80 with a 25% reduction and the base subsidy the break-even is 0, yet the page's sweep plots 15 where the corrected sweep plots 0 |
| Scenarios.BaseScenarioFigures | dazzling-display-delight-main/src/pages/Scenarios.tsx:38-45 | the base scenario gives TCOs 1853460 and 2055400, saving 201940, break-even 4.8, 100 vs 120 g/km and 2044 kg saved |
| Calculator.PurchasePrices | dazzling-display-delight-main/src/pages/Calculator.tsx:98-104 | the class table's prices are whole rupees, and the EV always costs more than the ICE vehicle |
| Calculator.CurrentVehicleData | dazzling-display-delight-main/src/pages/Calculator.tsx:86-88 | the entry found is the FIRST entry with the selected class; there is none exactly when no entry has it |
| Calculator.AnnualSavings | dazzling-display-delight-main/src/pages/Calculator.tsx:117-120 | the annual saving is undefined (NaN) exactly for an ownership period of 0 |
| Calculator.BreakEven | dazzling-display-delight-main/src/pages/Calculator.tsx:116-121 | 99 for a period of 0 or a saving that is not positive; otherwise the break-even times the annual saving is the table price gap |
| Calculator.TcoOverTime | dazzling-display-delight-main/src/pages/Calculator.tsx:124-138 | `years + 1` points, each the rounded cumulative cost of that year |
| Calculator.CostBreakdown | dazzling-display-delight-main/src/pages/Calculator.tsx:141-157 | three categories whose lakh figures add up to each side's TCO in lakhs |
| Calculator.SideOf | dazzling-display-delight-main/src/pages/Calculator.tsx:160-175 | one column: the table price, fuel, maintenance and total costs each within half a rupee of the exact amount, the per-km cost within half a paisa, and the CO2 within half a gram per km |
| Calculator.Co2Saving | dazzling-display-delight-main/src/pages/Calculator.tsx:178 | within half a kilogram of the per-km CO2 gap times the total distance, and never negative for an EV that emits no more per km |
| Calculator.ComparisonOf | dazzling-display-delight-main/src/pages/Calculator.tsx:91-184 | prices come from the table; verdict, saving and rounded TCOs agree in sign; "15+" shows for a period of 0 or an EV that is dearer to run; a cleaner EV never shows a negative CO2 saving; the exact figures are in `ComparisonFigures` |
| Calculator.ComparisonFigures | dazzling-display-delight-main/src/pages/Calculator.tsx:105-181 | the shown TCOs and saving are the rounded exact TCOs and their gap, the EV is recommended exactly when its exact TCO is lower, and the CO2 saving is the rounded per-km CO2 gap times the total distance |
| Calculator.TcoGapOverPeriod | dazzling-display-delight-main/src/pages/Calculator.tsx:105-120 | over a positive period the ICE TCO minus the EV TCO is the annual saving times the years, less the table price gap |
| Calculator.ComparisonSavingsFromAnnual | dazzling-display-delight-main/src/pages/Calculator.tsx:116-176 | over a positive period the shown saving is the annual saving times the years, less the price gap, rounded |
| Calculator.Compare | dazzling-display-delight-main/src/pages/Calculator.tsx:91-92 | the result is null exactly when no entry has the class; otherwise it is the comparison of the first entry with the class |
| Calculator.AnnualSavingsPerYear | dazzling-display-delight-main/src/pages/Calculator.tsx:117-120 | over a positive period the annual saving is the per-km running-cost gap times 365 days of driving |
| Calculator.NoSavingWhenEvRunsDearer | dazzling-display-delight-main/src/pages/Calculator.tsx:117-121 | an EV that is dearer to run gives no positive annual saving |
| Calculator.BreakEvenIgnoresOwnership | dazzling-display-delight-main/src/pages/Calculator.tsx:117-121 | for any two positive ownership periods the break-even, and its label, are the same |
| Calculator.BreakEvenRepaysPriceGap | dazzling-display-delight-main/src/pages/Calculator.tsx:119-121 | with a saving, break-even times saving is the table's price gap, with no subsidy in it |
| Calculator.TcoOverTimeEnds | dazzling-display-delight-main/src/pages/Calculator.tsx:124-138 | the trajectory starts at the table prices and ends at the displayed TCOs |
| Calculator.BreakdownAddsUpToTco | dazzling-display-delight-main/src/pages/Calculator.tsx:141-157 | the breakdown bars, scaled back from lakhs and rounded, give the displayed TCOs |
| Calculator.RoundedSavingNonNegative | dazzling-display-delight-main/src/pages/Calculator.tsx:178 | a non-negative per-km gap over a non-negative distance rounds to a non-negative saving |
| Calculator.LocationAlwaysCompares | dazzling-display-delight-main/src/pages/Calculator.tsx:80-92 | once a location is chosen, every class has an entry, so the comparison is never null |
| CityAnalysis.CityAnalysisMetrics | dazzling-display-delight-main/src/pages/CityAnalysis.tsx:41-49 | the page shows one summary per distinct city key |
| CityAnalysis.MergeGateIsTransparent | dazzling-display-delight-main/src/pages/CityAnalysis.tsx:41-49 | both guards could be dropped: the result is always the unguarded merge |
| CityAnalysis.ReadinessScore | dazzling-display-delight-main/src/pages/CityAnalysis.tsx:59 | the readiness score is `min(100, density·20 + 50)`: at most 100, at most the raw value, and equal to one of the two |
| CityAnalysis.ReadinessScoreMonotone | dazzling-display-delight-main/src/pages/CityAnalysis.tsx:59 | a denser network never lowers the score |
| CityAnalysis.TallyClusters | dazzling-display-delight-main/src/pages/CityAnalysis.tsx:58-62 | the `forEach` throws exactly when some label is neither a bucket nor an `Object.prototype` name; the counts add up to at most the city count, and to exactly that count when every label is a bucket; no total exceeds 100 per city |
| CityAnalysis.AverageReadiness | dazzling-display-delight-main/src/pages/CityAnalysis.tsx:64-67 | an empty bucket averages 0, and a bucket of capped scores averages at most 100 |
| CityAnalysis.ClusterSummary | dazzling-display-delight-main/src/pages/CityAnalysis.tsx:51-69 | three buckets ordered EV-Ready, Moderate, Low-Infra, with their colours; counts add up as above; averages at most 100 |
| CityAnalysis.TallyIsFilterFold | dazzling-display-delight-main/src/pages/CityAnalysis.tsx:58-62 | a bucket's count is the number of cities with its label, and its total is the sum of their scores |
| CityAnalysis.BucketIsRoundedMean | dazzling-display-delight-main/src/pages/CityAnalysis.tsx:64-67 | a non-empty bucket's average is the rounded mean readiness of the cities with its label |
| CityAnalysis.CitySummaryCoversEveryCity | dazzling-display-delight-main/src/pages/CityAnalysis.tsx:51-69 | on the feature data alone, the fold never throws and the bucket counts add up to the number of cities |
| CityAnalysis.IndexOrFallback | dazzling-display-delight-main/src/pages/CityAnalysis.tsx:77-82 | a present, non-zero index is scaled by 100; a missing or zero index gives the fallback |
| CityAnalysis.EconomicFallback | dazzling-display-delight-main/src/pages/CityAnalysis.tsx:79 | the economic fallback is 70 + 3 x the 4W advantage, clamped to [40, 100] |
| CityAnalysis.EnvironmentalFallback | dazzling-display-delight-main/src/pages/CityAnalysis.tsx:82 | the environmental fallback is 60 + 500 x the CO2 advantage, clamped to [40, 80] |
| CityAnalysis.ScatterPointOf | dazzling-display-delight-main/src/pages/CityAnalysis.tsx:72-84 | a point keeps the city's names and label; an index is the scaled ML index when present and non-zero, and otherwise its clamped fallback; readiness is the city's `ReadinessScore` of its charging density, so at most 100 |
| CityAnalysis.ScatterData | dazzling-display-delight-main/src/pages/CityAnalysis.tsx:71-85 | one point per city, in order |
| CityAnalysis.UnmergedPointsInFallbackBox | dazzling-display-delight-main/src/pages/CityAnalysis.tsx:77-82 | without merged clusters every point lies in [40, 100] × [40, 80] |
| CityAnalysis.EconomicFallbackMonotone | dazzling-display-delight-main/src/pages/CityAnalysis.tsx:79 | a larger 4W cost advantage never lowers the economic fallback |
| Dashboard.Insert | dazzling-display-delight-main/src/pages/Dashboard.tsx:72 | inserting adds exactly one city and loses none |
| Dashboard.InsertKeepsSorted | dazzling-display-delight-main/src/pages/Dashboard.tsx:72 | inserting into a ranking by density keeps it a ranking |
| Dashboard.SortByDensity | dazzling-display-delight-main/src/pages/Dashboard.tsx:71-72 | the sort is a permutation of the cities, ordered by non-increasing density |
| Dashboard.CityScore | dazzling-display-delight-main/src/pages/Dashboard.tsx:76 | the score is `min(100, round(density·20 + 50))`: at most 100, at most the rounded raw value, and equal to one of the two |
| Dashboard.CityScoreMonotone | dazzling-display-delight-main/src/pages/Dashboard.tsx:76 | a denser network never scores lower |
| Dashboard.TopCities | dazzling-display-delight-main/src/pages/Dashboard.tsx:70-78 | at most five entries: the first cities of the ranking with their scores |
| Dashboard.TopScoresNonIncreasing | dazzling-display-delight-main/src/pages/Dashboard.tsx:70-78 | the ranking's scores never increase down the list |
| Dashboard.RankedCitiesAreDensest | dazzling-display-delight-main/src/pages/Dashboard.tsx:71-73 | a city left out of the top five is no denser than any city in it |
| Dashboard.Mumbai4WData | dazzling-display-delight-main/src/pages/Dashboard.tsx:81-85 | with any data the Mumbai 4W entry exists, and it is the third class entry |
| Dashboard.TcoTrendData | dazzling-display-delight-main/src/pages/Dashboard.tsx:88-99 | nine points for years 0 to 8 at 15000 km a year, starting at 1500000 and 1000000; empty without data |
| Dashboard.TrendMatchesCalculator | dazzling-display-delight-main/src/pages/Dashboard.tsx:94-98 | each trend point equals the location calculator's point for a Mumbai 4W driven 15000 km a year |
| Dashboard.TrendNonDecreasing | dazzling-display-delight-main/src/pages/Dashboard.tsx:96 | with a non-negative running cost the EV trend never falls |
| Dashboard.MaintenanceDenominator | dazzling-display-delight-main/src/pages/Dashboard.tsx:194 | the divisor is the ICE maintenance cost when present and non-zero, and 1 otherwise |
| Dashboard.MaintenanceLowerPercent | dazzling-display-delight-main/src/pages/Dashboard.tsx:194 | the figure is within half a point of `(ICE − EV) / ICE · 100`, with 1 standing in for a zero ICE cost, and 100 without data; when `0 ≤ EV ≤ ICE` it lies in [0, 100] |

## Left out

- `src/hooks/useEVData.ts` is not part of this model. It covers the fetches, the required-versus-optional file policy and React state, which are I/O.
- The chat relay and its streaming reader are not part of this model. They are a network client.
- JSX, charts and static pages are left out.
- The default state and city selection with `setState` inside `useMemo` (Calculator.tsx 58-77) is left out. It is UI state.
- IEEE-754 behaviour is not modelled: numbers are exact reals. No binary rounding is modelled, and no NaN apart from the calculator's zero-year case, which is `None`.
- Strings from `toFixed` and `toLocaleString` are modelled as the numbers they denote, not as text. The `-0.0` that `toFixed` can print reads as 0, as `parseFloat` does.
- The in-place mutation done by `sort` on the memoised city array is not modelled. The ranking is a pure function of the list.
- Dashboard.SortByDensity: proves order and permutation, not stability. Cities of equal density are placed after the earlier ones, as a stable sort does, but that is not stated.
- The bucket descriptions and the radar chart are left out. They are constant text and numbers.
- The dashboard's `emissionsData` filter on names containing "4W" (Dashboard.tsx 61) is not modelled. It only selects slices of `getEmissionsData`, which is modelled.
- Writing through an `Object.prototype` name such as `__proto__` in the cluster fold is modelled as changing no bucket. The side effect on shared prototypes is left out.
- Parsing.ParseFeatureCsv: states the record count and, through `FeatureCsvKeepsLongLines`, which line each record comes from. It does not restate every one of the 27 columns.
- Tco.BreakEvenLabelOf: states the shown number of years to within 0.05, not as the exact decimal string.
- Scenarios.SweepBreakEvenTracksBreakEven: states each value the corrected sweep plots to within 0.05 of the break-even, because the plot reads back the one-decimal label.

## Findings

| source | as written | input that shows it | evidently intended | confidence | as-written member | corrected member |
|---|---|---|---|---|---|---|
| dazzling-display-delight-main/src/pages/Scenarios.tsx:175 | `breakEven: parseFloat(result.breakEven) \|\| 15` treats a break-even shown as "0.0" (or "-0.0") as missing and plots 15 years | petrol 80, EV price reduction 25%, subsidy 150000: the EV price 1350000 minus 1200000 minus the subsidy is a gap of 0 with a positive saving, so the break-even is 0 but the sweep plots 15 | plot the break-even as shown (0), using 15 only for "15+" | not executed | Scenarios.SweepAsWrittenLosesZeroBreakEven | Scenarios.CorrectedSensitivitySweep |

=== FILE: advantages.dfy ===
/** The EV/ICE pairing pass at the end of `parseFeatureEngineeredCSV`: rows
    are grouped under the string key `${state}-${city}-${vehicleClass}`; in
    every group holding both an EV and an ICE row, the first EV row receives
    `ICE − EV` cost per km and CO₂ per km of the first ICE row. `parseFeatureEngineeredCSV`
    mutates that row in place; here the pass returns the updated sequence. */
module Advantages {
  import opened Wrappers
  import opened Seqs
  import opened Records

  /** Selects the rows of the pairing group `key` with powertrain `pt`. */
  function InGroup(key: string, pt: string): EvIceRecord -> bool {
    r => PairKey(r) == key && r.powertrain == pt
  }

  /** `group.find(r => r.powertrain === pt)` for the group of `key`. */
  function FirstOfGroup(rs: seq<EvIceRecord>, key: string, pt: string): Option<nat> {
    FirstIndex(rs, InGroup(key, pt))
  }

  /** Row `i` is the first EV row of its group and the group has an ICE row:
      the one row of the group the pass writes to. */
  predicate IsPairedEv(rs: seq<EvIceRecord>, i: nat)
    requires i < |rs|
  {
    && FirstOfGroup(rs, PairKey(rs[i]), EvLabel) == Some(i)
    && FirstOfGroup(rs, PairKey(rs[i]), IceLabel).Some?
  }

  /** Row `i` after the pass. */
  function PairedRow(rs: seq<EvIceRecord>, i: nat): EvIceRecord
    requires i < |rs|
  {
    if IsPairedEv(rs, i) then WithPair(rs[i], rs[FirstOfGroup(rs, PairKey(rs[i]), IceLabel).value])
    else rs[i]
  }

  /** `ev` carrying the advantages it has over `ice`. */
  function WithPair(ev: EvIceRecord, ice: EvIceRecord): EvIceRecord {
    ev.(costAdvantage := ice.costPerKm - ev.costPerKm,
        co2Advantage := ice.co2PerKm - ev.co2PerKm)
  }

  /** Writing the advantages again against a row with the same costs
      changes nothing. */
  lemma WithPairTwice(ev: EvIceRecord, ice: EvIceRecord, ice': EvIceRecord)
    requires ice'.costPerKm == ice.costPerKm && ice'.co2PerKm == ice.co2PerKm
    ensures WithPair(WithPair(ev, ice), ice') == WithPair(ev, ice)
  {
  }

  /** The pairing pass: same rows, same order, and only the advantage fields
      of paired EV rows change. */
  function WithAdvantages(rs: seq<EvIceRecord>): (out: seq<EvIceRecord>)
    ensures |out| == |rs|
    ensures forall i :: 0 <= i < |rs| ==>
      out[i] == rs[i].(costAdvantage := out[i].costAdvantage, co2Advantage := out[i].co2Advantage)
    ensures forall i :: 0 <= i < |rs| && out[i] != rs[i] ==> IsEv(rs[i])
  {
    seq(|rs|, i requires 0 <= i < |rs| => PairedRow(rs, i))
  }

  /** Within a group holding both sides, the first EV row carries exactly the
      first ICE row's cost and CO₂ per km minus its own, and no other row of
      the sequence is changed. */
  lemma PairedAdvantage(rs: seq<EvIceRecord>, ev: nat, ice: nat)
    requires ev < |rs| && ice < |rs|
    requires IsEv(rs[ev]) && IsIce(rs[ice]) && PairKey(rs[ev]) == PairKey(rs[ice])
    requires forall j :: 0 <= j < ev ==> !(IsEv(rs[j]) && PairKey(rs[j]) == PairKey(rs[ev]))
    requires forall j :: 0 <= j < ice ==> !(IsIce(rs[j]) && PairKey(rs[j]) == PairKey(rs[ice]))
    ensures WithAdvantages(rs)[ev].costAdvantage == rs[ice].costPerKm - rs[ev].costPerKm
    ensures WithAdvantages(rs)[ev].co2Advantage == rs[ice].co2PerKm - rs[ev].co2PerKm
  {
    var key := PairKey(rs[ev]);
    var e := FirstOfGroup(rs, key, EvLabel);
    var m := FirstOfGroup(rs, key, IceLabel);
    assert InGroup(key, EvLabel)(rs[ev]);
    assert InGroup(key, IceLabel)(rs[ice]);
    assert forall j :: 0 <= j < ev ==> !InGroup(key, EvLabel)(rs[j]);
    assert forall j :: 0 <= j < ice ==> !InGroup(key, IceLabel)(rs[j]);
    assert e == Some(ev);
    assert m == Some(ice);
    assert IsPairedEv(rs, ev);
  }

  /** A row that is not the first EV row of a group with an ICE row keeps its
      advantages, so ICE rows, later EV rows and unpaired EV rows of a freshly
      parsed table stay at 0. */
  lemma UnpairedRowUnchanged(rs: seq<EvIceRecord>, i: nat)
    requires i < |rs|
    requires !IsEv(rs[i])
      || (exists j :: 0 <= j < i && IsEv(rs[j]) && PairKey(rs[j]) == PairKey(rs[i]))
      || (forall j :: 0 <= j < |rs| ==> !(IsIce(rs[j]) && PairKey(rs[j]) == PairKey(rs[i])))
    ensures WithAdvantages(rs)[i] == rs[i]
  {
    var key := PairKey(rs[i]);
    if IsEv(rs[i]) {
      if exists j :: 0 <= j < i && IsEv(rs[j]) && PairKey(rs[j]) == PairKey(rs[i]) {
        var j :| 0 <= j < i && IsEv(rs[j]) && PairKey(rs[j]) == PairKey(rs[i]);
        assert InGroup(key, EvLabel)(rs[j]);
      } else {
        assert forall j :: 0 <= j < |rs| ==> !InGroup(key, IceLabel)(rs[j]);
      }
    }
  }

  /** The pass writes only values computed from cost and CO₂ per km, which it
      never changes, so applying it twice is applying it once. */
  lemma WithAdvantagesIdempotent(rs: seq<EvIceRecord>)
    ensures WithAdvantages(WithAdvantages(rs)) == WithAdvantages(rs)
  {
    forall i | 0 <= i < |rs|
      ensures WithAdvantages(WithAdvantages(rs))[i] == WithAdvantages(rs)[i]
    {
      IdempotentAt(rs, i);
    }
  }

  lemma IdempotentAt(rs: seq<EvIceRecord>, i: nat)
    requires i < |rs|
    ensures PairedRow(WithAdvantages(rs), i) == PairedRow(rs, i)
  {
    PairingSurvivesPass(rs, i);
    if IsPairedEv(rs, i) {
      PairedRowAfterPass(rs, i);
    } else {
      assert WithAdvantages(rs)[i] == PairedRow(rs, i);
    }
  }

  /** Whether row `i` is a paired EV row, and which ICE row it pairs with,
      does not change under the pass. */
  lemma PairingSurvivesPass(rs: seq<EvIceRecord>, i: nat)
    requires i < |rs|
    ensures IsPairedEv(WithAdvantages(rs), i) == IsPairedEv(rs, i)
    ensures FirstOfGroup(WithAdvantages(rs), PairKey(rs[i]), IceLabel) == FirstOfGroup(rs, PairKey(rs[i]), IceLabel)
  {
    var key := PairKey(rs[i]);
    KeptFields(rs, i);
    SameGroupsAfterPass(rs, key, EvLabel);
    SameGroupsAfterPass(rs, key, IceLabel);
  }

  /** A paired EV row gets the same advantages on a second pass. */
  lemma PairedRowAfterPass(rs: seq<EvIceRecord>, i: nat)
    requires i < |rs|
    requires IsPairedEv(rs, i)
    requires IsPairedEv(WithAdvantages(rs), i)
    requires FirstOfGroup(WithAdvantages(rs), PairKey(rs[i]), IceLabel) == FirstOfGroup(rs, PairKey(rs[i]), IceLabel)
    ensures PairedRow(WithAdvantages(rs), i) == PairedRow(rs, i)
  {
    var once := WithAdvantages(rs);
    var m := FirstOfGroup(rs, PairKey(rs[i]), IceLabel).value;
    assert once[i] == PairedRow(rs, i) == WithPair(rs[i], rs[m]);
    assert once[m] == PairedRow(rs, m);
    WithPairTwice(rs[i], rs[m], once[m]);
  }

  /** The pass keeps each row's key, powertrain, cost and CO₂ per km. */
  lemma KeptFields(rs: seq<EvIceRecord>, i: nat)
    requires i < |rs|
    ensures var o := WithAdvantages(rs)[i];
      && PairKey(o) == PairKey(rs[i]) && o.powertrain == rs[i].powertrain
      && o.costPerKm == rs[i].costPerKm && o.co2PerKm == rs[i].co2PerKm
  {
  }

  /** The pass keeps every row's key and powertrain, so every group's first
      EV and first ICE row sit where they sat before. */
  lemma SameGroupsAfterPass(rs: seq<EvIceRecord>, key: string, pt: string)
    ensures FirstOfGroup(WithAdvantages(rs), key, pt) == FirstOfGroup(rs, key, pt)
  {
    var out := WithAdvantages(rs);
    assert forall j :: 0 <= j < |rs| ==> (InGroup(key, pt)(out[j]) <==> InGroup(key, pt)(rs[j]));
    FirstIndexSameMatches(rs, out, InGroup(key, pt));
  }

  /** Two sequences whose elements agree on `p` position by position have the
      same first match. */
  lemma {:induction false} FirstIndexSameMatches<T>(a: seq<T>, b: seq<T>, p: T -> bool)
    requires |a| == |b|
    requires forall j :: 0 <= j < |a| ==> (p(a[j]) <==> p(b[j]))
    ensures FirstIndex(a, p) == FirstIndex(b, p)
    decreases |a|
  {
    if |a| > 0 && !p(a[0]) {
      FirstIndexSameMatches(a[1..], b[1..], p);
    }
  }
}

=== FILE: calculator.dfy ===
/** The location calculator (`src/pages/Calculator.tsx`): the EV-versus-ICE
    total cost of ownership for one vehicle class in one city, driven by the
    class's `VehicleClassData` entry, a daily distance, an ownership period
    and a fixed table of purchase prices. */
module Calculator {
  import opened Wrappers
  import opened Seqs
  import opened Numbers
  import opened Records
  import opened Tco
  import Cities

  const DaysPerYear: real := 365.0

  /** Rupees per lakh, the unit of the cost breakdown chart. */
  const Lakh: real := 100000.0

  /** Grams per kilogram: CO2 figures are shown in g/km. */
  const KgToGrams: real := 1000.0

  /** Decimals the per-km costs are shown with. */
  const CostDigits: nat := 2

  datatype Prices = Prices(ev: real, ice: real)

  /** The `basePrices` table: the only source of purchase prices. */
  function PurchasePrices(vc: VehicleClass): (p: Prices)
    ensures p.ev > p.ice > 0.0
    ensures p.ev.Floor as real == p.ev && p.ice.Floor as real == p.ice
  {
    match vc
    case TwoWheeler => Prices(150000.0, 80000.0)
    case ThreeWheeler => Prices(350000.0, 200000.0)
    case FourWheeler => Prices(1500000.0, 1000000.0)
  }

  function ClassIs(vc: VehicleClass): VehicleClassData -> bool {
    (d: VehicleClassData) => d.vehicleClass == vc
  }

  /** Entry `i` is the first entry of class `vc`. */
  predicate FirstOfClass(vehicleData: seq<VehicleClassData>, vc: VehicleClass, i: nat) {
    i < |vehicleData| && vehicleData[i].vehicleClass == vc
    && forall j :: 0 <= j < i ==> vehicleData[j].vehicleClass != vc
  }

  /** `vehicleData.find(v => v.vehicleClass === vehicleClass)`. */
  function CurrentVehicleData(vehicleData: seq<VehicleClassData>, vc: VehicleClass): (r: Option<VehicleClassData>)
    ensures r.Some? ==> r.value in vehicleData && r.value.vehicleClass == vc
    ensures r.Some? ==> exists i: nat :: i < |vehicleData| && vehicleData[i] == r.value && FirstOfClass(vehicleData, vc, i)
    ensures r.None? <==> forall i :: 0 <= i < |vehicleData| ==> vehicleData[i].vehicleClass != vc
  {
    Find(vehicleData, ClassIs(vc))
  }

  function AnnualKm(dailyKm: real): real {
    dailyKm * DaysPerYear
  }

  function TotalKm(dailyKm: real, years: nat): real {
    AnnualKm(dailyKm) * years as real
  }

  /** Energy plus maintenance per km of each side. */
  function EvRunningPerKm(d: VehicleClassData): real {
    d.evCostPerKm + d.evMaintenanceCost
  }

  function IceRunningPerKm(d: VehicleClassData): real {
    d.iceCostPerKm + d.iceMaintenanceCost
  }

  /** The cumulative EV cost after `km` kilometres: purchase, energy, maintenance. */
  function EvTcoAt(d: VehicleClassData, vc: VehicleClass, km: real): real {
    PurchasePrices(vc).ev + d.evCostPerKm * km + d.evMaintenanceCost * km
  }

  function IceTcoAt(d: VehicleClassData, vc: VehicleClass, km: real): real {
    PurchasePrices(vc).ice + d.iceCostPerKm * km + d.iceMaintenanceCost * km
  }

  /** `annualIceCost - annualEvCost`: both running costs divided by the
      ownership period. With a period of 0 both are `0 / 0`, NaN, which is
      `None` here. */
  function AnnualSavings(d: VehicleClassData, dailyKm: real, years: nat): (s: Option<real>)
    ensures s.None? <==> years == 0
  {
    if years == 0 then None
    else
      var km := TotalKm(dailyKm, years);
      var annualEv := (d.evCostPerKm * km + d.evMaintenanceCost * km) / years as real;
      var annualIce := (d.iceCostPerKm * km + d.iceMaintenanceCost * km) / years as real;
      Some(annualIce - annualEv)
  }

  /** `annualSavings > 0 ? priceDiff / annualSavings : 99`, with the table's
      price gap as numerator; a NaN saving fails the test and gives 99. */
  function BreakEven(d: VehicleClassData, vc: VehicleClass, dailyKm: real, years: nat): (be: real)
    ensures years == 0 ==> be == NeverYears
    ensures years > 0 && AnnualSavings(d, dailyKm, years).value <= 0.0 ==> be == NeverYears
    ensures years > 0 && AnnualSavings(d, dailyKm, years).value > 0.0 ==>
      be * AnnualSavings(d, dailyKm, years).value == PurchasePrices(vc).ev - PurchasePrices(vc).ice
  {
    var p := PurchasePrices(vc);
    match AnnualSavings(d, dailyKm, years)
    case None => NeverYears
    case Some(s) => BreakEvenYears(p.ev - p.ice, s)
  }

  /** The figures of one side as displayed. */
  datatype Side = Side(
    purchasePrice: real,
    fuelCost: int,
    maintenanceCost: int,
    tco: int,
    costPerKm: real,
    co2: int)

  datatype YearPoint = YearPoint(year: nat, ev: int, ice: int)

  /** One bar group of the cost breakdown chart, in lakhs. */
  datatype BreakdownRow = BreakdownRow(category: string, ev: real, ice: real)

  /** What the `comparison` memo returns. */
  datatype Comparison = Comparison(
    ev: Side,
    ice: Side,
    savings: int,
    breakEvenYears: BreakEvenLabel,
    co2Savings: int,
    tcoOverTime: seq<YearPoint>,
    costBreakdownData: seq<BreakdownRow>,
    evRecommended: bool,
    costAdvantage: real)

  /** The cumulative costs at the end of year `y` of the trajectory. */
  function EvTcoInYear(d: VehicleClassData, vc: VehicleClass, dailyKm: real, y: nat): real {
    EvTcoAt(d, vc, AnnualKm(dailyKm) * y as real)
  }

  function IceTcoInYear(d: VehicleClassData, vc: VehicleClass, dailyKm: real, y: nat): real {
    IceTcoAt(d, vc, AnnualKm(dailyKm) * y as real)
  }

  /** Years 0 to `years` of both cumulative costs, rounded. */
  function TcoOverTime(d: VehicleClassData, vc: VehicleClass, dailyKm: real, years: nat): (ys: seq<YearPoint>)
    ensures |ys| == years + 1
    ensures forall y :: 0 <= y < |ys| ==> ys[y].year == y
    ensures forall y :: 0 <= y < |ys| ==>
      ys[y].ev as real - 0.5 <= EvTcoInYear(d, vc, dailyKm, y) < ys[y].ev as real + 0.5
    ensures forall y :: 0 <= y < |ys| ==>
      ys[y].ice as real - 0.5 <= IceTcoInYear(d, vc, dailyKm, y) < ys[y].ice as real + 0.5
  {
    seq(years + 1, y requires 0 <= y <= years =>
      YearPoint(y, Round(EvTcoInYear(d, vc, dailyKm, y)), Round(IceTcoInYear(d, vc, dailyKm, y))))
  }

  /** Purchase, energy and maintenance of both sides, in lakhs. */
  function CostBreakdown(d: VehicleClassData, vc: VehicleClass, km: real): (rows: seq<BreakdownRow>)
    ensures |rows| == 3
    ensures rows[0].ev + rows[1].ev + rows[2].ev == EvTcoAt(d, vc, km) / Lakh
    ensures rows[0].ice + rows[1].ice + rows[2].ice == IceTcoAt(d, vc, km) / Lakh
  {
    var p := PurchasePrices(vc);
    [ BreakdownRow("Purchase", p.ev / Lakh, p.ice / Lakh),
      BreakdownRow("Fuel/Energy", d.evCostPerKm * km / Lakh, d.iceCostPerKm * km / Lakh),
      BreakdownRow("Maintenance", d.evMaintenanceCost * km / Lakh, d.iceMaintenanceCost * km / Lakh) ]
  }

  /** One column of the comparison: costs over `km` kilometres, rounded to
      whole rupees, and the per-km figures shown beside them. */
  function SideOf(price: real, costPerKm: real, maintenancePerKm: real, co2PerKm: real, tco: real, km: real): (s: Side)
    ensures s.purchasePrice == price && s.tco == Round(tco)
    ensures s.fuelCost as real - 0.5 <= costPerKm * km < s.fuelCost as real + 0.5
    ensures s.maintenanceCost as real - 0.5 <= maintenancePerKm * km < s.maintenanceCost as real + 0.5
    ensures s.tco as real - 0.5 <= tco < s.tco as real + 0.5
    ensures -0.5 <= (s.costPerKm - costPerKm) * 100.0 <= 0.5
    ensures s.co2 as real - 0.5 <= co2PerKm * KgToGrams < s.co2 as real + 0.5
  {
    Side(price, Round(costPerKm * km), Round(maintenancePerKm * km), Round(tco),
         ToFixed(costPerKm, CostDigits), Round(co2PerKm * KgToGrams))
  }

  /** The CO2 avoided over the period, rounded: never negative when the EV
      emits no more per km than the ICE vehicle. */
  function Co2Saving(d: VehicleClassData, dailyKm: real, years: nat): (s: int)
    ensures s as real - 0.5 <= (d.iceCo2PerKm - d.evCo2PerKm) * TotalKm(dailyKm, years) < s as real + 0.5
    ensures d.evCo2PerKm <= d.iceCo2PerKm && dailyKm >= 0.0 ==> s >= 0
  {
    RoundedSavingNonNegative(d.iceCo2PerKm - d.evCo2PerKm, dailyKm, years);
    Round((d.iceCo2PerKm - d.evCo2PerKm) * TotalKm(dailyKm, years))
  }

  /** The body of the `comparison` memo once a class entry has been found. */
  function ComparisonOf(d: VehicleClassData, vc: VehicleClass, dailyKm: real, years: nat): (c: Comparison)
    ensures c.ev.purchasePrice == PurchasePrices(vc).ev && c.ice.purchasePrice == PurchasePrices(vc).ice
    ensures c.evRecommended ==> c.savings >= 0 && c.ev.tco <= c.ice.tco
    ensures !c.evRecommended ==> c.savings <= 0 && c.ev.tco >= c.ice.tco
    ensures years == 0 ==> c.breakEvenYears == FifteenPlus
    ensures EvRunningPerKm(d) >= IceRunningPerKm(d) && dailyKm >= 0.0 ==> c.breakEvenYears == FifteenPlus
    ensures |c.tcoOverTime| == years + 1
    ensures |c.costBreakdownData| == 3
    ensures d.evCo2PerKm <= d.iceCo2PerKm && dailyKm >= 0.0 ==> c.co2Savings >= 0
    ensures c.costAdvantage == d.costAdvantage
  {
    var p := PurchasePrices(vc);
    var km := TotalKm(dailyKm, years);
    var evTco := EvTcoAt(d, vc, km);
    var iceTco := IceTcoAt(d, vc, km);
    RoundedComparison(evTco, iceTco);
    NoSavingWhenEvRunsDearer(d, dailyKm, years);
    var be := BreakEven(d, vc, dailyKm, years);
    Comparison(
      SideOf(p.ev, d.evCostPerKm, d.evMaintenanceCost, d.evCo2PerKm, evTco, km),
      SideOf(p.ice, d.iceCostPerKm, d.iceMaintenanceCost, d.iceCo2PerKm, iceTco, km),
      Round(iceTco - evTco),
      BreakEvenLabelOf(be),
      Co2Saving(d, dailyKm, years),
      TcoOverTime(d, vc, dailyKm, years),
      CostBreakdown(d, vc, km),
      evTco < iceTco,
      d.costAdvantage)
  }

  /** The displayed totals, saving, verdict and CO2 saving of a comparison,
      each as the quantity over the whole period that it shows. */
  lemma ComparisonFigures(d: VehicleClassData, vc: VehicleClass, dailyKm: real, years: nat)
    ensures var c := ComparisonOf(d, vc, dailyKm, years);
      var km := TotalKm(dailyKm, years);
      && c.ev.tco == Round(EvTcoAt(d, vc, km))
      && c.ice.tco == Round(IceTcoAt(d, vc, km))
      && c.savings == Round(IceTcoAt(d, vc, km) - EvTcoAt(d, vc, km))
      && (c.evRecommended <==> EvTcoAt(d, vc, km) < IceTcoAt(d, vc, km))
      && c.co2Savings == Round((d.iceCo2PerKm - d.evCo2PerKm) * km)
  {
    var c := ComparisonOf(d, vc, dailyKm, years);
    assert c.co2Savings == Co2Saving(d, dailyKm, years);
    Co2SavingIsRounded(d, dailyKm, years);
  }

  lemma Co2SavingIsRounded(d: VehicleClassData, dailyKm: real, years: nat)
    ensures Co2Saving(d, dailyKm, years) == Round((d.iceCo2PerKm - d.evCo2PerKm) * TotalKm(dailyKm, years))
  {
  }

  /** Over a positive period the TCO gap is the annual saving earned every
      year, less the purchase-price gap of the table. */
  lemma TcoGapOverPeriod(d: VehicleClassData, vc: VehicleClass, dailyKm: real, years: nat)
    requires years > 0
    ensures AnnualSavings(d, dailyKm, years).Some?
    ensures IceTcoAt(d, vc, TotalKm(dailyKm, years)) - EvTcoAt(d, vc, TotalKm(dailyKm, years))
      == AnnualSavings(d, dailyKm, years).value * years as real - (PurchasePrices(vc).ev - PurchasePrices(vc).ice)
  {
    AnnualSavingsPerYear(d, dailyKm, years);
    var p := PurchasePrices(vc);
    var gap := IceRunningPerKm(d) - EvRunningPerKm(d);
    var a := AnnualKm(dailyKm);
    var n := years as real;
    var km := TotalKm(dailyKm, years);
    assert IceTcoAt(d, vc, km) - EvTcoAt(d, vc, km) == gap * km - (p.ev - p.ice);
    assert gap * km == (gap * a) * n;
  }

  /** The displayed saving of a positive period is the annual saving times
      the period, less the price gap, rounded. */
  lemma ComparisonSavingsFromAnnual(d: VehicleClassData, vc: VehicleClass, dailyKm: real, years: nat)
    requires years > 0
    ensures AnnualSavings(d, dailyKm, years).Some?
    ensures ComparisonOf(d, vc, dailyKm, years).savings
      == Round(AnnualSavings(d, dailyKm, years).value * years as real - (PurchasePrices(vc).ev - PurchasePrices(vc).ice))
  {
    ComparisonFigures(d, vc, dailyKm, years);
    TcoGapOverPeriod(d, vc, dailyKm, years);
  }

  /** The `comparison` memo: `null` when the selected class has no entry. */
  function Compare(vehicleData: seq<VehicleClassData>, vc: VehicleClass, dailyKm: real, years: nat): (r: Option<Comparison>)
    ensures r.None? <==> forall i :: 0 <= i < |vehicleData| ==> vehicleData[i].vehicleClass != vc
    ensures r.Some? ==>
      exists i: nat :: FirstOfClass(vehicleData, vc, i) && r.value == ComparisonOf(vehicleData[i], vc, dailyKm, years)
  {
    match CurrentVehicleData(vehicleData, vc)
    case None => None
    case Some(d) => Some(ComparisonOf(d, vc, dailyKm, years))
  }

  /** Over a positive period the annual saving is the per-km running-cost
      gap times the annual distance, whatever the period. */
  lemma AnnualSavingsPerYear(d: VehicleClassData, dailyKm: real, years: nat)
    requires years > 0
    ensures AnnualSavings(d, dailyKm, years).Some?
    ensures AnnualSavings(d, dailyKm, years).value == (IceRunningPerKm(d) - EvRunningPerKm(d)) * AnnualKm(dailyKm)
  {
    var n := years as real;
    var a := AnnualKm(dailyKm);
    var km := TotalKm(dailyKm, years);
    assert km == a * n;
    assert AnnualSavings(d, dailyKm, years).value == (d.iceCostPerKm * km + d.iceMaintenanceCost * km) / n
      - (d.evCostPerKm * km + d.evMaintenanceCost * km) / n;
    assert d.evCostPerKm * km + d.evMaintenanceCost * km == (EvRunningPerKm(d) * a) * n;
    assert d.iceCostPerKm * km + d.iceMaintenanceCost * km == (IceRunningPerKm(d) * a) * n;
    DivideOut(EvRunningPerKm(d) * a, n);
    DivideOut(IceRunningPerKm(d) * a, n);
    assert (d.evCostPerKm * km + d.evMaintenanceCost * km) / n == EvRunningPerKm(d) * a;
    assert (d.iceCostPerKm * km + d.iceMaintenanceCost * km) / n == IceRunningPerKm(d) * a;
    assert IceRunningPerKm(d) * a - EvRunningPerKm(d) * a == (IceRunningPerKm(d) - EvRunningPerKm(d)) * a;
  }

  lemma DivideOut(x: real, n: real)
    requires n != 0.0
    ensures (x * n) / n == x
  {
  }

  /** When the EV costs at least as much per km to run, there is no positive
      annual saving, so the break-even shows "15+". */
  lemma NoSavingWhenEvRunsDearer(d: VehicleClassData, dailyKm: real, years: nat)
    ensures EvRunningPerKm(d) >= IceRunningPerKm(d) && dailyKm >= 0.0 && years > 0 ==>
      AnnualSavings(d, dailyKm, years).value <= 0.0
  {
    if EvRunningPerKm(d) >= IceRunningPerKm(d) && dailyKm >= 0.0 && years > 0 {
      AnnualSavingsPerYear(d, dailyKm, years);
      MulNonPositive(IceRunningPerKm(d) - EvRunningPerKm(d), AnnualKm(dailyKm));
    }
  }

  lemma MulNonNegative(x: real, y: real)
    requires x >= 0.0 && y >= 0.0
    ensures x * y >= 0.0
  {
  }

  lemma MulNonPositive(x: real, y: real)
    requires x <= 0.0 && y >= 0.0
    ensures x * y <= 0.0
  {
  }

  /** For any positive ownership period the break-even is the same: the
      period cancels out of the annual saving. */
  lemma {:induction false} BreakEvenIgnoresOwnership(d: VehicleClassData, vc: VehicleClass, dailyKm: real, y1: nat, y2: nat)
    requires y1 > 0 && y2 > 0
    ensures BreakEven(d, vc, dailyKm, y1) == BreakEven(d, vc, dailyKm, y2)
    ensures ComparisonOf(d, vc, dailyKm, y1).breakEvenYears == ComparisonOf(d, vc, dailyKm, y2).breakEvenYears
  {
    AnnualSavingsPerYear(d, dailyKm, y1);
    AnnualSavingsPerYear(d, dailyKm, y2);
  }

  /** With a positive saving the break-even repays exactly the table's price
      gap: no subsidy enters the numerator. */
  lemma BreakEvenRepaysPriceGap(d: VehicleClassData, vc: VehicleClass, dailyKm: real, years: nat)
    requires years > 0
    requires (IceRunningPerKm(d) - EvRunningPerKm(d)) * AnnualKm(dailyKm) > 0.0
    ensures BreakEven(d, vc, dailyKm, years) * (IceRunningPerKm(d) - EvRunningPerKm(d)) * AnnualKm(dailyKm)
      == PurchasePrices(vc).ev - PurchasePrices(vc).ice
  {
    AnnualSavingsPerYear(d, dailyKm, years);
    var gap := IceRunningPerKm(d) - EvRunningPerKm(d);
    var a := AnnualKm(dailyKm);
    var be := BreakEven(d, vc, dailyKm, years);
    assert AnnualSavings(d, dailyKm, years).value == gap * a;
    assert be * (gap * a) == PurchasePrices(vc).ev - PurchasePrices(vc).ice;
    assert be * gap * a == be * (gap * a);
  }

  /** The trajectory starts at the table's purchase prices and ends at the
      displayed TCOs. */
  lemma TcoOverTimeEnds(d: VehicleClassData, vc: VehicleClass, dailyKm: real, years: nat)
    ensures var c := ComparisonOf(d, vc, dailyKm, years);
      && c.tcoOverTime[0] == YearPoint(0, PurchasePrices(vc).ev.Floor, PurchasePrices(vc).ice.Floor)
      && c.tcoOverTime[years] == YearPoint(years, c.ev.tco, c.ice.tco)
  {
    var p := PurchasePrices(vc);
    assert EvTcoInYear(d, vc, dailyKm, 0) == p.ev;
    assert IceTcoInYear(d, vc, dailyKm, 0) == p.ice;
    RoundInteger(p.ev.Floor);
    RoundInteger(p.ice.Floor);
  }

  /** The three breakdown bars of a side add up to its unrounded TCO in lakhs,
      and the bars' sum reproduces the displayed TCO once rounded. */
  lemma BreakdownAddsUpToTco(d: VehicleClassData, vc: VehicleClass, dailyKm: real, years: nat)
    ensures var c := ComparisonOf(d, vc, dailyKm, years);
      var b := c.costBreakdownData;
      && Round((b[0].ev + b[1].ev + b[2].ev) * Lakh) == c.ev.tco
      && Round((b[0].ice + b[1].ice + b[2].ice) * Lakh) == c.ice.tco
  {
  }

  /** A non-negative per-km gap over a non-negative distance rounds to a
      non-negative saving. */
  lemma RoundedSavingNonNegative(gapPerKm: real, dailyKm: real, years: nat)
    ensures gapPerKm >= 0.0 && dailyKm >= 0.0 ==> Round(gapPerKm * TotalKm(dailyKm, years)) >= 0
  {
    if gapPerKm >= 0.0 && dailyKm >= 0.0 {
      var km := TotalKm(dailyKm, years);
      MulNonNegative(AnnualKm(dailyKm), years as real);
      MulNonNegative(gapPerKm, km);
      RoundInteger(0);
      RoundMonotone(0.0, gapPerKm * km);
    }
  }

  /** Once a location is selected, every class has an entry, so the
      comparison is never `null`. */
  lemma LocationAlwaysCompares(rs: seq<EvIceRecord>, state: string, city: string, vc: VehicleClass, dailyKm: real, years: nat)
    ensures Compare(Cities.GetVehicleClassData(rs, state, city), vc, dailyKm, years).Some?
  {
    var ds := Cities.GetVehicleClassData(rs, state, city);
    var k := match vc case TwoWheeler => 0 case ThreeWheeler => 1 case FourWheeler => 2;
    assert ds[k].vehicleClass == vc;
  }
}

=== FILE: cities.dfy ===
/** Per-city and per-vehicle-class summaries of the feature table
    (`getCityMetrics`, `getVehicleClassData`, `getUniqueStates`,
    `getCitiesForState` in `src/lib/evDataUtils.ts`).

    `getCityMetrics` groups rows under the string key `${state}-${city}` and
    emits one summary per key in order of first appearance. Per vehicle class
    it reports the cost advantage of the FIRST EV row of that class, but the
    CO₂ advantage is the MEAN over all EV rows of the city; charging fields
    come from the city's first row, and the names are recovered by splitting
    the key at '-'. */
module Cities {
  import opened Wrappers
  import opened Seqs
  import opened Text
  import opened Records

  /** Selects the rows grouped under `key`. */
  function InCity(key: string): EvIceRecord -> bool {
    r => CityKey(r) == key
  }

  /** Selects the rows whose state and city fields are exactly `state` and `city`. */
  function AtLocation(state: string, city: string): EvIceRecord -> bool {
    (r: EvIceRecord) => r.state == state && r.city == city
  }

  /** Selects the EV rows of the class labelled `cls`. */
  function EvOfClassPred(cls: string): EvIceRecord -> bool {
    (r: EvIceRecord) => r.vehicleClass == cls && IsEv(r)
  }

  /** Selects the ICE rows of the class labelled `cls`. */
  function IceOfClassPred(cls: string): EvIceRecord -> bool {
    (r: EvIceRecord) => r.vehicleClass == cls && IsIce(r)
  }

  /** The rows of one city group, in input order (`cityMap.get(key)`). */
  function CityGroup(rs: seq<EvIceRecord>, key: string): seq<EvIceRecord> {
    Filter(rs, InCity(key))
  }

  function EvOfClass(rows: seq<EvIceRecord>, cls: string): seq<EvIceRecord> {
    Filter(rows, EvOfClassPred(cls))
  }

  function IceOfClass(rows: seq<EvIceRecord>, cls: string): seq<EvIceRecord> {
    Filter(rows, IceOfClassPred(cls))
  }

  /** The EV rows of the city grouped under `key`, in input order. */
  function CityEvRows(rs: seq<EvIceRecord>, key: string): seq<EvIceRecord> {
    Filter(CityGroup(rs, key), IsEv)
  }

  /** `evRecords.length > 0 ? evRecords[0].costAdvantage : 0` for one class. */
  function FirstCostAdvantage(rows: seq<EvIceRecord>, cls: string): real {
    var evs := EvOfClass(rows, cls);
    if |evs| > 0 then evs[0].costAdvantage else 0.0
  }

  /** Stations from which a city with a positive mean advantage is "EV-Ready". */
  const EvReadyStations: real := 10.0

  /** The local cluster heuristic: "EV-Ready" with at least 10 stations and a
      positive mean of the three class advantages, "Moderate" with any station
      or a positive mean, "Low-Infra" otherwise. */
  function HeuristicCluster(stations: real, adv2W: real, adv3W: real, adv4W: real): (c: string)
    ensures c == EvReady || c == Moderate || c == LowInfra
    ensures c == EvReady <==> stations >= EvReadyStations && adv2W + adv3W + adv4W > 0.0
    ensures c == LowInfra <==> stations <= 0.0 && adv2W + adv3W + adv4W <= 0.0
  {
    var avgCostAdvantage := (adv2W + adv3W + adv4W) / 3.0;
    if stations >= EvReadyStations && avgCostAdvantage > 0.0 then EvReady
    else if stations > 0.0 || avgCostAdvantage > 0.0 then Moderate
    else LowInfra
  }

  function ClusterRank(c: string): nat {
    if c == EvReady then 2 else if c == Moderate then 1 else 0
  }

  /** More stations and larger advantages never move a city to a lower cluster. */
  lemma HeuristicClusterMonotone(s: real, a2: real, a3: real, a4: real, s': real, b2: real, b3: real, b4: real)
    requires s <= s' && a2 <= b2 && a3 <= b3 && a4 <= b4
    ensures ClusterRank(HeuristicCluster(s, a2, a3, a4)) <= ClusterRank(HeuristicCluster(s', b2, b3, b4))
  {
    var c := HeuristicCluster(s, a2, a3, a4);
    var c' := HeuristicCluster(s', b2, b3, b4);
    assert EvReady != Moderate && EvReady != LowInfra && Moderate != LowInfra;
    if c == EvReady {
      assert c' == EvReady;
    } else if c == Moderate {
      assert c' != LowInfra;
    }
  }

  /** `const [state, city] = key.split('-')`: the first two '-'-separated
      segments of a key. */
  function KeyNames(key: string): (names: (string, string))
    requires '-' in key
  {
    SplitAtSeparator(key, '-');
    var parts := Split(key, '-');
    (parts[0], parts[1])
  }

  /** The summary of the city grouped under `key`. */
  function CityMetricsFor(rs: seq<EvIceRecord>, key: string): CityMetrics
    requires |CityGroup(rs, key)| > 0
  {
    var group := CityGroup(rs, key);
    var first := group[0];
    assert InCity(key)(first);
    assert key[|first.state|] == '-';
    var names := KeyNames(key);
    var adv2W := FirstCostAdvantage(group, "2W");
    var adv3W := FirstCostAdvantage(group, "3W");
    var adv4W := FirstCostAdvantage(group, "4W");
    var avgCo2Advantage := Mean(MapSeq(CityEvRows(rs, key), Co2AdvantageOf));
    CityMetrics(
      city := names.1,
      state := names.0,
      chargingDensity := first.chargingDensity,
      chargingReadiness := first.chargingReadiness,
      avgCostAdvantage2W := adv2W,
      avgCostAdvantage3W := adv3W,
      avgCostAdvantage4W := adv4W,
      avgCo2Advantage := avgCo2Advantage,
      chargingStationsCount := first.chargingStationsCount,
      cluster := HeuristicCluster(first.chargingStationsCount, adv2W, adv3W, adv4W),
      economicIndex := None,
      environmentalIndex := None)
  }

  /** The distinct city keys in order of first appearance (the `Map`'s keys). */
  function CityKeys(rs: seq<EvIceRecord>): seq<string> {
    Dedup(MapSeq(rs, CityKey))
  }

  /** The set of distinct city keys (`new Set(records.map(...))`). */
  function CityKeySet(rs: seq<EvIceRecord>): set<string> {
    set r | r in rs :: CityKey(r)
  }

  lemma GroupOfListedKey(rs: seq<EvIceRecord>, key: string)
    requires key in MapSeq(rs, CityKey)
    ensures |CityGroup(rs, key)| > 0
  {
    var j :| 0 <= j < |rs| && MapSeq(rs, CityKey)[j] == key;
    assert InCity(key)(rs[j]);
  }

  lemma CityKeyCount(rs: seq<EvIceRecord>)
    ensures |CityKeys(rs)| == |CityKeySet(rs)|
  {
    var keys := MapSeq(rs, CityKey);
    DedupCardinality(keys);
    assert (set x | x in keys) == CityKeySet(rs) by {
      forall x | x in keys ensures x in CityKeySet(rs) {
        var j :| 0 <= j < |keys| && keys[j] == x;
        assert CityKey(rs[j]) == x;
      }
      forall x | x in CityKeySet(rs) ensures x in keys {
        var r :| r in rs && CityKey(r) == x;
        var j :| 0 <= j < |rs| && rs[j] == r;
        assert keys[j] == x;
      }
    }
  }

  /** `getCityMetrics`: one summary per distinct `${state}-${city}` key. */
  function GetCityMetrics(rs: seq<EvIceRecord>): (ms: seq<CityMetrics>)
    ensures |ms| == |CityKeySet(rs)| == |CityKeys(rs)|
    ensures forall i :: 0 <= i < |ms| ==> ms[i].economicIndex.None? && ms[i].environmentalIndex.None?
    ensures forall i :: 0 <= i < |ms| ==> ms[i].cluster in {EvReady, Moderate, LowInfra}
    ensures forall i :: 0 <= i < |ms| ==>
      (ms[i].cluster == EvReady <==>
        ms[i].chargingStationsCount >= EvReadyStations
        && ms[i].avgCostAdvantage2W + ms[i].avgCostAdvantage3W + ms[i].avgCostAdvantage4W > 0.0)
    ensures forall i :: 0 <= i < |ms| ==>
      (ms[i].cluster == LowInfra <==>
        ms[i].chargingStationsCount <= 0.0
        && ms[i].avgCostAdvantage2W + ms[i].avgCostAdvantage3W + ms[i].avgCostAdvantage4W <= 0.0)
  {
    CityKeyCount(rs);
    var keys := CityKeys(rs);
    seq(|keys|, i requires 0 <= i < |keys| =>
      GroupOfListedKey(rs, keys[i]);
      CityMetricsFor(rs, keys[i]))
  }

  /** The i-th summary describes the i-th distinct key; keys are listed once
      each, in the order of their first row. */
  lemma CityMetricsInFirstAppearanceOrder(rs: seq<EvIceRecord>)
    ensures Distinct(CityKeys(rs))
    ensures forall i, j :: 0 <= i < j < |CityKeys(rs)| ==>
      IndexOf(MapSeq(rs, CityKey), CityKeys(rs)[i]) < IndexOf(MapSeq(rs, CityKey), CityKeys(rs)[j])
    ensures forall k :: k in CityKeySet(rs) <==> k in CityKeys(rs)
  {
    DedupFirstAppearance(MapSeq(rs, CityKey));
    var keys := MapSeq(rs, CityKey);
    forall k | k in CityKeySet(rs) ensures k in CityKeys(rs) {
      var r :| r in rs && CityKey(r) == k;
      var j :| 0 <= j < |rs| && rs[j] == r;
      assert keys[j] == k;
    }
    forall k | k in CityKeys(rs) ensures k in CityKeySet(rs) {
      var j :| 0 <= j < |keys| && keys[j] == k;
      assert rs[j] in rs;
    }
  }

  /** Row `j` is the first row of the city grouped under `key`. */
  predicate IsFirstOfCity(rs: seq<EvIceRecord>, key: string, j: nat) {
    j < |rs| && CityKey(rs[j]) == key && forall k :: 0 <= k < j ==> CityKey(rs[k]) != key
  }

  /** Charging fields come from the city's first row, not an aggregate; the
      names are the first two '-'-segments of the key, which are the row's
      own state and city whenever neither contains '-'. */
  lemma CityMetricsFromFirstRow(rs: seq<EvIceRecord>, i: nat, j: nat)
    requires i < |CityKeys(rs)|
    requires IsFirstOfCity(rs, CityKeys(rs)[i], j)
    ensures var m := GetCityMetrics(rs)[i];
      && m.chargingStationsCount == rs[j].chargingStationsCount
      && m.chargingDensity == rs[j].chargingDensity
      && m.chargingReadiness == rs[j].chargingReadiness
    ensures '-' !in rs[j].state ==> GetCityMetrics(rs)[i].state == rs[j].state
    ensures '-' !in rs[j].state && '-' !in rs[j].city ==> GetCityMetrics(rs)[i].city == rs[j].city
  {
    var key := CityKeys(rs)[i];
    GroupOfListedKey(rs, key);
    FilterHead(rs, InCity(key), j);
    var r := rs[j];
    SplitConcat(r.state, '-', r.city);
    assert CityKey(r) == r.state + ['-'] + r.city;
    if '-' !in r.state {
      SplitWithoutSeparator(r.state, '-');
      if '-' !in r.city {
        SplitWithoutSeparator(r.city, '-');
      }
    }
  }

  /** A state name holding one '-' is cut at it: the summary reports the
      part before it as the state and the part after it as the city. */
  lemma HyphenatedStateIsCut(rs: seq<EvIceRecord>, i: nat, j: nat, a: string, b: string)
    requires i < |CityKeys(rs)|
    requires IsFirstOfCity(rs, CityKeys(rs)[i], j)
    requires rs[j].state == a + "-" + b
    requires '-' !in a && '-' !in b && '-' !in rs[j].city
    ensures GetCityMetrics(rs)[i].state == a
    ensures GetCityMetrics(rs)[i].city == b
  {
    var key := CityKeys(rs)[i];
    GroupOfListedKey(rs, key);
    FilterHead(rs, InCity(key), j);
    assert key == (a + "-" + b) + "-" + rs[j].city;
    SplitThreeParts(a, b, rs[j].city);
  }

  /** Three hyphen-free parts joined by hyphens split back into those parts. */
  lemma SplitThreeParts(a: string, b: string, c: string)
    requires '-' !in a && '-' !in b && '-' !in c
    ensures Split((a + "-" + b) + "-" + c, '-') == [a, b, c]
  {
    SplitConcat(a + "-" + b, '-', c);
    SplitConcat(a, '-', b);
    SplitWithoutSeparator(a, '-');
    SplitWithoutSeparator(b, '-');
    SplitWithoutSeparator(c, '-');
  }

  /** The class-`cls` advantage a city summary reports: exactly the cost
      advantage of the city's first EV row of that class, or 0 without one. */
  function ReportedAdvantage(m: CityMetrics, vc: VehicleClass): real {
    match vc
    case TwoWheeler => m.avgCostAdvantage2W
    case ThreeWheeler => m.avgCostAdvantage3W
    case FourWheeler => m.avgCostAdvantage4W
  }

  /** Row `j` is the first EV row of class `cls` in the city `key`. */
  predicate IsFirstEvOfClass(rs: seq<EvIceRecord>, key: string, cls: string, j: nat) {
    && j < |rs| && CityKey(rs[j]) == key && rs[j].vehicleClass == cls && IsEv(rs[j])
    && forall k :: 0 <= k < j ==> !(CityKey(rs[k]) == key && rs[k].vehicleClass == cls && IsEv(rs[k]))
  }

  /** A city's per-class cost advantage is its first EV row's value (not a
      mean over the class), and 0 when the city has no EV row of the class. */
  lemma CityAdvantageIsFirstEvRow(rs: seq<EvIceRecord>, i: nat, vc: VehicleClass)
    requires i < |CityKeys(rs)|
    ensures var key := CityKeys(rs)[i];
      forall j: nat :: IsFirstEvOfClass(rs, key, ClassLabel(vc), j) ==>
        ReportedAdvantage(GetCityMetrics(rs)[i], vc) == rs[j].costAdvantage
    ensures var key := CityKeys(rs)[i];
      (forall j :: 0 <= j < |rs| ==> !(CityKey(rs[j]) == key && rs[j].vehicleClass == ClassLabel(vc) && IsEv(rs[j]))) ==>
        ReportedAdvantage(GetCityMetrics(rs)[i], vc) == 0.0
  {
    var key := CityKeys(rs)[i];
    var cls := ClassLabel(vc);
    GroupOfListedKey(rs, key);
    forall j: nat | IsFirstEvOfClass(rs, key, cls, j)
      ensures ReportedAdvantage(GetCityMetrics(rs)[i], vc) == rs[j].costAdvantage
    {
      assert InCity(key)(rs[j]) && EvOfClassPred(cls)(rs[j]);
      NestedFilterHead(rs, InCity(key), EvOfClassPred(cls), j);
    }
    NestedFilterMembers(rs, InCity(key), EvOfClassPred(cls));
  }

  /** The city's EV rows are exactly the EV rows of `rs` carrying its key. */
  lemma CityEvRowsExact(rs: seq<EvIceRecord>, key: string)
    ensures forall k :: 0 <= k < |CityEvRows(rs, key)| ==>
      var r := CityEvRows(rs, key)[k]; r in rs && CityKey(r) == key && IsEv(r)
    ensures (exists j :: 0 <= j < |rs| && CityKey(rs[j]) == key && IsEv(rs[j])) <==> |CityEvRows(rs, key)| > 0
  {
    NestedFilterMembers(rs, InCity(key), IsEv);
    if exists j :: 0 <= j < |rs| && CityKey(rs[j]) == key && IsEv(rs[j]) {
      var j :| 0 <= j < |rs| && CityKey(rs[j]) == key && IsEv(rs[j]);
      assert InCity(key)(rs[j]);
    }
    if |CityEvRows(rs, key)| > 0 {
      var r := CityEvRows(rs, key)[0];
      var j :| 0 <= j < |rs| && rs[j] == r;
    }
  }

  /** A city's CO₂ advantage is the mean over all its EV rows (not the first
      row's value, as for cost advantages); those rows are exactly the
      input's EV rows with its key, by `CityEvRowsExact`. It is 0 when there
      are none. */
  lemma CityCo2AdvantageIsMean(rs: seq<EvIceRecord>, i: nat)
    requires i < |CityKeys(rs)|
    ensures GetCityMetrics(rs)[i].avgCo2Advantage == Mean(MapSeq(CityEvRows(rs, CityKeys(rs)[i]), Co2AdvantageOf))
    ensures (forall j :: 0 <= j < |rs| ==> !(CityKey(rs[j]) == CityKeys(rs)[i] && IsEv(rs[j]))) ==>
      GetCityMetrics(rs)[i].avgCo2Advantage == 0.0
  {
    var key := CityKeys(rs)[i];
    GroupOfListedKey(rs, key);
    if forall j :: 0 <= j < |rs| ==> !(CityKey(rs[j]) == key && IsEv(rs[j])) {
      NoEvRowsNoCityEvRows(rs, key);
    }
  }

  lemma NoEvRowsNoCityEvRows(rs: seq<EvIceRecord>, key: string)
    requires forall j :: 0 <= j < |rs| ==> !(CityKey(rs[j]) == key && IsEv(rs[j]))
    ensures |CityEvRows(rs, key)| == 0
  {
    CityEvRowsExact(rs, key);
  }

  /** The CO₂ advantage `m` of the `i`-th city, times the number of the
      city's EV rows `evs`, is the sum of their CO₂ advantages. */
  lemma CityCo2AdvantageTimesCount(rs: seq<EvIceRecord>, i: nat, m: real, evs: seq<EvIceRecord>)
    requires i < |CityKeys(rs)|
    requires m == GetCityMetrics(rs)[i].avgCo2Advantage && evs == CityEvRows(rs, CityKeys(rs)[i])
    ensures |evs| > 0 ==> m * |evs| as real == Sum(MapSeq(evs, Co2AdvantageOf))
    ensures |evs| == 0 ==> m == 0.0
  {
    CityCo2AdvantageIsMean(rs, i);
    Co2MeanTimesCount(m, evs);
  }

  /** A mean of the rows' CO₂ advantages, times their number, is their sum. */
  lemma Co2MeanTimesCount(m: real, evs: seq<EvIceRecord>)
    requires m == Mean(MapSeq(evs, Co2AdvantageOf))
    ensures |evs| > 0 ==> m * |evs| as real == Sum(MapSeq(evs, Co2AdvantageOf))
    ensures |evs| == 0 ==> m == 0.0
  {
    var xs := MapSeq(evs, Co2AdvantageOf);
    assert |xs| == |evs|;
  }

  /** Being a mean over the city's EV rows, the CO₂ advantage lies within
      any bounds those rows share. */
  lemma CityCo2AdvantageWithinRowBounds(rs: seq<EvIceRecord>, i: nat, lo: real, hi: real)
    requires i < |CityKeys(rs)|
    requires forall j :: 0 <= j < |rs| && CityKey(rs[j]) == CityKeys(rs)[i] && IsEv(rs[j]) ==>
      lo <= rs[j].co2Advantage <= hi
    ensures var m := GetCityMetrics(rs)[i];
      (exists j :: 0 <= j < |rs| && CityKey(rs[j]) == CityKeys(rs)[i] && IsEv(rs[j])) ==>
        lo <= m.avgCo2Advantage <= hi
    ensures (forall j :: 0 <= j < |rs| ==> !(CityKey(rs[j]) == CityKeys(rs)[i] && IsEv(rs[j]))) ==>
      GetCityMetrics(rs)[i].avgCo2Advantage == 0.0
  {
    var key := CityKeys(rs)[i];
    GroupOfListedKey(rs, key);
    var evs := CityEvRows(rs, key);
    var xs := MapSeq(evs, Co2AdvantageOf);
    assert GetCityMetrics(rs)[i].avgCo2Advantage == Mean(xs);
    CityEvRowsExact(rs, key);
    assert forall k :: 0 <= k < |xs| ==> xs[k] == evs[k].co2Advantage;
    if |evs| > 0 {
      MeanLowerBound(xs, lo);
      MeanUpperBound(xs, hi);
    }
  }

  /** For names without '-', matching the key is matching both fields. */
  lemma KeyMatchesNames(r: EvIceRecord, state: string, city: string)
    requires '-' !in state && '-' !in city
    ensures CityKey(r) == state + "-" + city <==> r.state == state && r.city == city
  {
    if CityKey(r) == state + "-" + city {
      SplitConcat(r.state, '-', r.city);
      SplitConcat(state, '-', city);
      SplitWithoutSeparator(state, '-');
      SplitWithoutSeparator(city, '-');
      var ps := Split(r.state, '-');
      var pc := Split(r.city, '-');
      assert ps + pc == [state, city];
      assert ps == [state] && pc == [city];
    }
  }

  /** `getUniqueStates`: each state once, in order of first appearance. */
  function UniqueStates(rs: seq<EvIceRecord>): (states: seq<string>)
    ensures Distinct(states)
    ensures forall i :: 0 <= i < |rs| ==> rs[i].state in states
    ensures forall k :: 0 <= k < |states| ==> exists i :: 0 <= i < |rs| && rs[i].state == states[k]
    ensures forall k :: 0 <= k < |states| ==> states[k] in MapSeq(rs, StateOf)
    ensures forall k, l :: 0 <= k < l < |states| ==>
      IndexOf(MapSeq(rs, StateOf), states[k]) < IndexOf(MapSeq(rs, StateOf), states[l])
  {
    var all := MapSeq(rs, StateOf);
    var states := Dedup(all);
    DedupFirstAppearance(all);
    assert forall k :: 0 <= k < |states| ==> states[k] in all;
    states
  }

  /** Selects the rows of one state. */
  function InState(state: string): EvIceRecord -> bool {
    (r: EvIceRecord) => r.state == state
  }

  /** Some row lies in `city` of `state`. */
  predicate HasRowAt(rs: seq<EvIceRecord>, state: string, city: string) {
    exists i :: 0 <= i < |rs| && rs[i].state == state && rs[i].city == city
  }

  /** The rows of one state, in input order. */
  function StateRows(rs: seq<EvIceRecord>, state: string): seq<EvIceRecord> {
    Filter(rs, InState(state))
  }

  /** `getCitiesForState`: the cities of one state, each once, in order of
      first appearance among that state's rows. */
  function CitiesForState(rs: seq<EvIceRecord>, state: string): (cities: seq<string>)
    ensures Distinct(cities)
    ensures forall i :: 0 <= i < |rs| && rs[i].state == state ==> rs[i].city in cities
    ensures forall k :: 0 <= k < |cities| ==> HasRowAt(rs, state, cities[k])
    ensures forall k :: 0 <= k < |cities| ==> cities[k] in MapSeq(StateRows(rs, state), CityOf)
    ensures forall k, l :: 0 <= k < l < |cities| ==>
      IndexOf(MapSeq(StateRows(rs, state), CityOf), cities[k]) < IndexOf(MapSeq(StateRows(rs, state), CityOf), cities[l])
  {
    var all := MapSeq(StateRows(rs, state), CityOf);
    DedupFirstAppearance(all);
    StateCitiesCovered(rs, state, all, Dedup(all));
    StateCitiesOnly(rs, state, all, Dedup(all));
    Dedup(all)
  }

  /** Every city of a row of the state is among the listed cities. */
  lemma StateCitiesCovered(rs: seq<EvIceRecord>, state: string, all: seq<string>, cities: seq<string>)
    requires all == MapSeq(StateRows(rs, state), CityOf)
    requires forall g :: 0 <= g < |all| ==> all[g] in cities
    ensures forall i :: 0 <= i < |rs| && rs[i].state == state ==> rs[i].city in cities
  {
    var rows := StateRows(rs, state);
    forall i | 0 <= i < |rs| && rs[i].state == state ensures rs[i].city in cities {
      assert InState(state)(rs[i]);
      var g :| 0 <= g < |rows| && rows[g] == rs[i];
      assert all[g] == rs[i].city;
    }
  }

  /** Every listed city is the city of a row of the state. */
  lemma StateCitiesOnly(rs: seq<EvIceRecord>, state: string, all: seq<string>, cities: seq<string>)
    requires all == MapSeq(StateRows(rs, state), CityOf)
    requires forall k :: 0 <= k < |cities| ==> cities[k] in all
    ensures forall k :: 0 <= k < |cities| ==> HasRowAt(rs, state, cities[k])
  {
    forall k | 0 <= k < |cities| ensures HasRowAt(rs, state, cities[k]) {
      StateCityHasRow(rs, state, all, cities[k]);
    }
  }

  /** A city among the state's row cities is the city of some row of the state. */
  lemma StateCityHasRow(rs: seq<EvIceRecord>, state: string, all: seq<string>, city: string)
    requires all == MapSeq(StateRows(rs, state), CityOf)
    requires city in all
    ensures HasRowAt(rs, state, city)
  {
    var rows := StateRows(rs, state);
    var g :| 0 <= g < |all| && all[g] == city;
    assert rows[g] in rs && InState(state)(rows[g]);
    var i :| 0 <= i < |rs| && rs[i] == rows[g];
    assert rs[i].state == state && rs[i].city == city;
  }

  /** The rows whose state and city fields match (`records.filter(...)` in
      `getVehicleClassData`). */
  function LocationRows(rs: seq<EvIceRecord>, state: string, city: string): seq<EvIceRecord> {
    Filter(rs, AtLocation(state, city))
  }

  /** The EV-side fields of a comparison that are copied from one EV row. */
  predicate SameEvFields(d: VehicleClassData, ev: EvIceRecord) {
    && d.evCo2PerKm == ev.co2PerKm && d.evMaintenanceCost == ev.maintenanceCost
    && d.evReplacementCost == ev.replacementCost && d.evReplacementCycle == ev.replacementCycle
    && d.costAdvantage == ev.costAdvantage && d.co2Advantage == ev.co2Advantage
  }

  /** The ICE-side fields of a comparison, all copied from one ICE row. */
  predicate SameIceFields(d: VehicleClassData, ice: EvIceRecord) {
    && d.iceCostPerKm == ice.costPerKm && d.iceCo2PerKm == ice.co2PerKm
    && d.iceMaintenanceCost == ice.maintenanceCost
    && d.iceReplacementCost == ice.replacementCost && d.iceReplacementCycle == ice.replacementCycle
  }

  /** The comparison for one class: the EV cost per km is the mean over the
      class's EV rows, every other field comes from the first row of its side,
      and a side without rows reads as all zeros. */
  function ClassData(rows: seq<EvIceRecord>, vc: VehicleClass): (d: VehicleClassData)
    ensures d.vehicleClass == vc
    ensures d.evCostPerKm == Mean(MapSeq(EvOfClass(rows, ClassLabel(vc)), CostPerKmOf))
    ensures d.costAdvantage == FirstCostAdvantage(rows, ClassLabel(vc))
    ensures |EvOfClass(rows, ClassLabel(vc))| == 0 ==>
      && d.evCostPerKm == 0.0 && d.evCo2PerKm == 0.0 && d.evMaintenanceCost == 0.0
      && d.evReplacementCost == 0.0 && d.evReplacementCycle == 0.0
      && d.costAdvantage == 0.0 && d.co2Advantage == 0.0
    ensures |IceOfClass(rows, ClassLabel(vc))| == 0 ==>
      && d.iceCostPerKm == 0.0 && d.iceCo2PerKm == 0.0 && d.iceMaintenanceCost == 0.0
      && d.iceReplacementCost == 0.0 && d.iceReplacementCycle == 0.0
    ensures |EvOfClass(rows, ClassLabel(vc))| > 0 ==> SameEvFields(d, EvOfClass(rows, ClassLabel(vc))[0])
    ensures |IceOfClass(rows, ClassLabel(vc))| > 0 ==> SameIceFields(d, IceOfClass(rows, ClassLabel(vc))[0])
  {
    var cls := ClassLabel(vc);
    var evs := EvOfClass(rows, cls);
    var ices := IceOfClass(rows, cls);
    var hasEv := |evs| > 0;
    var hasIce := |ices| > 0;
    VehicleClassData(
      vehicleClass := vc,
      evCostPerKm := Mean(MapSeq(evs, CostPerKmOf)),
      iceCostPerKm := if hasIce then ices[0].costPerKm else 0.0,
      evCo2PerKm := if hasEv then evs[0].co2PerKm else 0.0,
      iceCo2PerKm := if hasIce then ices[0].co2PerKm else 0.0,
      evMaintenanceCost := if hasEv then evs[0].maintenanceCost else 0.0,
      iceMaintenanceCost := if hasIce then ices[0].maintenanceCost else 0.0,
      evReplacementCost := if hasEv then evs[0].replacementCost else 0.0,
      iceReplacementCost := if hasIce then ices[0].replacementCost else 0.0,
      evReplacementCycle := if hasEv then evs[0].replacementCycle else 0.0,
      iceReplacementCycle := if hasIce then ices[0].replacementCycle else 0.0,
      costAdvantage := FirstCostAdvantage(rows, cls),
      co2Advantage := if hasEv then evs[0].co2Advantage else 0.0)
  }

  /** `getVehicleClassData`: always three comparisons, ordered 2W, 3W, 4W. */
  function GetVehicleClassData(rs: seq<EvIceRecord>, state: string, city: string): (ds: seq<VehicleClassData>)
    ensures |ds| == 3
    ensures forall k :: 0 <= k < 3 ==> ds[k].vehicleClass == AllClasses[k]
    ensures forall k :: 0 <= k < 3 ==> ds[k] == ClassData(LocationRows(rs, state, city), AllClasses[k])
  {
    var rows := LocationRows(rs, state, city);
    MapSeq(AllClasses, (vc: VehicleClass) => ClassData(rows, vc))
  }

  /** Row `j` is the first row at the location that `side` selects. */
  predicate IsFirstAtLocation(rs: seq<EvIceRecord>, state: string, city: string, side: EvIceRecord -> bool, j: nat) {
    && j < |rs| && AtLocation(state, city)(rs[j]) && side(rs[j])
    && forall k :: 0 <= k < j ==> !(AtLocation(state, city)(rs[k]) && side(rs[k]))
  }

  /** The EV fields of a location's class-`k` comparison other than the
      cost per km are those of the location's first EV row of the class. */
  lemma ClassEvFieldsFromFirstEvRow(rs: seq<EvIceRecord>, state: string, city: string, k: nat, j: nat)
    requires k < 3
    requires IsFirstAtLocation(rs, state, city, EvOfClassPred(ClassLabel(AllClasses[k])), j)
    ensures SameEvFields(GetVehicleClassData(rs, state, city)[k], rs[j])
  {
    NestedFilterHead(rs, AtLocation(state, city), EvOfClassPred(ClassLabel(AllClasses[k])), j);
  }

  /** The ICE fields of a location's class-`k` comparison are those of the
      location's first ICE row of the class. */
  lemma ClassIceFieldsFromFirstIceRow(rs: seq<EvIceRecord>, state: string, city: string, k: nat, j: nat)
    requires k < 3
    requires IsFirstAtLocation(rs, state, city, IceOfClassPred(ClassLabel(AllClasses[k])), j)
    ensures SameIceFields(GetVehicleClassData(rs, state, city)[k], rs[j])
  {
    NestedFilterHead(rs, AtLocation(state, city), IceOfClassPred(ClassLabel(AllClasses[k])), j);
  }

  /** A location without an EV row of the class reports all EV fields as 0,
      and one without an ICE row of the class all ICE fields as 0. */
  lemma ClassSideAbsentAtLocation(rs: seq<EvIceRecord>, state: string, city: string, k: nat)
    requires k < 3
    ensures var cls := ClassLabel(AllClasses[k]);
      var d := GetVehicleClassData(rs, state, city)[k];
      (forall j :: 0 <= j < |rs| ==> !(AtLocation(state, city)(rs[j]) && EvOfClassPred(cls)(rs[j]))) ==>
        && d.evCostPerKm == 0.0 && d.evCo2PerKm == 0.0 && d.evMaintenanceCost == 0.0
        && d.evReplacementCost == 0.0 && d.evReplacementCycle == 0.0
        && d.costAdvantage == 0.0 && d.co2Advantage == 0.0
    ensures var cls := ClassLabel(AllClasses[k]);
      var d := GetVehicleClassData(rs, state, city)[k];
      (forall j :: 0 <= j < |rs| ==> !(AtLocation(state, city)(rs[j]) && IceOfClassPred(cls)(rs[j]))) ==>
        && d.iceCostPerKm == 0.0 && d.iceCo2PerKm == 0.0 && d.iceMaintenanceCost == 0.0
        && d.iceReplacementCost == 0.0 && d.iceReplacementCycle == 0.0
  {
    var cls := ClassLabel(AllClasses[k]);
    NoRowsAtLocation(rs, state, city, EvOfClassPred(cls));
    NoRowsAtLocation(rs, state, city, IceOfClassPred(cls));
  }

  lemma NoRowsAtLocation(rs: seq<EvIceRecord>, state: string, city: string, side: EvIceRecord -> bool)
    ensures (forall j :: 0 <= j < |rs| ==> !(AtLocation(state, city)(rs[j]) && side(rs[j]))) ==>
      |Filter(LocationRows(rs, state, city), side)| == 0
  {
    var f := Filter(LocationRows(rs, state, city), side);
    NestedFilterMembers(rs, AtLocation(state, city), side);
    if |f| > 0 {
      var j :| 0 <= j < |rs| && rs[j] == f[0];
      assert AtLocation(state, city)(rs[j]) && side(rs[j]);
    }
  }

  /** A key with exactly one '-' is the reported state and city joined by
      '-', and neither name holds a '-'. */
  lemma NamesOfSingleHyphenKey(rs: seq<EvIceRecord>, i: nat)
    requires i < |CityKeys(rs)|
    requires Occurrences(CityKeys(rs)[i], '-') == 1
    ensures var m := GetCityMetrics(rs)[i];
      && CityKeys(rs)[i] == m.state + "-" + m.city
      && '-' !in m.state && '-' !in m.city
  {
    var key := CityKeys(rs)[i];
    GroupOfListedKey(rs, key);
    var m := GetCityMetrics(rs)[i];
    var first := CityGroup(rs, key)[0];
    assert InCity(key)(first);
    assert key[|first.state|] == '-';
    SplitCount(key, '-');
    var parts := Split(key, '-');
    assert |parts| == 2;
    assert m.state == parts[0] && m.city == parts[1];
    assert Join(parts, '-') == key;
  }

  /** For hyphen-free names, the rows at a location are the rows of the
      city group keyed by those names. */
  lemma LocationRowsAreCityGroup(rs: seq<EvIceRecord>, state: string, city: string)
    requires '-' !in state && '-' !in city
    ensures LocationRows(rs, state, city) == CityGroup(rs, state + "-" + city)
  {
    var key := state + "-" + city;
    forall j | 0 <= j < |rs|
      ensures InCity(key)(rs[j]) == AtLocation(state, city)(rs[j])
    {
      KeyMatchesNames(rs[j], state, city);
    }
    FilterSamePredicate(rs, InCity(key), AtLocation(state, city));
  }

  /** A summary's per-class advantage is the first-EV-row advantage of the
      class within the city's group. */
  lemma SummaryAdvantageOfGroup(rs: seq<EvIceRecord>, i: nat, vc: VehicleClass)
    requires i < |CityKeys(rs)|
    ensures ReportedAdvantage(GetCityMetrics(rs)[i], vc)
      == FirstCostAdvantage(CityGroup(rs, CityKeys(rs)[i]), ClassLabel(vc))
  {
    GroupOfListedKey(rs, CityKeys(rs)[i]);
    assert GetCityMetrics(rs)[i] == CityMetricsFor(rs, CityKeys(rs)[i]);
  }

  /** A location's per-class advantage is the first-EV-row advantage of the
      class among the location's rows. */
  lemma ClassAdvantageOfLocation(rs: seq<EvIceRecord>, state: string, city: string, k: nat)
    requires k < 3
    ensures GetVehicleClassData(rs, state, city)[k].costAdvantage
      == FirstCostAdvantage(LocationRows(rs, state, city), ClassLabel(AllClasses[k]))
  {
    assert GetVehicleClassData(rs, state, city)[k] == ClassData(LocationRows(rs, state, city), AllClasses[k]);
  }

  /** When a city key holds exactly one '-', the per-class advantages of its
      summary agree with the comparisons `getVehicleClassData` builds for the
      names the summary reports: both read the first EV row of the class. */
  lemma ClassDataAgreesWithCityMetrics(rs: seq<EvIceRecord>, i: nat)
    requires i < |CityKeys(rs)|
    requires Occurrences(CityKeys(rs)[i], '-') == 1
    ensures var m := GetCityMetrics(rs)[i];
      var ds := GetVehicleClassData(rs, m.state, m.city);
      forall k :: 0 <= k < 3 ==> ds[k].costAdvantage == ReportedAdvantage(m, AllClasses[k])
  {
    var m := GetCityMetrics(rs)[i];
    NamesOfSingleHyphenKey(rs, i);
    LocationRowsAreCityGroup(rs, m.state, m.city);
    forall k | 0 <= k < 3
      ensures GetVehicleClassData(rs, m.state, m.city)[k].costAdvantage == ReportedAdvantage(m, AllClasses[k])
    {
      SummaryAdvantageOfGroup(rs, i, AllClasses[k]);
      ClassAdvantageOfLocation(rs, m.state, m.city, k);
    }
  }
}

=== FILE: city_analysis.dfy ===
/** The city analysis page (`src/pages/CityAnalysis.tsx`): the per-city
    summaries with external clusters merged in, the three cluster buckets
    with their average readiness, and the economic and environmental
    indices plotted for every city. */
module CityAnalysis {
  import opened Wrappers
  import opened Seqs
  import opened Numbers
  import opened Records
  import Cities
  import Summaries

  /** The `cityMetrics` memo: the summaries of the feature rows, merged with
      the cluster rows only when there are some. */
  function CityAnalysisMetrics(rs: seq<EvIceRecord>, clusters: seq<ClusterRecord>): (ms: seq<CityMetrics>)
    ensures |ms| == |Cities.CityKeySet(rs)|
  {
    if |rs| == 0 then []
    else
      var base := Cities.GetCityMetrics(rs);
      if |clusters| > 0 then Summaries.MergeClusters(base, clusters) else base
  }

  /** Both guards are redundant: merging with no cluster rows, or merging
      the summaries of no rows, gives what the unguarded merge gives. */
  lemma MergeGateIsTransparent(rs: seq<EvIceRecord>, clusters: seq<ClusterRecord>)
    ensures CityAnalysisMetrics(rs, clusters) == Summaries.MergeClusters(Cities.GetCityMetrics(rs), clusters)
  {
    if |rs| == 0 {
      assert Cities.CityKeySet(rs) == {};
    } else if |clusters| == 0 {
      Summaries.MergeWithoutClusters(Cities.GetCityMetrics(rs));
    }
  }

  /** Top of the readiness scale. */
  const MaxReadiness: real := 100.0

  /** `Math.min(100, chargingDensity * 20 + 50)`. */
  function ReadinessScore(density: real): (r: real)
    ensures r <= MaxReadiness
    ensures r == MaxReadiness || r == density * 20.0 + 50.0
    ensures r <= density * 20.0 + 50.0
  {
    Min(MaxReadiness, density * 20.0 + 50.0)
  }

  /** A denser charging network never lowers the readiness score. */
  lemma ReadinessScoreMonotone(a: real, b: real)
    requires a <= b
    ensures ReadinessScore(a) <= ReadinessScore(b)
  {
  }

  function ReadinessOf(m: CityMetrics): real {
    ReadinessScore(m.chargingDensity)
  }

  /** The names of `Object.prototype`'s members. Indexing the bucket object
      with one of them reaches an inherited member instead of `undefined`,
      so the increments land on it without an error and no bucket changes. */
  const ObjectPrototypeNames: set<string> := {
    "constructor", "hasOwnProperty", "isPrototypeOf", "propertyIsEnumerable",
    "toLocaleString", "toString", "valueOf", "__proto__",
    "__defineGetter__", "__defineSetter__", "__lookupGetter__", "__lookupSetter__"
  }

  predicate IsBucketLabel(cls: string) {
    cls == EvReady || cls == Moderate || cls == LowInfra
  }

  /** A label the bucket fold survives; any other makes it throw a `TypeError`. */
  predicate Tolerated(cls: string) {
    IsBucketLabel(cls) || cls in ObjectPrototypeNames
  }

  /** One bucket's running count and readiness total. */
  datatype Tally = Tally(count: nat, totalReadiness: real)

  datatype Tallies = Tallies(evReady: Tally, moderate: Tally, lowInfra: Tally)

  const NoTallies: Tallies := Tallies(Tally(0, 0.0), Tally(0, 0.0), Tally(0, 0.0))

  function Slot(t: Tallies, cls: string): Tally {
    if cls == EvReady then t.evReady
    else if cls == Moderate then t.moderate
    else t.lowInfra
  }

  function Counted(t: Tallies): nat {
    t.evReady.count + t.moderate.count + t.lowInfra.count
  }

  /** No city contributes more than the top score to a total. */
  predicate Bounded(t: Tally) {
    t.totalReadiness <= MaxReadiness * t.count as real
  }

  function AddTo(t: Tally, score: real): Tally {
    Tally(t.count + 1, t.totalReadiness + score)
  }

  /** The `forEach` over the cities: each city's readiness is added to the
      bucket its label names; `None` is the `TypeError` an unknown label
      raises. */
  function TallyClusters(ms: seq<CityMetrics>): (r: Option<Tallies>)
    ensures r.None? <==> exists i :: 0 <= i < |ms| && !Tolerated(ms[i].cluster)
    ensures r.Some? ==> Counted(r.value) <= |ms|
    ensures r.Some? && (forall i :: 0 <= i < |ms| ==> IsBucketLabel(ms[i].cluster)) ==> Counted(r.value) == |ms|
    ensures r.Some? ==> Bounded(r.value.evReady) && Bounded(r.value.moderate) && Bounded(r.value.lowInfra)
    decreases |ms|
  {
    if |ms| == 0 then Some(NoTallies)
    else
      var rest := TallyClusters(ms[1..]);
      assert forall i :: 1 <= i < |ms| ==> ms[i] == ms[1..][i - 1];
      if rest.None? then None
      else
        var t := rest.value;
        var m := ms[0];
        var score := ReadinessOf(m);
        if m.cluster == EvReady then Some(t.(evReady := AddTo(t.evReady, score)))
        else if m.cluster == Moderate then Some(t.(moderate := AddTo(t.moderate, score)))
        else if m.cluster == LowInfra then Some(t.(lowInfra := AddTo(t.lowInfra, score)))
        else if m.cluster in ObjectPrototypeNames then Some(t)
        else None
  }

  /** One entry of the cluster summary. The description text is left out. */
  datatype ClusterBucket = ClusterBucket(name: string, count: nat, avgReadiness: int, color: string)

  const EvReadyColor: string := "hsl(142, 71%, 45%)"
  const ModerateColor: string := "hsl(217, 91%, 60%)"
  const LowInfraColor: string := "hsl(25, 95%, 53%)"

  /** `count > 0 ? Math.round(totalReadiness / count) : 0`. */
  function AverageReadiness(t: Tally): (avg: int)
    ensures t.count == 0 ==> avg == 0
    ensures Bounded(t) ==> avg <= 100
  {
    if t.count == 0 then 0
    else
      var n := t.count as real;
      DivideBelow(t.totalReadiness, n, MaxReadiness);
      RoundAtMostHundred(t.totalReadiness / n);
      Round(t.totalReadiness / n)
  }

  lemma RoundAtMostHundred(x: real)
    ensures x <= MaxReadiness ==> Round(x) <= 100
  {
    if x <= MaxReadiness {
      RoundMonotone(x, MaxReadiness);
      RoundInteger(100);
    }
  }

  lemma DivideBelow(total: real, n: real, c: real)
    requires n > 0.0
    ensures total <= c * n ==> total / n <= c
  {
  }

  function BucketOf(t: Tally, name: string, color: string): ClusterBucket {
    ClusterBucket(name, t.count, AverageReadiness(t), color)
  }

  /** The `clusterSummary` memo: the three buckets in their fixed order, or
      `None` when an unknown cluster label makes the fold throw. */
  function ClusterSummary(ms: seq<CityMetrics>): (r: Option<seq<ClusterBucket>>)
    ensures r.None? <==> exists i :: 0 <= i < |ms| && !Tolerated(ms[i].cluster)
    ensures r.Some? ==> |r.value| == 3
    ensures r.Some? ==>
      && r.value[0].name == EvReady && r.value[0].color == EvReadyColor
      && r.value[1].name == Moderate && r.value[1].color == ModerateColor
      && r.value[2].name == LowInfra && r.value[2].color == LowInfraColor
    ensures r.Some? ==> r.value[0].count + r.value[1].count + r.value[2].count <= |ms|
    ensures r.Some? && (forall i :: 0 <= i < |ms| ==> IsBucketLabel(ms[i].cluster)) ==>
      r.value[0].count + r.value[1].count + r.value[2].count == |ms|
    ensures r.Some? ==> forall k :: 0 <= k < 3 ==> r.value[k].avgReadiness <= 100
    ensures r.Some? ==> forall k :: 0 <= k < 3 ==> (r.value[k].count == 0 ==> r.value[k].avgReadiness == 0)
  {
    match TallyClusters(ms)
    case None => None
    case Some(t) =>
      Some([ BucketOf(t.evReady, EvReady, EvReadyColor),
             BucketOf(t.moderate, Moderate, ModerateColor),
             BucketOf(t.lowInfra, LowInfra, LowInfraColor) ])
  }

  function InCluster(cls: string): CityMetrics -> bool {
    (m: CityMetrics) => m.cluster == cls
  }

  /** The fold agrees with a reference definition bucket by bucket: a
      bucket counts the cities carrying its label and totals their
      readiness scores. */
  lemma {:induction false} TallyIsFilterFold(ms: seq<CityMetrics>, cls: string)
    requires IsBucketLabel(cls)
    requires TallyClusters(ms).Some?
    ensures Slot(TallyClusters(ms).value, cls).count == |Filter(ms, InCluster(cls))|
    ensures Slot(TallyClusters(ms).value, cls).totalReadiness
      == Sum(MapSeq(Filter(ms, InCluster(cls)), ReadinessOf))
    decreases |ms|
  {
    if |ms| > 0 {
      TallyStep(ms, cls);
      TallyIsFilterFold(ms[1..], cls);
      FilterStep(ms, cls);
      SumCons(ms[0], Filter(ms[1..], InCluster(cls)));
    }
  }

  /** One step of the fold touches only the bucket the head city names. */
  lemma TallyStep(ms: seq<CityMetrics>, cls: string)
    requires |ms| > 0 && IsBucketLabel(cls)
    requires TallyClusters(ms).Some?
    ensures TallyClusters(ms[1..]).Some?
    ensures Slot(TallyClusters(ms).value, cls) ==
      if ms[0].cluster == cls then AddTo(Slot(TallyClusters(ms[1..]).value, cls), ReadinessOf(ms[0]))
      else Slot(TallyClusters(ms[1..]).value, cls)
  {
    var rest := TallyClusters(ms[1..]);
    assert rest.Some?;
    var t := rest.value;
    var m := ms[0];
    if m.cluster == EvReady {
      assert TallyClusters(ms) == Some(t.(evReady := AddTo(t.evReady, ReadinessOf(m))));
    } else if m.cluster == Moderate {
      assert TallyClusters(ms) == Some(t.(moderate := AddTo(t.moderate, ReadinessOf(m))));
    } else if m.cluster == LowInfra {
      assert TallyClusters(ms) == Some(t.(lowInfra := AddTo(t.lowInfra, ReadinessOf(m))));
    } else {
      assert TallyClusters(ms) == Some(t);
    }
  }

  lemma FilterStep(ms: seq<CityMetrics>, cls: string)
    requires |ms| > 0
    ensures ms[0].cluster == cls ==> Filter(ms, InCluster(cls)) == [ms[0]] + Filter(ms[1..], InCluster(cls))
    ensures ms[0].cluster != cls ==> Filter(ms, InCluster(cls)) == Filter(ms[1..], InCluster(cls))
  {
    if ms[0].cluster != cls {
      assert Filter(ms, InCluster(cls)) == [] + Filter(ms[1..], InCluster(cls));
    }
  }

  lemma SumCons(m: CityMetrics, f: seq<CityMetrics>)
    ensures Sum(MapSeq([m] + f, ReadinessOf)) == ReadinessOf(m) + Sum(MapSeq(f, ReadinessOf))
  {
    var xs := MapSeq([m] + f, ReadinessOf);
    assert xs[1..] == MapSeq(f, ReadinessOf);
  }

  /** Each bucket's count is the number of cities with its label, and its
      average is the rounded mean readiness score of those cities. */
  lemma BucketIsRoundedMean(ms: seq<CityMetrics>, k: nat)
    requires ClusterSummary(ms).Some? && k < 3
    ensures var b := ClusterSummary(ms).value[k];
      var members := Filter(ms, InCluster(b.name));
      && b.count == |members|
      && (b.count > 0 ==> b.avgReadiness == Round(Mean(MapSeq(members, ReadinessOf))))
  {
    var b := ClusterSummary(ms).value[k];
    TallyIsFilterFold(ms, b.name);
  }

  /** The summaries the feature rows produce always carry one of the three
      labels, so the fold never throws and every city lands in a bucket. */
  lemma CitySummaryCoversEveryCity(rs: seq<EvIceRecord>)
    ensures var r := ClusterSummary(Cities.GetCityMetrics(rs));
      && r.Some?
      && r.value[0].count + r.value[1].count + r.value[2].count == |Cities.CityKeySet(rs)|
  {
    var ms := Cities.GetCityMetrics(rs);
    assert forall i :: 0 <= i < |ms| ==> IsBucketLabel(ms[i].cluster);
  }

  /** One point of the cluster scatter plot. */
  datatype ScatterPoint = ScatterPoint(
    name: string,
    state: string,
    cluster: string,
    economicIndex: real,
    environmentalIndex: real,
    evReadiness: real)

  /** How far the indices are scaled for the plot. */
  const IndexScale: real := 100.0

  /** `index ? index * 100 : fallback`: a missing index and an index of 0 are
      both falsy. */
  function IndexOrFallback(index: Option<real>, fallback: real): (r: real)
    ensures index.Some? && index.value != 0.0 ==> r == index.value * IndexScale
    ensures index.None? || index.value == 0.0 ==> r == fallback
  {
    if index.Some? && index.value != 0.0 then index.value * IndexScale else fallback
  }

  /** `Math.min(100, Math.max(40, 70 + avgCostAdvantage4W * 3))`. */
  function EconomicFallback(m: CityMetrics): (r: real)
    ensures 40.0 <= r <= 100.0
    ensures var raw := 70.0 + m.avgCostAdvantage4W * 3.0;
      && (40.0 <= raw <= 100.0 ==> r == raw)
      && (raw < 40.0 ==> r == 40.0)
      && (raw > 100.0 ==> r == 100.0)
  {
    Clamp(40.0, 100.0, 70.0 + m.avgCostAdvantage4W * 3.0)
  }

  /** `Math.min(80, Math.max(40, 60 + avgCo2Advantage * 500))`. */
  function EnvironmentalFallback(m: CityMetrics): (r: real)
    ensures 40.0 <= r <= 80.0
    ensures var raw := 60.0 + m.avgCo2Advantage * 500.0;
      && (40.0 <= raw <= 80.0 ==> r == raw)
      && (raw < 40.0 ==> r == 40.0)
      && (raw > 80.0 ==> r == 80.0)
  {
    Clamp(40.0, 80.0, 60.0 + m.avgCo2Advantage * 500.0)
  }

  function ScatterPointOf(m: CityMetrics): (p: ScatterPoint)
    ensures p.name == m.city && p.state == m.state && p.cluster == m.cluster
    ensures m.economicIndex.None? || m.economicIndex.value == 0.0 ==> p.economicIndex == EconomicFallback(m)
    ensures m.environmentalIndex.None? || m.environmentalIndex.value == 0.0 ==> p.environmentalIndex == EnvironmentalFallback(m)
    ensures m.economicIndex.Some? && m.economicIndex.value != 0.0 ==> p.economicIndex == m.economicIndex.value * IndexScale
    ensures m.environmentalIndex.Some? && m.environmentalIndex.value != 0.0 ==>
      p.environmentalIndex == m.environmentalIndex.value * IndexScale
    ensures p.evReadiness <= MaxReadiness
    ensures p.evReadiness == ReadinessScore(m.chargingDensity)
  {
    ScatterPoint(
      m.city, m.state, m.cluster,
      IndexOrFallback(m.economicIndex, EconomicFallback(m)),
      IndexOrFallback(m.environmentalIndex, EnvironmentalFallback(m)),
      ReadinessOf(m))
  }

  /** The `scatterData` memo: one point per city, in order. */
  function ScatterData(ms: seq<CityMetrics>): (ps: seq<ScatterPoint>)
    ensures |ps| == |ms|
    ensures forall i :: 0 <= i < |ms| ==> ps[i] == ScatterPointOf(ms[i])
  {
    MapSeq(ms, ScatterPointOf)
  }

  /** Without merged cluster data every plotted index is a fallback, so all
      points lie in the box [40, 100] x [40, 80]. */
  lemma UnmergedPointsInFallbackBox(rs: seq<EvIceRecord>, i: nat)
    requires i < |Cities.GetCityMetrics(rs)|
    ensures var p := ScatterData(Cities.GetCityMetrics(rs))[i];
      40.0 <= p.economicIndex <= 100.0 && 40.0 <= p.environmentalIndex <= 80.0
  {
  }

  /** A larger 4W cost advantage never lowers the economic fallback index. */
  lemma EconomicFallbackMonotone(m: CityMetrics, n: CityMetrics)
    requires m.avgCostAdvantage4W <= n.avgCostAdvantage4W
    ensures EconomicFallback(m) <= EconomicFallback(n)
  {
  }
}

=== FILE: dashboard.dfy ===
/** The dashboard page (`src/pages/Dashboard.tsx`): the five cities with the
    densest charging networks, the Mumbai 4W comparison the cards and the
    nine-year cost trend are drawn from, and the maintenance "% lower"
    figure. */
module Dashboard {
  import opened Wrappers
  import opened Seqs
  import opened Numbers
  import opened Records
  import Cities
  import Calculator

  /** Every city is at least as dense as the cities after it. */
  predicate SortedByDensity(s: seq<CityMetrics>) {
    forall i, j :: 0 <= i < j < |s| ==> s[i].chargingDensity >= s[j].chargingDensity
  }

  /** Places `x` after every city at least as dense as it, which is where a
      stable sort on `b.chargingDensity - a.chargingDensity` puts a city
      that comes after all of `s`. */
  function Insert(x: CityMetrics, s: seq<CityMetrics>): (r: seq<CityMetrics>)
    ensures |r| == |s| + 1
    ensures multiset(r) == multiset(s) + multiset{x}
    ensures forall k :: 0 <= k < |r| ==> r[k] == x || r[k] in s
    decreases |s|
  {
    if |s| == 0 then [x]
    else if s[0].chargingDensity >= x.chargingDensity then
      assert s == [s[0]] + s[1..];
      [s[0]] + Insert(x, s[1..])
    else
      [x] + s
  }

  /** Inserting into a ranking keeps it a ranking. */
  lemma {:induction false} InsertKeepsSorted(x: CityMetrics, s: seq<CityMetrics>)
    requires SortedByDensity(s)
    ensures SortedByDensity(Insert(x, s))
    decreases |s|
  {
    if |s| > 0 && s[0].chargingDensity >= x.chargingDensity {
      var rest := Insert(x, s[1..]);
      InsertKeepsSorted(x, s[1..]);
      forall k | 0 <= k < |rest|
        ensures s[0].chargingDensity >= rest[k].chargingDensity
      {
        if rest[k] != x {
          var j :| 0 <= j < |s[1..]| && s[1..][j] == rest[k];
          assert s[j + 1] == rest[k];
        }
      }
      assert Insert(x, s) == [s[0]] + rest;
    }
  }

  /** `cityMetrics.sort((a, b) => b.chargingDensity - a.chargingDensity)`,
      as a function of the list rather than an in-place update: the cities
      taken in order and inserted one by one. */
  function SortByDensity(ms: seq<CityMetrics>): (r: seq<CityMetrics>)
    ensures |r| == |ms|
    ensures multiset(r) == multiset(ms)
    ensures SortedByDensity(r)
    decreases |ms|
  {
    if |ms| == 0 then []
    else
      var n := |ms| - 1;
      assert ms == ms[..n] + [ms[n]];
      InsertKeepsSorted(ms[n], SortByDensity(ms[..n]));
      Insert(ms[n], SortByDensity(ms[..n]))
  }

  /** How many cities the ranking shows. */
  const TopCount: nat := 5

  /** Top of the score scale. */
  const MaxScore: int := 100

  /** `Math.min(100, Math.round(chargingDensity * 20 + 50))`. */
  function CityScore(density: real): (score: int)
    ensures score <= MaxScore
    ensures score == MaxScore || score == Round(density * 20.0 + 50.0)
    ensures score <= Round(density * 20.0 + 50.0)
  {
    var s := Round(density * 20.0 + 50.0);
    if s < MaxScore then s else MaxScore
  }

  /** A denser network never scores lower. */
  lemma CityScoreMonotone(a: real, b: real)
    requires a <= b
    ensures CityScore(a) <= CityScore(b)
  {
    RoundMonotone(a * 20.0 + 50.0, b * 20.0 + 50.0);
  }

  datatype TopCity = TopCity(city: string, score: int)

  /** The `topCities` memo: the first five cities of the ranking with their scores. */
  function TopCities(ms: seq<CityMetrics>): (top: seq<TopCity>)
    ensures |top| == if |ms| < TopCount then |ms| else TopCount
    ensures forall i :: 0 <= i < |top| ==>
      top[i].city == SortByDensity(ms)[i].city && top[i].score == CityScore(SortByDensity(ms)[i].chargingDensity)
    ensures forall i :: 0 <= i < |top| ==> top[i].score <= MaxScore
  {
    var sorted := SortByDensity(ms);
    var shown := if |sorted| < TopCount then sorted else sorted[..TopCount];
    MapSeq(shown, (m: CityMetrics) => TopCity(m.city, CityScore(m.chargingDensity)))
  }

  /** The ranking's scores never increase down the list. */
  lemma TopScoresNonIncreasing(ms: seq<CityMetrics>)
    ensures var top := TopCities(ms);
      forall i, j :: 0 <= i < j < |top| ==> top[i].score >= top[j].score
  {
    var sorted := SortByDensity(ms);
    var top := TopCities(ms);
    forall i, j | 0 <= i < j < |top|
      ensures top[i].score >= top[j].score
    {
      CityScoreMonotone(sorted[j].chargingDensity, sorted[i].chargingDensity);
    }
  }

  /** A city left out of the ranking is no denser than any city in it: each
      copy of a city beyond those shown sits further down the sorted list. */
  lemma RankedCitiesAreDensest(ms: seq<CityMetrics>, i: nat, x: CityMetrics)
    requires i < |TopCities(ms)|
    requires multiset(ms)[x] > multiset(SortByDensity(ms)[..|TopCities(ms)|])[x]
    ensures SortByDensity(ms)[i].chargingDensity >= x.chargingDensity
  {
    var sorted := SortByDensity(ms);
    PrefixDominates(sorted, |TopCities(ms)|, i, x);
  }

  /** In a ranking, a copy of `x` beyond the first `n` places is no denser
      than any of those places. */
  lemma PrefixDominates(sorted: seq<CityMetrics>, n: nat, i: nat, x: CityMetrics)
    requires SortedByDensity(sorted)
    requires i < n <= |sorted|
    requires multiset(sorted)[x] > multiset(sorted[..n])[x]
    ensures sorted[i].chargingDensity >= x.chargingDensity
  {
    assert sorted == sorted[..n] + sorted[n..];
    assert multiset(sorted)[x] == multiset(sorted[..n])[x] + multiset(sorted[n..])[x];
    assert x in sorted[n..];
    var k :| 0 <= k < |sorted[n..]| && sorted[n..][k] == x;
    assert sorted[n + k] == x;
  }

  /** The state and city the comparison cards read. */
  const CardState: string := "Maharashtra"
  const CardCity: string := "Mumbai"

  /** The `mumbai4WData` memo: the Mumbai 4W comparison, `null` without data. */
  function Mumbai4WData(rs: seq<EvIceRecord>): (d: Option<VehicleClassData>)
    ensures d.Some? <==> |rs| > 0
    ensures d.Some? ==> d.value.vehicleClass == FourWheeler
    ensures d.Some? ==> d.value == Cities.GetVehicleClassData(rs, CardState, CardCity)[2]
  {
    if |rs| == 0 then None
    else
      var data := Cities.GetVehicleClassData(rs, CardState, CardCity);
      assert data[2].vehicleClass == FourWheeler;
      var found := Calculator.CurrentVehicleData(data, FourWheeler);
      assert found.Some?;
      assert found.value == data[2] by {
        FindFourWheeler(data);
      }
      found
  }

  /** In the three-entry class list the first 4W entry is the third one. */
  lemma FindFourWheeler(data: seq<VehicleClassData>)
    requires |data| == 3
    requires forall k :: 0 <= k < 3 ==> data[k].vehicleClass == AllClasses[k]
    ensures Calculator.CurrentVehicleData(data, FourWheeler) == Some(data[2])
  {
    var p := Calculator.ClassIs(FourWheeler);
    assert !p(data[0]) && !p(data[1]) && p(data[2]);
    assert data[1..][1..] == [data[2]];
  }

  /** Purchase prices and distance the trend assumes. */
  const TrendEvPrice: real := 1500000.0
  const TrendIcePrice: real := 1000000.0
  const TrendAnnualKm: real := 15000.0
  const TrendYears: nat := 9

  datatype TrendPoint = TrendPoint(year: nat, ev: int, ice: int)

  function TrendEv(d: VehicleClassData, year: nat): real {
    TrendEvPrice + (d.evCostPerKm + d.evMaintenanceCost) * TrendAnnualKm * year as real
  }

  function TrendIce(d: VehicleClassData, year: nat): real {
    TrendIcePrice + (d.iceCostPerKm + d.iceMaintenanceCost) * TrendAnnualKm * year as real
  }

  /** The `tcoTrendData` memo: years 0 to 8 of both cumulative costs, empty
      without the Mumbai 4W comparison. */
  function TcoTrendData(md: Option<VehicleClassData>): (ts: seq<TrendPoint>)
    ensures md.None? ==> ts == []
    ensures md.Some? ==> |ts| == TrendYears
    ensures forall y :: 0 <= y < |ts| ==> ts[y].year == y
    ensures md.Some? ==> ts[0] == TrendPoint(0, 1500000, 1000000)
    ensures md.Some? ==> forall y :: 0 <= y < |ts| ==>
      ts[y].ev as real - 0.5 <= TrendEv(md.value, y) < ts[y].ev as real + 0.5
    ensures md.Some? ==> forall y :: 0 <= y < |ts| ==>
      ts[y].ice as real - 0.5 <= TrendIce(md.value, y) < ts[y].ice as real + 0.5
  {
    match md
    case None => []
    case Some(d) =>
      RoundInteger(1500000);
      RoundInteger(1000000);
      seq(TrendYears, y requires 0 <= y < TrendYears => TrendPoint(y, Round(TrendEv(d, y)), Round(TrendIce(d, y))))
  }

  /** The trend is the location calculator's trajectory for a Mumbai 4W
      driven 15000 km a year, shown for eight years of ownership. */
  lemma TrendMatchesCalculator(d: VehicleClassData, years: nat, y: nat)
    requires y < TrendYears && y <= years
    ensures var c := Calculator.ComparisonOf(d, FourWheeler, TrendAnnualKm / Calculator.DaysPerYear, years);
      var t := TcoTrendData(Some(d));
      && t[y].ev == c.tcoOverTime[y].ev
      && t[y].ice == c.tcoOverTime[y].ice
  {
    var km := Calculator.AnnualKm(TrendAnnualKm / Calculator.DaysPerYear) * y as real;
    assert km == TrendAnnualKm * y as real;
    assert Calculator.EvTcoInYear(d, FourWheeler, TrendAnnualKm / Calculator.DaysPerYear, y) == TrendEv(d, y);
    assert Calculator.IceTcoInYear(d, FourWheeler, TrendAnnualKm / Calculator.DaysPerYear, y) == TrendIce(d, y);
  }

  /** A non-negative running cost never makes the trend fall. */
  lemma TrendNonDecreasing(d: VehicleClassData, y1: nat, y2: nat)
    requires d.evCostPerKm + d.evMaintenanceCost >= 0.0
    requires y1 <= y2 < TrendYears
    ensures TcoTrendData(Some(d))[y1].ev <= TcoTrendData(Some(d))[y2].ev
  {
    var rate := (d.evCostPerKm + d.evMaintenanceCost) * TrendAnnualKm;
    assert rate >= 0.0;
    assert rate * y1 as real <= rate * y2 as real;
    RoundMonotone(TrendEv(d, y1), TrendEv(d, y2));
  }

  /** `x || fallback` on a number that may be missing: a missing value and 0
      are both falsy. */
  function OrElse(x: Option<real>, fallback: real): (r: real)
    ensures x.Some? && x.value != 0.0 ==> r == x.value
    ensures x.None? || x.value == 0.0 ==> r == fallback
  {
    if x.Some? && x.value != 0.0 then x.value else fallback
  }

  /** The ICE maintenance cost the "% lower" figure divides by:
      `mumbai4WData?.iceMaintenanceCost || 1`. */
  function MaintenanceDenominator(md: Option<VehicleClassData>): (den: real)
    ensures den != 0.0
    ensures md.Some? && md.value.iceMaintenanceCost != 0.0 ==> den == md.value.iceMaintenanceCost
    ensures md.None? || md.value.iceMaintenanceCost == 0.0 ==> den == 1.0
  {
    OrElse(if md.Some? then Some(md.value.iceMaintenanceCost) else None, 1.0)
  }

  /** The maintenance card's "% lower": how much cheaper EV maintenance is
      than ICE maintenance, in percent of the latter. */
  function MaintenanceLowerPercent(md: Option<VehicleClassData>): (pct: int)
    ensures md.None? ==> pct == 100
    ensures md.Some? && 0.0 <= md.value.evMaintenanceCost <= md.value.iceMaintenanceCost ==> 0 <= pct <= 100
    ensures md.Some? && md.value.iceMaintenanceCost != 0.0 ==>
      var d := md.value;
      pct as real - 0.5 <= (d.iceMaintenanceCost - d.evMaintenanceCost) / d.iceMaintenanceCost * 100.0 < pct as real + 0.5
    ensures md.Some? && md.value.iceMaintenanceCost == 0.0 ==>
      pct as real - 0.5 <= (1.0 - md.value.evMaintenanceCost) * 100.0 < pct as real + 0.5
  {
    var den := MaintenanceDenominator(md);
    var ev := OrElse(if md.Some? then Some(md.value.evMaintenanceCost) else None, 0.0);
    RoundInteger(0);
    RoundInteger(100);
    FractionBetween(den - ev, den);
    Round((den - ev) / den * 100.0)
  }

  /** A share of a positive whole that lies between none and all of it
      rounds to a percentage between 0 and 100. */
  lemma FractionBetween(part: real, whole: real)
    requires whole != 0.0
    ensures 0.0 <= part <= whole ==> 0 <= Round(part / whole * 100.0) <= 100
  {
    if 0.0 <= part <= whole {
      assert part / whole <= 1.0;
      RoundMonotone(0.0, part / whole * 100.0);
      RoundMonotone(part / whole * 100.0, 100.0);
      RoundInteger(0);
      RoundInteger(100);
    }
  }
}

=== FILE: numbers.dfy ===
/** The numeric helpers of the dashboard, over exact reals: `Math.round`,
    `Number.prototype.toFixed` read back as a number, `Math.min`/`Math.max`
    and the clamp they combine into. */
module Numbers {

  /** `Math.round(x)`: the integer nearest to `x`, halves rounded up. */
  function Round(x: real): (n: int)
    ensures n as real - 0.5 <= x < n as real + 0.5
  {
    (x + 0.5).Floor
  }

  /** Rounding is monotone. */
  lemma RoundMonotone(x: real, y: real)
    requires x <= y
    ensures Round(x) <= Round(y)
  {
  }

  /** An integer rounds to itself. */
  lemma RoundInteger(n: int)
    ensures Round(n as real) == n
  {
  }

  function Pow10(d: nat): (p: nat)
    ensures p >= 1
  {
    if d == 0 then 1 else 10 * Pow10(d - 1)
  }

  /** The integer count of `10^-digits` units that `x.toFixed(digits)`
      prints: the magnitude is rounded half up and the sign put back. */
  function FixedUnits(x: real, digits: nat): (n: int)
    ensures -0.5 <= n as real - x * Pow10(digits) as real <= 0.5
  {
    var scale := Pow10(digits) as real;
    if x < 0.0 then -Round(-x * scale) else Round(x * scale)
  }

  /** The number `x.toFixed(digits)` denotes: `x` rounded to `digits`
      decimals, halves away from zero. */
  function ToFixed(x: real, digits: nat): (r: real)
    ensures r * Pow10(digits) as real == FixedUnits(x, digits) as real
    ensures -0.5 <= (r - x) * Pow10(digits) as real <= 0.5
  {
    FixedUnits(x, digits) as real / Pow10(digits) as real
  }

  function Min(a: real, b: real): (m: real)
    ensures m <= a && m <= b && (m == a || m == b)
  {
    if a <= b then a else b
  }

  function Max(a: real, b: real): (m: real)
    ensures m >= a && m >= b && (m == a || m == b)
  {
    if a >= b then a else b
  }

  /** `Math.min(hi, Math.max(lo, x))`: `x` pulled into `[lo, hi]`. */
  function Clamp(lo: real, hi: real, x: real): (r: real)
    requires lo <= hi
    ensures lo <= r <= hi
    ensures lo <= x <= hi ==> r == x
    ensures x < lo ==> r == lo
    ensures x > hi ==> r == hi
  {
    Min(hi, Max(lo, x))
  }
}

=== FILE: parsing.dfy ===
/** The three CSV parsers of `src/lib/evDataUtils.ts`. Each trims the text,
    splits it into lines, drops the first (header) line without looking at
    it, splits every other line on commas (no quoting), silently skips lines
    with too few fields and builds one record per surviving line, in order.
    `parseFloat` is a parameter: the model never looks inside it, and
    `parseFloat(v) || 0` reads as "no number, or 0, gives 0". */
module Parsing {
  import opened Wrappers
  import opened Seqs
  import opened Text
  import opened Records
  import Advantages

  /** The host's `parseFloat`: the number at the start of a string, if any. */
  type ParseFloat = string -> Option<real>

  /** Fields a line needs to be kept, per table. */
  const FeatureMinFields: nat := 20
  const MlMinFields: nat := 8
  const ClusterMinFields: nat := 8

  /** `parseFloat(values[i]) || 0`: a missing field, a field that is not a
      number, and a field that is 0 all give 0. */
  function NumberAt(parse: ParseFloat, values: seq<string>, i: nat): (v: real)
    ensures i >= |values| ==> v == 0.0
    ensures i < |values| && parse(values[i]).None? ==> v == 0.0
    ensures i < |values| && parse(values[i]).Some? ==> v == parse(values[i]).value
  {
    if i < |values| then parse(values[i]).GetOr(0.0) else 0.0
  }

  /** `values[i] || ''`: a missing field reads as the empty string. */
  function TextAt(values: seq<string>, i: nat): (t: string)
    ensures i < |values| ==> t == values[i]
    ensures i >= |values| ==> t == ""
  {
    if i < |values| then values[i] else ""
  }

  /** A line survives when it has at least `minFields` comma-separated fields. */
  predicate HasFields(line: string, minFields: nat) {
    |Fields(line)| >= minFields
  }

  /** The lines after the header that a parser keeps, in order. */
  function KeptLines(body: seq<string>, minFields: nat): seq<string> {
    Filter(body, line => HasFields(line, minFields))
  }

  /** The lines after the header that a parser skips. */
  function ShortLines(body: seq<string>, minFields: nat): seq<string> {
    Reject(body, line => HasFields(line, minFields))
  }

  /** The record loop shared by the three parsers: one `build` result per line
      of `body` with at least `minFields` fields, in input order. */
  function ParseRows<T>(body: seq<string>, minFields: nat, build: seq<string> -> T): (rows: seq<T>)
    ensures |rows| == |KeptLines(body, minFields)|
    ensures forall j :: 0 <= j < |rows| ==> rows[j] == build(Fields(KeptLines(body, minFields)[j]))
    decreases |body|
  {
    if |body| == 0 then []
    else
      var rest := ParseRows(body[1..], minFields, build);
      if HasFields(body[0], minFields) then [build(Fields(body[0]))] + rest else rest
  }

  /** Every line after the header is either parsed into a record or skipped. */
  lemma RowsPlusSkippedLines<T>(body: seq<string>, minFields: nat, build: seq<string> -> T)
    ensures |ParseRows(body, minFields, build)| + |ShortLines(body, minFields)| == |body|
  {
    FilterRejectPartition(body, line => HasFields(line, minFields));
  }

  /** The lines of `text` after the header line. */
  function Body(text: string): seq<string> {
    Lines(text)[1..]
  }

  /** One record from the fields of a feature-table line: columns 0..19 as
      named by the header, 20..22 defaulting to '', the advantages 0, the
      density `stations / 10` and the readiness category of the station count. */
  function FeatureRecord(parse: ParseFloat, values: seq<string>): (r: EvIceRecord)
    ensures r.costAdvantage == 0.0 && r.co2Advantage == 0.0
    ensures r.chargingStationsCount == NumberAt(parse, values, 11)
    ensures r.chargingDensity * StationsPerDensityUnit == r.chargingStationsCount
    ensures r.chargingReadiness == ChargingReadiness(r.chargingStationsCount)
    ensures |values| <= 20 ==> r.locationLevel == ""
    ensures |values| <= 21 ==> r.distributionCompany == ""
    ensures |values| <= 22 ==> r.consumerCategory == ""
  {
    var stations := NumberAt(parse, values, 11);
    EvIceRecord(
      state := TextAt(values, 0),
      city := TextAt(values, 1),
      vehicleClass := TextAt(values, 2),
      powertrain := TextAt(values, 3),
      energyCharge := NumberAt(parse, values, 4),
      fixedCharge := TextAt(values, 5),
      tariffYear := TextAt(values, 6),
      voltageLevel := TextAt(values, 7),
      fuelType := TextAt(values, 8),
      fuelPrice := NumberAt(parse, values, 9),
      snapshotDate := TextAt(values, 10),
      chargingStationsCount := stations,
      implementingAgency := TextAt(values, 12),
      accessType := TextAt(values, 13),
      gridEmissionFactor := NumberAt(parse, values, 14),
      co2PerKm := NumberAt(parse, values, 15),
      maintenanceCost := NumberAt(parse, values, 16),
      replacementCost := NumberAt(parse, values, 17),
      replacementCycle := NumberAt(parse, values, 18),
      costPerKm := NumberAt(parse, values, 19),
      locationLevel := TextAt(values, 20),
      distributionCompany := TextAt(values, 21),
      consumerCategory := TextAt(values, 22),
      costAdvantage := 0.0,
      co2Advantage := 0.0,
      chargingDensity := stations / StationsPerDensityUnit,
      chargingReadiness := ChargingReadiness(stations))
  }

  /** The feature rows of `text` before the EV/ICE pairing pass. */
  function FeatureRows(parse: ParseFloat, text: string): seq<EvIceRecord> {
    ParseRows(Body(text), FeatureMinFields, values => FeatureRecord(parse, values))
  }

  /** `parseFeatureEngineeredCSV`: the feature rows with the pairing pass applied. */
  function ParseFeatureCsv(parse: ParseFloat, text: string): (records: seq<EvIceRecord>)
    ensures |records| == |KeptLines(Body(text), FeatureMinFields)|
  {
    Advantages.WithAdvantages(FeatureRows(parse, text))
  }

  /** The feature parser keeps exactly the lines after the header that have at
      least 20 fields, in order, and the header never becomes a record. */
  lemma FeatureCsvKeepsLongLines(parse: ParseFloat, text: string)
    ensures |ParseFeatureCsv(parse, text)| == |Lines(text)| - 1 - |ShortLines(Body(text), FeatureMinFields)|
    ensures forall j :: 0 <= j < |FeatureRows(parse, text)| ==>
      FeatureRows(parse, text)[j] == FeatureRecord(parse, Fields(KeptLines(Body(text), FeatureMinFields)[j]))
  {
    RowsPlusSkippedLines(Body(text), FeatureMinFields, values => FeatureRecord(parse, values));
  }

  /** One record from the fields of an ML-table line. */
  function MlRecordOf(parse: ParseFloat, values: seq<string>): (r: MlRecord)
    ensures r.chargingStationsCount == NumberAt(parse, values, 7)
    ensures r.costPerKm == NumberAt(parse, values, 4)
  {
    MlRecord(
      state := TextAt(values, 0),
      city := TextAt(values, 1),
      vehicleClass := TextAt(values, 2),
      energyCharge := NumberAt(parse, values, 3),
      costPerKm := NumberAt(parse, values, 4),
      co2PerKm := NumberAt(parse, values, 5),
      maintenanceCost := NumberAt(parse, values, 6),
      chargingStationsCount := NumberAt(parse, values, 7))
  }

  /** `parseMLCSV`: one record per line after the header with at least eight
      fields, in input order. */
  function ParseMlCsv(parse: ParseFloat, text: string): (records: seq<MlRecord>)
    ensures |records| == |Lines(text)| - 1 - |ShortLines(Body(text), MlMinFields)|
    ensures |records| == |KeptLines(Body(text), MlMinFields)|
    ensures forall j :: 0 <= j < |records| ==>
      records[j] == MlRecordOf(parse, Fields(KeptLines(Body(text), MlMinFields)[j]))
  {
    RowsPlusSkippedLines(Body(text), MlMinFields, values => MlRecordOf(parse, values));
    ParseRows(Body(text), MlMinFields, values => MlRecordOf(parse, values))
  }

  /** One record from the fields of a cluster-table line. A line with exactly
      eight fields has no column 8, so its maintenance cost reads as 0. */
  function ClusterRecordOf(parse: ParseFloat, values: seq<string>): (r: ClusterRecord)
    ensures |values| == 8 ==> r.maintenanceCost == 0.0
    ensures r.economicIndex == NumberAt(parse, values, 3)
  {
    ClusterRecord(
      state := TextAt(values, 0),
      city := TextAt(values, 1),
      cluster := TextAt(values, 2),
      economicIndex := NumberAt(parse, values, 3),
      environmentalIndex := NumberAt(parse, values, 4),
      costAdvantage := NumberAt(parse, values, 5),
      co2Advantage := NumberAt(parse, values, 6),
      chargingDensity := NumberAt(parse, values, 7),
      maintenanceCost := NumberAt(parse, values, 8))
  }

  /** `parseCityClusterCSV`: one record per line after the header with at
      least eight fields, in input order. */
  function ParseClusterCsv(parse: ParseFloat, text: string): (records: seq<ClusterRecord>)
    ensures |records| == |Lines(text)| - 1 - |ShortLines(Body(text), ClusterMinFields)|
    ensures |records| == |KeptLines(Body(text), ClusterMinFields)|
    ensures forall j :: 0 <= j < |records| ==>
      records[j] == ClusterRecordOf(parse, Fields(KeptLines(Body(text), ClusterMinFields)[j]))
  {
    RowsPlusSkippedLines(Body(text), ClusterMinFields, values => ClusterRecordOf(parse, values));
    ParseRows(Body(text), ClusterMinFields, values => ClusterRecordOf(parse, values))
  }
}

=== FILE: records.dfy ===
/** The entities of the EV/ICE dataset (`src/lib/evDataUtils.ts`): one row of
    the feature table, one row of the ML table, one row of the city-cluster
    table, and the per-city and per-vehicle-class summaries derived from
    them. Class, powertrain and cluster labels stay strings because the
    parsers cast CSV text to them without checking it. */
module Records {
  import opened Wrappers

  /** One row of the feature-engineered table (`EVICERecord`). The last four
      fields are derived: the advantages stay 0 until the EV/ICE pairing pass
      writes them. */
  datatype EvIceRecord = EvIceRecord(
    state: string,
    city: string,
    vehicleClass: string,
    powertrain: string,
    energyCharge: real,
    fixedCharge: string,
    tariffYear: string,
    voltageLevel: string,
    fuelType: string,
    fuelPrice: real,
    snapshotDate: string,
    chargingStationsCount: real,
    implementingAgency: string,
    accessType: string,
    gridEmissionFactor: real,
    co2PerKm: real,
    maintenanceCost: real,
    replacementCost: real,
    replacementCycle: real,
    costPerKm: real,
    locationLevel: string,
    distributionCompany: string,
    consumerCategory: string,
    costAdvantage: real,
    co2Advantage: real,
    chargingDensity: real,
    chargingReadiness: string)

  /** One row of the ML-ready table (`MLDataRecord`). */
  datatype MlRecord = MlRecord(
    state: string,
    city: string,
    vehicleClass: string,
    energyCharge: real,
    costPerKm: real,
    co2PerKm: real,
    maintenanceCost: real,
    chargingStationsCount: real)

  /** One row of the externally trained city-cluster table (`CityClusterRecord`). */
  datatype ClusterRecord = ClusterRecord(
    state: string,
    city: string,
    cluster: string,
    economicIndex: real,
    environmentalIndex: real,
    costAdvantage: real,
    co2Advantage: real,
    chargingDensity: real,
    maintenanceCost: real)

  /** The summary of one city (`CityMetrics`); the two indices are absent
      until cluster data is merged in. */
  datatype CityMetrics = CityMetrics(
    city: string,
    state: string,
    chargingDensity: real,
    chargingReadiness: string,
    avgCostAdvantage2W: real,
    avgCostAdvantage3W: real,
    avgCostAdvantage4W: real,
    avgCo2Advantage: real,
    chargingStationsCount: real,
    cluster: string,
    economicIndex: Option<real>,
    environmentalIndex: Option<real>)

  /** The three vehicle classes the summaries iterate over, in their fixed order. */
  datatype VehicleClass = TwoWheeler | ThreeWheeler | FourWheeler

  /** The label a vehicle class carries in the data. */
  function ClassLabel(vc: VehicleClass): string {
    match vc
    case TwoWheeler => "2W"
    case ThreeWheeler => "3W"
    case FourWheeler => "4W"
  }

  /** `['2W', '3W', '4W']`. */
  const AllClasses: seq<VehicleClass> := [TwoWheeler, ThreeWheeler, FourWheeler]

  /** The EV-versus-ICE comparison for one vehicle class in one city (`VehicleClassData`). */
  datatype VehicleClassData = VehicleClassData(
    vehicleClass: VehicleClass,
    evCostPerKm: real,
    iceCostPerKm: real,
    evCo2PerKm: real,
    iceCo2PerKm: real,
    evMaintenanceCost: real,
    iceMaintenanceCost: real,
    evReplacementCost: real,
    iceReplacementCost: real,
    evReplacementCycle: real,
    iceReplacementCycle: real,
    costAdvantage: real,
    co2Advantage: real)

  const EvLabel: string := "EV"
  const IceLabel: string := "ICE"

  const EvReady: string := "EV-Ready"
  const Moderate: string := "Moderate"
  const LowInfra: string := "Low-Infra"

  /** Station counts at which readiness reaches "High" and "Medium". */
  const HighReadinessStations: real := 10.0
  const MediumReadinessStations: real := 3.0

  /** Stations per unit of charging density. */
  const StationsPerDensityUnit: real := 10.0

  /** `getChargingReadiness`: the readiness category of a station count. */
  function ChargingReadiness(stations: real): (r: string)
    ensures r in {"High", "Medium", "Low", "None"}
    ensures r == "None" <==> stations <= 0.0
    ensures r == "High" <==> stations >= HighReadinessStations
    ensures r == "Medium" <==> MediumReadinessStations <= stations < HighReadinessStations
    ensures r == "Low" <==> 0.0 < stations < MediumReadinessStations
  {
    if stations >= HighReadinessStations then "High"
    else if stations >= MediumReadinessStations then "Medium"
    else if stations > 0.0 then "Low"
    else "None"
  }

  /** The rank of a readiness category, "None" lowest. */
  function ReadinessRank(r: string): nat {
    if r == "High" then 3 else if r == "Medium" then 2 else if r == "Low" then 1 else 0
  }

  /** More stations never mean a lower readiness category. */
  lemma ReadinessMonotone(a: real, b: real)
    requires a <= b
    ensures ReadinessRank(ChargingReadiness(a)) <= ReadinessRank(ChargingReadiness(b))
  {
  }

  /** The key rows are paired under: `${state}-${city}-${vehicleClass}`. */
  function PairKey(r: EvIceRecord): string {
    r.state + "-" + r.city + "-" + r.vehicleClass
  }

  /** The key rows are grouped into cities under: `${state}-${city}`. */
  function CityKey(r: EvIceRecord): string {
    r.state + "-" + r.city
  }

  /** The key a summary or a cluster row is matched under. */
  function MetricsKey(m: CityMetrics): string {
    m.state + "-" + m.city
  }

  function ClusterKey(c: ClusterRecord): string {
    c.state + "-" + c.city
  }

  /** Field selectors, for averaging one field over a list of rows. */
  function StateOf(r: EvIceRecord): string { r.state }
  function CityOf(r: EvIceRecord): string { r.city }
  function CostPerKmOf(r: EvIceRecord): real { r.costPerKm }
  function Co2PerKmOf(r: EvIceRecord): real { r.co2PerKm }
  function CostAdvantageOf(r: EvIceRecord): real { r.costAdvantage }
  function Co2AdvantageOf(r: EvIceRecord): real { r.co2Advantage }
  function EnergyChargeOf(r: EvIceRecord): real { r.energyCharge }
  function ChargingDensityOf(r: EvIceRecord): real { r.chargingDensity }
  function MaintenanceCostOf(r: EvIceRecord): real { r.maintenanceCost }
  function FuelPriceOf(r: EvIceRecord): real { r.fuelPrice }

  predicate IsEv(r: EvIceRecord) {
    r.powertrain == EvLabel
  }

  predicate IsIce(r: EvIceRecord) {
    r.powertrain == IceLabel
  }
}

=== FILE: scenarios.dfy ===
/** The what-if simulator of `src/pages/Scenarios.tsx`: a seven-year total
    cost of ownership (TCO) of a ₹18 lakh EV against a ₹12 lakh petrol car
    driven 40 km a day, as a pure function of six slider values, plus the
    green-grid switch and the petrol-price sensitivity sweep built on it. */
module Scenarios {
  import opened Numbers
  import opened Tco

  /** The six slider values `calculateScenarioImpact` takes. */
  datatype ScenarioInputs = ScenarioInputs(
    petrolPrice: real,
    electricityRate: real,
    gridCO2: real,
    evSubsidy: real,
    chargingCost: real,
    evPriceReduction: real)

  /** `baseScenario`: the sliders' starting values. */
  const BaseScenario: ScenarioInputs := ScenarioInputs(
    petrolPrice := 105.0,
    electricityRate := 8.0,
    gridCO2 := 700.0,
    evSubsidy := 150000.0,
    chargingCost := 15.0,
    evPriceReduction := 0.0)

  const DailyKm: real := 40.0
  const DaysPerYear: real := 365.0
  const OwnershipYears: nat := 7
  const AnnualKm: real := DailyKm * DaysPerYear
  const TotalKm: real := AnnualKm * OwnershipYears as real

  const BaseEvPrice: real := 1800000.0
  /** km per kWh. */
  const EvEfficiency: real := 7.0
  /** Shares of home and public charging in the electricity price. */
  const HomeShare: real := 0.7
  const PublicShare: real := 0.3
  const EvMaintenancePerYear: real := 8000.0

  const IcePrice: real := 1200000.0
  /** km per litre. */
  const IceEfficiency: real := 15.0
  const IceMaintenancePerYear: real := 20000.0
  /** kg of CO₂ per km of the petrol car. */
  const IceCo2PerKm: real := 0.12

  const KgToGrams: real := 1000.0
  /** Rupees per lakh, the unit of the trajectory chart. */
  const Lakh: real := 100000.0
  /** The grid factor (g CO₂ per kWh) the green-grid switch substitutes. */
  const GreenGridCo2: real := 50.0

  /** The EV's price after the percentage reduction. */
  function EvPrice(s: ScenarioInputs): real {
    BaseEvPrice * (1.0 - s.evPriceReduction / 100.0)
  }

  /** Price per kWh when 70% of charging is at home and 30% public. */
  function BlendedRate(s: ScenarioInputs): real {
    s.electricityRate * HomeShare + s.chargingCost * PublicShare
  }

  function EvFuelCost(s: ScenarioInputs): real {
    (TotalKm / EvEfficiency) * BlendedRate(s)
  }

  const EvMaintenance: real := EvMaintenancePerYear * OwnershipYears as real

  /** The EV's seven-year TCO, net of the subsidy. */
  function EvTco(s: ScenarioInputs): real {
    EvPrice(s) + EvFuelCost(s) + EvMaintenance - s.evSubsidy
  }

  /** kg of CO₂ per km of the EV on the given grid. */
  function EvCo2PerKm(s: ScenarioInputs): real {
    (s.gridCO2 / EvEfficiency) / KgToGrams
  }

  function IceFuelCost(s: ScenarioInputs): real {
    (TotalKm / IceEfficiency) * s.petrolPrice
  }

  const IceMaintenance: real := IceMaintenancePerYear * OwnershipYears as real

  function IceTco(s: ScenarioInputs): real {
    IcePrice + IceFuelCost(s) + IceMaintenance
  }

  /** The purchase-price gap the running-cost saving must repay. */
  function PriceDiff(s: ScenarioInputs): real {
    EvPrice(s) - IcePrice - s.evSubsidy
  }

  /** Average yearly running cost (fuel and maintenance) of the ICE car minus
      that of the EV. */
  function AnnualSavings(s: ScenarioInputs): real {
    var annualEvCost := (EvFuelCost(s) + EvMaintenance) / OwnershipYears as real;
    var annualIceCost := (IceFuelCost(s) + IceMaintenance) / OwnershipYears as real;
    annualIceCost - annualEvCost
  }

  /** The EV's cumulative cost after `year` years, computed from the yearly
      distance. */
  function EvYearTco(s: ScenarioInputs, year: nat): real {
    var yearKm := AnnualKm * year as real;
    EvPrice(s) + (yearKm / EvEfficiency) * BlendedRate(s) + EvMaintenancePerYear * year as real - s.evSubsidy
  }

  function IceYearTco(s: ScenarioInputs, year: nat): real {
    var yearKm := AnnualKm * year as real;
    IcePrice + (yearKm / IceEfficiency) * s.petrolPrice + IceMaintenancePerYear * year as real
  }

  /** kg of CO₂ the EV saves over the seven years. */
  function Co2SavedKg(s: ScenarioInputs): real {
    (IceCo2PerKm - EvCo2PerKm(s)) * TotalKm
  }

  /** One point of the trajectory chart, in whole lakhs. */
  datatype YearPoint = YearPoint(year: nat, ev: int, ice: int)

  /** What `calculateScenarioImpact` returns. The `toFixed` strings are the
      numbers they denote. */
  datatype ScenarioImpact = ScenarioImpact(
    evTCO: int,
    iceTCO: int,
    savings: int,
    evCostPerKm: real,
    iceCostPerKm: real,
    evCO2: real,
    iceCO2: real,
    co2Savings: int,
    breakEven: BreakEvenLabel,
    evRecommended: bool,
    yearlyData: seq<YearPoint>)

  /** Years 0 to 7 of both cumulative costs, rounded to lakhs. */
  function YearlyData(s: ScenarioInputs): (ys: seq<YearPoint>)
    ensures |ys| == OwnershipYears + 1
    ensures forall y :: 0 <= y < |ys| ==> ys[y].year == y
    ensures forall y :: 0 <= y < |ys| ==>
      ys[y].ev as real - 0.5 <= EvYearTco(s, y) / Lakh < ys[y].ev as real + 0.5
    ensures forall y :: 0 <= y < |ys| ==>
      ys[y].ice as real - 0.5 <= IceYearTco(s, y) / Lakh < ys[y].ice as real + 0.5
  {
    seq(OwnershipYears + 1, y requires 0 <= y <= OwnershipYears =>
      YearPoint(y, Round(EvYearTco(s, y) / Lakh), Round(IceYearTco(s, y) / Lakh)))
  }

  /** `calculateScenarioImpact`. */
  function CalculateScenarioImpact(s: ScenarioInputs): (r: ScenarioImpact)
    ensures r.evRecommended ==> r.savings >= 0 && r.evTCO <= r.iceTCO
    ensures !r.evRecommended ==> r.savings <= 0 && r.evTCO >= r.iceTCO
    ensures AnnualSavings(s) <= 0.0 ==> r.breakEven == FifteenPlus
    ensures r.breakEven.Years? ==> AnnualSavings(s) > 0.0
    ensures r.iceCO2 == IceCo2PerKm * KgToGrams
    ensures |r.yearlyData| == OwnershipYears + 1
  {
    var evTco := EvTco(s);
    var iceTco := IceTco(s);
    assert Pow10(0) == 1;
    RoundInteger(120);
    RoundedComparison(evTco, iceTco);
    ScenarioImpact(
      evTCO := Round(evTco),
      iceTCO := Round(iceTco),
      savings := Round(iceTco - evTco),
      evCostPerKm := ToFixed(EvFuelCost(s) / TotalKm, 2),
      iceCostPerKm := ToFixed(IceFuelCost(s) / TotalKm, 2),
      evCO2 := ToFixed(EvCo2PerKm(s) * KgToGrams, 0),
      iceCO2 := ToFixed(IceCo2PerKm * KgToGrams, 0),
      co2Savings := Round(Co2SavedKg(s)),
      breakEven := BreakEvenLabelOf(BreakEvenYears(PriceDiff(s), AnnualSavings(s))),
      evRecommended := evTco < iceTco,
      yearlyData := YearlyData(s))
  }

  /** The blended electricity price lies between the home and public prices. */
  lemma BlendedRateBetween(s: ScenarioInputs)
    ensures Min(s.electricityRate, s.chargingCost) <= BlendedRate(s) <= Max(s.electricityRate, s.chargingCost)
  {
  }

  /** The EV price falls from ₹18 lakh at no reduction as the reduction grows,
      and stays within [0, 18 lakh] for reductions between 0% and 100%. */
  lemma EvPriceFallsWithReduction(s: ScenarioInputs, t: ScenarioInputs)
    requires s.evPriceReduction <= t.evPriceReduction
    ensures EvPrice(t) <= EvPrice(s)
    ensures s.evPriceReduction == 0.0 ==> EvPrice(s) == BaseEvPrice
    ensures 0.0 <= s.evPriceReduction <= 100.0 ==> 0.0 <= EvPrice(s) <= BaseEvPrice
  {
  }

  /** The trajectory starts at the purchase prices (the EV's net of the
      subsidy) and ends at the two seven-year TCOs. */
  lemma TrajectoryEndpoints(s: ScenarioInputs)
    ensures EvYearTco(s, 0) == EvPrice(s) - s.evSubsidy
    ensures IceYearTco(s, 0) == IcePrice
    ensures EvYearTco(s, OwnershipYears) == EvTco(s)
    ensures IceYearTco(s, OwnershipYears) == IceTco(s)
  {
    assert TotalKm == AnnualKm * 7.0;
  }

  /** The trajectory points at both ends are the rounded endpoints. */
  lemma YearlyDataEnds(s: ScenarioInputs)
    ensures var ys := CalculateScenarioImpact(s).yearlyData;
      && ys[0].ev == Round((EvPrice(s) - s.evSubsidy) / Lakh)
      && ys[0].ice == Round(IcePrice / Lakh)
      && ys[OwnershipYears].ev == Round(EvTco(s) / Lakh)
      && ys[OwnershipYears].ice == Round(IceTco(s) / Lakh)
  {
    TrajectoryEndpoints(s);
  }

  /** A higher petrol price strictly raises the ICE TCO, the unrounded
      saving and the annual saving, and leaves the EV TCO and the price gap
      alone. */
  lemma PetrolPriceRaisesIceSide(s: ScenarioInputs, p: real)
    requires p > s.petrolPrice
    ensures var t := s.(petrolPrice := p);
      && IceTco(t) > IceTco(s)
      && IceTco(t) - EvTco(t) > IceTco(s) - EvTco(s)
      && AnnualSavings(t) > AnnualSavings(s)
      && EvTco(t) == EvTco(s)
      && PriceDiff(t) == PriceDiff(s)
  {
    var t := s.(petrolPrice := p);
    assert IceFuelCost(t) - IceFuelCost(s) == (TotalKm / IceEfficiency) * (p - s.petrolPrice);
  }

  /** Of the displayed results, a higher petrol price changes only the ICE
      side: the EV figures stay, the ICE TCO and the saving do not fall. */
  lemma PetrolPriceKeepsEvResults(s: ScenarioInputs, p: real)
    requires p > s.petrolPrice
    ensures var r := CalculateScenarioImpact(s);
      var r' := CalculateScenarioImpact(s.(petrolPrice := p));
      && r'.evTCO == r.evTCO
      && r'.evCostPerKm == r.evCostPerKm
      && r'.evCO2 == r.evCO2
      && r'.co2Savings == r.co2Savings
      && r'.iceTCO >= r.iceTCO
      && r'.savings >= r.savings
  {
    PetrolPriceKeepsEvFigures(s, p);
    PetrolPriceRaisesIceFigures(s, p);
  }

  lemma PetrolPriceKeepsEvFigures(s: ScenarioInputs, p: real)
    ensures var r := CalculateScenarioImpact(s);
      var r' := CalculateScenarioImpact(s.(petrolPrice := p));
      && r'.evTCO == r.evTCO
      && r'.evCostPerKm == r.evCostPerKm
      && r'.evCO2 == r.evCO2
      && r'.co2Savings == r.co2Savings
  {
    EvSideIgnoresPetrol(s, p);
    SameEvSideSameFigures(s, s.(petrolPrice := p));
  }

  /** Two scenarios with the same EV TCO, EV fuel cost and EV emissions
      display the same EV figures. */
  lemma SameEvSideSameFigures(s: ScenarioInputs, t: ScenarioInputs)
    requires EvTco(t) == EvTco(s) && EvFuelCost(t) == EvFuelCost(s)
    requires EvCo2PerKm(t) == EvCo2PerKm(s) && Co2SavedKg(t) == Co2SavedKg(s)
    ensures var r := CalculateScenarioImpact(s);
      var r' := CalculateScenarioImpact(t);
      && r'.evTCO == r.evTCO
      && r'.evCostPerKm == r.evCostPerKm
      && r'.evCO2 == r.evCO2
      && r'.co2Savings == r.co2Savings
  {
  }

  /** None of the EV quantities reads the petrol price. */
  lemma EvSideIgnoresPetrol(s: ScenarioInputs, p: real)
    ensures var t := s.(petrolPrice := p);
      && EvTco(t) == EvTco(s)
      && EvFuelCost(t) == EvFuelCost(s)
      && EvCo2PerKm(t) == EvCo2PerKm(s)
      && Co2SavedKg(t) == Co2SavedKg(s)
  {
    var t := s.(petrolPrice := p);
    assert t.evPriceReduction == s.evPriceReduction && t.evSubsidy == s.evSubsidy;
    assert t.electricityRate == s.electricityRate && t.chargingCost == s.chargingCost;
    assert t.gridCO2 == s.gridCO2;
    assert BlendedRate(t) == BlendedRate(s);
    assert EvPrice(t) == EvPrice(s);
  }

  lemma PetrolPriceRaisesIceFigures(s: ScenarioInputs, p: real)
    requires p > s.petrolPrice
    ensures var r := CalculateScenarioImpact(s);
      var r' := CalculateScenarioImpact(s.(petrolPrice := p));
      && r'.iceTCO >= r.iceTCO
      && r'.savings >= r.savings
  {
    var t := s.(petrolPrice := p);
    PetrolPriceRaisesIceSide(s, p);
    ImpactFigures(s);
    ImpactFigures(t);
    RoundMonotone(IceTco(s), IceTco(t));
    RoundMonotone(IceTco(s) - EvTco(s), IceTco(t) - EvTco(t));
  }

  /** The displayed figures that depend on the inputs, each as the rounded
      quantity it shows. */
  lemma ImpactFigures(s: ScenarioInputs)
    ensures var r := CalculateScenarioImpact(s);
      && r.evTCO == Round(EvTco(s))
      && r.iceTCO == Round(IceTco(s))
      && r.savings == Round(IceTco(s) - EvTco(s))
      && r.evCostPerKm == ToFixed(EvFuelCost(s) / TotalKm, 2)
      && r.evCO2 == ToFixed(EvCo2PerKm(s) * KgToGrams, 0)
      && r.co2Savings == Round(Co2SavedKg(s))
  {
  }

  /** Each rupee of subsidy takes one rupee off the EV TCO and off the price
      gap, and changes nothing on the ICE side or in the annual saving. */
  lemma SubsidyOneForOne(s: ScenarioInputs, d: real)
    ensures var t := s.(evSubsidy := s.evSubsidy + d);
      && EvTco(t) == EvTco(s) - d
      && PriceDiff(t) == PriceDiff(s) - d
      && IceTco(t) == IceTco(s)
      && AnnualSavings(t) == AnnualSavings(s)
  {
  }

  /** The slider state of the page: the six values and the green-grid switch. */
  datatype ScenarioControls = ScenarioControls(sliders: ScenarioInputs, showGreenGrid: bool)

  /** `showGreenGrid ? 50 : gridCO2Factor` in place of the grid slider. */
  function EffectiveInputs(c: ScenarioControls): (s: ScenarioInputs)
    ensures c.showGreenGrid ==> s.gridCO2 == GreenGridCo2
    ensures !c.showGreenGrid ==> s == c.sliders
    ensures s.(gridCO2 := c.sliders.gridCO2) == c.sliders
  {
    if c.showGreenGrid then c.sliders.(gridCO2 := GreenGridCo2) else c.sliders
  }

  /** The result the page shows for its current controls. */
  function CurrentResult(c: ScenarioControls): ScenarioImpact {
    CalculateScenarioImpact(EffectiveInputs(c))
  }

  /** On the green grid the EV emits 50/7 ≈ 7 g CO₂ per km against the petrol
      car's 120, whatever the grid slider says, saving 11 534 kg over the
      seven years. */
  lemma GreenGridFigures(c: ScenarioControls)
    requires c.showGreenGrid
    ensures CurrentResult(c).evCO2 == 7.0
    ensures CurrentResult(c).iceCO2 == 120.0
    ensures CurrentResult(c).co2Savings == 11534
  {
    var s := EffectiveInputs(c);
    assert EvCo2PerKm(s) * KgToGrams == 50.0 / 7.0;
    assert Pow10(0) == 1;
    assert Round(50.0 / 7.0) == 7;
    assert (IceCo2PerKm - EvCo2PerKm(s)) * TotalKm == 11534.0;
    RoundInteger(11534);
  }

  /** One point of the sensitivity chart: savings in lakhs and the
      break-even in years. */
  datatype SensitivityPoint = SensitivityPoint(petrolPrice: real, savings: real, breakEven: real)

  /** The petrol prices the sweep visits: 80, 90, …, 150. */
  const SweepStart: real := 80.0
  const SweepStep: real := 10.0
  const SweepPoints: nat := 8

  function SweepPrice(k: nat): real {
    SweepStart + SweepStep * k as real
  }

  /** The break-even a sweep point plots: the label's number of years, and
      the cap for "15+". */
  function SweepBreakEven(l: BreakEvenLabel): (y: real)
    ensures l.FifteenPlus? ==> y == BreakEvenCap
    ensures l.Years? ==> y == l.years
  {
    match l
    case Years(v) => v
    case FifteenPlus => BreakEvenCap
  }

  /** `parseFloat(result.breakEven) || 15` as written: "15+" parses as 15,
      but a label of "0.0" parses as 0, which `||` replaces by 15. */
  function SweepBreakEvenAsWritten(l: BreakEvenLabel): (y: real)
    ensures l.FifteenPlus? ==> y == BreakEvenCap
    ensures l.Years? && l.years != 0.0 ==> y == l.years
  {
    match l
    case Years(v) => if v != 0.0 then v else BreakEvenCap
    case FifteenPlus => BreakEvenCap
  }

  /** The scenario a sweep point evaluates. */
  function SweepInputs(c: ScenarioControls, k: nat): ScenarioInputs {
    EffectiveInputs(c).(petrolPrice := SweepPrice(k))
  }

  /** One point of the chart as the page builds it, plotting
      `parseFloat(result.breakEven) || 15`. */
  function SweepPoint(c: ScenarioControls, k: nat): SensitivityPoint {
    var r := CalculateScenarioImpact(SweepInputs(c, k));
    SensitivityPoint(SweepPrice(k), r.savings as real / Lakh, SweepBreakEvenAsWritten(r.breakEven))
  }

  /** `sensitivityData`: eight points at petrol prices 80 to 150 in steps of
      10, everything else as the controls say. */
  function SensitivitySweep(c: ScenarioControls): (pts: seq<SensitivityPoint>)
    ensures |pts| == SweepPoints
    ensures forall k :: 0 <= k < |pts| ==> pts[k].petrolPrice == 80.0 + 10.0 * k as real
    ensures pts[0].petrolPrice == 80.0 && pts[SweepPoints - 1].petrolPrice == 150.0
    ensures forall k :: 0 <= k < |pts| ==>
      pts[k].savings == CalculateScenarioImpact(SweepInputs(c, k)).savings as real / Lakh
    ensures forall k :: 0 <= k < |pts| ==>
      var l := CalculateScenarioImpact(SweepInputs(c, k)).breakEven;
      && (l.FifteenPlus? ==> pts[k].breakEven == BreakEvenCap)
      && (l.Years? && l.years != 0.0 ==> pts[k].breakEven == l.years)
      && (l == Years(0.0) ==> pts[k].breakEven == BreakEvenCap)
  {
    seq(SweepPoints, k requires 0 <= k < SweepPoints => SweepPoint(c, k))
  }

  /** A sweep point with the break-even plotted as shown. */
  function CorrectedSweepPoint(c: ScenarioControls, k: nat): SensitivityPoint {
    var r := CalculateScenarioImpact(SweepInputs(c, k));
    SensitivityPoint(SweepPrice(k), r.savings as real / Lakh, SweepBreakEven(r.breakEven))
  }

  /** The sweep with a break-even of 0 plotted as 0 rather than 15; it
      differs from `SensitivitySweep` only in those points. */
  function CorrectedSensitivitySweep(c: ScenarioControls): (pts: seq<SensitivityPoint>)
    ensures |pts| == SweepPoints
    ensures forall k :: 0 <= k < |pts| ==>
      && pts[k].petrolPrice == SensitivitySweep(c)[k].petrolPrice
      && pts[k].savings == SensitivitySweep(c)[k].savings
    ensures forall k :: 0 <= k < |pts| ==>
      (pts[k] == SensitivitySweep(c)[k] <==> CalculateScenarioImpact(SweepInputs(c, k)).breakEven != Years(0.0))
  {
    seq(SweepPoints, k requires 0 <= k < SweepPoints => CorrectedSweepPoint(c, k))
  }

  /** Along the sweep the plotted savings never fall. */
  lemma SweepSavingsNonDecreasing(c: ScenarioControls, i: nat, j: nat)
    requires i < j < SweepPoints
    ensures SensitivitySweep(c)[i].savings <= SensitivitySweep(c)[j].savings
  {
    var s := SweepInputs(c, i);
    assert SweepInputs(c, j) == s.(petrolPrice := SweepPrice(j));
    PetrolPriceKeepsEvResults(s, SweepPrice(j));
  }

  /** Every break-even the corrected sweep plots is the break-even of its
      point, to the one decimal shown, and 15 when it is 15 years or more. */
  lemma SweepBreakEvenTracksBreakEven(c: ScenarioControls, k: nat)
    requires k < SweepPoints
    ensures var s := SweepInputs(c, k);
      var be := BreakEvenYears(PriceDiff(s), AnnualSavings(s));
      && (be < BreakEvenCap ==> -0.05 <= CorrectedSensitivitySweep(c)[k].breakEven - be <= 0.05)
      && (be >= BreakEvenCap ==> CorrectedSensitivitySweep(c)[k].breakEven == BreakEvenCap)
  {
  }

  /** The controls of the counterexample: the starting sliders with a 25%
      EV price reduction, which brings the EV price to ₹13.5 lakh, so the
      ₹1.5 lakh subsidy exactly closes the gap to the ICE price. */
  const ClosedGapControls: ScenarioControls :=
    ScenarioControls(BaseScenario.(evPriceReduction := 25.0), false)

  /** With the gap closed and a positive saving the first sweep point breaks
      even immediately, yet `|| 15` plots it at 15 years, the value the chart
      uses for "never within 15 years". */
  lemma SweepAsWrittenLosesZeroBreakEven()
    ensures var s := SweepInputs(ClosedGapControls, 0);
      && PriceDiff(s) == 0.0
      && AnnualSavings(s) > 0.0
      && BreakEvenYears(PriceDiff(s), AnnualSavings(s)) == 0.0
      && CalculateScenarioImpact(s).breakEven == Years(0.0)
      && SensitivitySweep(ClosedGapControls)[0].breakEven == BreakEvenCap
      && CorrectedSensitivitySweep(ClosedGapControls)[0].breakEven == 0.0
  {
    var s := SweepInputs(ClosedGapControls, 0);
    assert EvPrice(s) == 1350000.0;
    assert EvFuelCost(s) == 147460.0;
    assert IceFuelCost(s) * 3.0 == 1635200.0;
    assert Pow10(1) == 10;
    RoundInteger(0);
  }

  /** The starting scenario: EV TCO ₹18,53,460 against ₹20,55,400, a saving of
      ₹2,01,940, break-even after 4.8 years, 100 against 120 g CO₂ per km. */
  lemma BaseScenarioFigures()
    ensures var r := CalculateScenarioImpact(BaseScenario);
      && r.evTCO == 1853460 && r.iceTCO == 2055400 && r.savings == 201940
      && r.evRecommended
      && r.breakEven == Years(4.8)
      && r.evCO2 == 100.0 && r.iceCO2 == 120.0
      && r.co2Savings == 2044
  {
    var s := BaseScenario;
    assert EvPrice(s) == 1800000.0;
    assert BlendedRate(s) == 10.1;
    assert EvFuelCost(s) == 147460.0;
    assert EvTco(s) == 1853460.0;
    assert IceFuelCost(s) == 715400.0;
    assert IceTco(s) == 2055400.0;
    RoundInteger(1853460);
    RoundInteger(2055400);
    RoundInteger(201940);
    assert AnnualSavings(s) == 651940.0 / 7.0;
    assert PriceDiff(s) == 450000.0;
    var be := BreakEvenYears(PriceDiff(s), AnnualSavings(s));
    assert be == 3150000.0 / 651940.0;
    assert Pow10(1) == 10 && Pow10(0) == 1;
    assert Round(be * 10.0) == 48;
    assert EvCo2PerKm(s) * KgToGrams == 100.0;
    RoundInteger(100);
    RoundInteger(120);
    assert (IceCo2PerKm - EvCo2PerKm(s)) * TotalKm == 2044.0;
    RoundInteger(2044);
  }
}

=== FILE: seqs.dfy ===
/** Sequence folds the dashboard builds its tables from: `filter`, `map`,
    `find`, the numeric `reduce` used for sums and means, and the
    insertion-ordered de-duplication that `new Set(...)` and `Map` iteration
    perform. */
module Seqs {
  import opened Wrappers

  /** The elements of `s` that satisfy `p`, in their original order
      (`Array.prototype.filter`). */
  function Filter<T>(s: seq<T>, p: T -> bool): (r: seq<T>)
    ensures |r| <= |s|
    ensures forall i :: 0 <= i < |r| ==> r[i] in s && p(r[i])
    ensures forall i :: 0 <= i < |s| && p(s[i]) ==> s[i] in r
    decreases |s|
  {
    if |s| == 0 then []
    else (if p(s[0]) then [s[0]] else []) + Filter(s[1..], p)
  }

  /** The elements of `s` that do not satisfy `p`, in their original order. */
  function Reject<T>(s: seq<T>, p: T -> bool): (r: seq<T>)
    ensures |r| <= |s|
    ensures forall i :: 0 <= i < |r| ==> r[i] in s && !p(r[i])
    ensures forall i :: 0 <= i < |s| && !p(s[i]) ==> s[i] in r
    decreases |s|
  {
    if |s| == 0 then []
    else (if p(s[0]) then [] else [s[0]]) + Reject(s[1..], p)
  }

  /** Every element of `s` is kept by `Filter` or by `Reject`, never both. */
  lemma {:induction false} FilterRejectPartition<T>(s: seq<T>, p: T -> bool)
    ensures |Filter(s, p)| + |Reject(s, p)| == |s|
    decreases |s|
  {
    if |s| > 0 {
      FilterRejectPartition(s[1..], p);
    }
  }

  lemma {:induction false} FilterAppend<T>(a: seq<T>, b: seq<T>, p: T -> bool)
    ensures Filter(a + b, p) == Filter(a, p) + Filter(b, p)
    decreases |a|
  {
    if |a| > 0 {
      assert (a + b)[1..] == a[1..] + b;
      FilterAppend(a[1..], b, p);
    } else {
      assert a + b == b;
    }
  }

  /** The head of a filtered sequence is the first element that passes. */
  lemma {:induction false} FilterHead<T>(s: seq<T>, p: T -> bool, j: nat)
    requires j < |s| && p(s[j])
    requires forall k :: 0 <= k < j ==> !p(s[k])
    ensures |Filter(s, p)| > 0 && Filter(s, p)[0] == s[j]
    decreases |s|
  {
    if j > 0 {
      FilterHead(s[1..], p, j - 1);
    }
  }

  /** The head of a sequence filtered twice is the first element passing both. */
  lemma {:induction false} NestedFilterHead<T>(s: seq<T>, p: T -> bool, q: T -> bool, j: nat)
    requires j < |s| && p(s[j]) && q(s[j])
    requires forall k :: 0 <= k < j ==> !(p(s[k]) && q(s[k]))
    ensures |Filter(Filter(s, p), q)| > 0 && Filter(Filter(s, p), q)[0] == s[j]
    decreases |s|
  {
    var f := Filter(s, p);
    if j == 0 {
      assert f == [s[0]] + Filter(s[1..], p);
      assert f[0] == s[0];
    } else {
      NestedFilterHead(s[1..], p, q, j - 1);
      if p(s[0]) {
        assert f == [s[0]] + Filter(s[1..], p);
        assert f[1..] == Filter(s[1..], p);
      } else {
        assert f == Filter(s[1..], p);
      }
    }
  }

  /** The elements of a twice-filtered sequence are the elements of the
      original that satisfy both predicates. */
  lemma NestedFilterMembers<T>(s: seq<T>, p: T -> bool, q: T -> bool)
    ensures forall k :: 0 <= k < |Filter(Filter(s, p), q)| ==>
      var x := Filter(Filter(s, p), q)[k]; x in s && p(x) && q(x)
    ensures (exists j :: 0 <= j < |s| && p(s[j]) && q(s[j])) ==> |Filter(Filter(s, p), q)| > 0
  {
    var f := Filter(s, p);
    var g := Filter(f, q);
    forall j | 0 <= j < |s| && p(s[j]) && q(s[j])
      ensures |g| > 0
    {
      var i :| 0 <= i < |f| && f[i] == s[j];
      assert f[i] in g;
    }
  }

  /** Nothing is kept when no element passes. */
  lemma {:induction false} FilterNone<T>(s: seq<T>, p: T -> bool)
    requires forall k :: 0 <= k < |s| ==> !p(s[k])
    ensures Filter(s, p) == []
    decreases |s|
  {
    if |s| > 0 {
      FilterNone(s[1..], p);
    }
  }

  /** Predicates that agree on every element filter alike. */
  lemma {:induction false} FilterSamePredicate<T>(s: seq<T>, p: T -> bool, q: T -> bool)
    requires forall i :: 0 <= i < |s| ==> p(s[i]) == q(s[i])
    ensures Filter(s, p) == Filter(s, q)
    decreases |s|
  {
    if |s| > 0 {
      FilterSamePredicate(s[1..], p, q);
    }
  }

  /** `Array.prototype.map`. */
  function MapSeq<T, U>(s: seq<T>, f: T -> U): (r: seq<U>)
    ensures |r| == |s|
    ensures forall i :: 0 <= i < |s| ==> r[i] == f(s[i])
  {
    seq(|s|, i requires 0 <= i < |s| => f(s[i]))
  }

  /** The index of the first element of `s` satisfying `p`
      (`Array.prototype.find`, reporting the position). */
  function FirstIndex<T>(s: seq<T>, p: T -> bool): (r: Option<nat>)
    ensures r.Some? ==> r.value < |s| && p(s[r.value])
    ensures r.Some? ==> forall j :: 0 <= j < r.value ==> !p(s[j])
    ensures r.None? <==> forall j :: 0 <= j < |s| ==> !p(s[j])
    decreases |s|
  {
    if |s| == 0 then None
    else if p(s[0]) then Some(0)
    else match FirstIndex(s[1..], p)
      case None => None
      case Some(k) => Some(k + 1)
  }

  /** The index of the last element of `s` satisfying `p`. */
  function LastIndex<T>(s: seq<T>, p: T -> bool): (r: Option<nat>)
    ensures r.Some? ==> r.value < |s| && p(s[r.value])
    ensures r.Some? ==> forall j :: r.value < j < |s| ==> !p(s[j])
    ensures r.None? <==> forall j :: 0 <= j < |s| ==> !p(s[j])
    decreases |s|
  {
    if |s| == 0 then None
    else if p(s[|s| - 1]) then Some(|s| - 1)
    else LastIndex(s[..|s| - 1], p)
  }

  /** The last match in `a + b` lies in `b` when `b` has one, and is the
      last match in `a` otherwise. */
  lemma {:induction false} LastIndexAppend<T>(a: seq<T>, b: seq<T>, p: T -> bool)
    ensures LastIndex(b, p).Some? ==> LastIndex(a + b, p) == Some(|a| + LastIndex(b, p).value)
    ensures LastIndex(b, p).None? ==> LastIndex(a + b, p) == LastIndex(a, p)
    decreases |b|
  {
    if |b| == 0 {
      assert a + b == a;
    } else if !p(b[|b| - 1]) {
      var b' := b[..|b| - 1];
      assert (a + b)[..|a + b| - 1] == a + b';
      LastIndexAppend(a, b', p);
    }
  }

  /** The first element of `s` satisfying `p`, if any. */
  function Find<T>(s: seq<T>, p: T -> bool): (r: Option<T>)
    ensures r.Some? ==> r.value in s && p(r.value)
    ensures r.Some? ==> exists k :: 0 <= k < |s| && s[k] == r.value && p(s[k]) && forall j :: 0 <= j < k ==> !p(s[j])
    ensures r.None? <==> forall i :: 0 <= i < |s| ==> !p(s[i])
  {
    match FirstIndex(s, p)
    case None => None
    case Some(k) => Some(s[k])
  }

  /** No element occurs twice. */
  predicate Distinct<T(==)>(s: seq<T>) {
    forall i, j :: 0 <= i < j < |s| ==> s[i] != s[j]
  }

  /** The position of the first occurrence of `x` in `s`. */
  function IndexOf<T(==)>(s: seq<T>, x: T): (r: nat)
    requires x in s
    ensures r < |s| && s[r] == x
    ensures forall j :: 0 <= j < r ==> s[j] != x
  {
    if s[0] == x then 0 else 1 + IndexOf(s[1..], x)
  }

  /** The distinct elements of `s` in order of first appearance, which is
      what spreading a `Set` or iterating a `Map` built from `s` yields. */
  function Dedup<T(==)>(s: seq<T>): (r: seq<T>)
    ensures forall i :: 0 <= i < |r| ==> r[i] in s
    ensures forall i :: 0 <= i < |s| ==> s[i] in r
    ensures Distinct(r)
    ensures |r| <= |s|
    decreases |s|
  {
    if |s| == 0 then []
    else
      var d := Dedup(s[..|s| - 1]);
      if s[|s| - 1] in d then d else d + [s[|s| - 1]]
  }

  /** Extending a sequence does not move the first occurrence of an element
      already present. */
  lemma {:induction false} IndexOfPrefix<T>(s: seq<T>, k: nat, y: T)
    requires k <= |s| && y in s[..k]
    ensures IndexOf(s, y) == IndexOf(s[..k], y)
    decreases k
  {
    assert s[..k][0] == s[0];
    if s[0] != y {
      assert s[..k][1..] == s[1..][..k - 1];
      IndexOfPrefix(s[1..], k - 1, y);
    }
  }

  /** `Dedup` lists the elements in the order in which they first occur. */
  lemma {:induction false} DedupFirstAppearance<T>(s: seq<T>)
    ensures forall i, j :: 0 <= i < j < |Dedup(s)| ==> IndexOf(s, Dedup(s)[i]) < IndexOf(s, Dedup(s)[j])
    decreases |s|
  {
    if |s| > 0 {
      var init := s[..|s| - 1];
      var d := Dedup(init);
      DedupFirstAppearance(init);
      FirstIndexesKept(s, d);
      if s[|s| - 1] !in d {
        NewLastComesLast(s, d);
      }
    }
  }

  /** Appending an element moves no first occurrence of an earlier one. */
  lemma FirstIndexesKept<T>(s: seq<T>, d: seq<T>)
    requires |s| > 0 && d == Dedup(s[..|s| - 1])
    ensures forall i :: 0 <= i < |d| ==> d[i] in s && IndexOf(s, d[i]) == IndexOf(s[..|s| - 1], d[i])
  {
    forall i | 0 <= i < |d|
      ensures d[i] in s && IndexOf(s, d[i]) == IndexOf(s[..|s| - 1], d[i])
    {
      IndexOfPrefix(s, |s| - 1, d[i]);
    }
  }

  /** A new last element is listed last, after everything listed before. */
  lemma NewLastComesLast<T>(s: seq<T>, d: seq<T>)
    requires |s| > 0 && d == Dedup(s[..|s| - 1]) && s[|s| - 1] !in d
    requires forall i :: 0 <= i < |d| ==> d[i] in s && IndexOf(s, d[i]) == IndexOf(s[..|s| - 1], d[i])
    ensures forall i :: 0 <= i < |d| ==> IndexOf(s, d[i]) < |s| - 1
    ensures IndexOf(s, s[|s| - 1]) == |s| - 1
  {
    var init := s[..|s| - 1];
    forall k | 0 <= k < |s| - 1
      ensures s[k] != s[|s| - 1]
    {
      assert s[k] == init[k];
    }
  }

  /** A sequence without repetitions has as many elements as its set. */
  lemma {:induction false} DistinctCardinality<T>(s: seq<T>)
    requires Distinct(s)
    ensures |set x | x in s| == |s|
    decreases |s|
  {
    if |s| > 0 {
      var init := s[..|s| - 1];
      DistinctCardinality(init);
      assert s == init + [s[|s| - 1]];
      assert (set x | x in s) == (set x | x in init) + {s[|s| - 1]};
      assert s[|s| - 1] !in init;
    } else {
      assert (set x | x in s) == {};
    }
  }

  /** The number of distinct elements of `s` is the length of its
      de-duplication. */
  lemma DedupCardinality<T>(s: seq<T>)
    ensures |set x | x in s| == |Dedup(s)|
  {
    var d := Dedup(s);
    DistinctCardinality(d);
    assert (set x | x in s) == (set x | x in d);
  }

  /** The sum of a sequence of numbers, left to right (`reduce((a, b) => a + b, 0)`). */
  function Sum(xs: seq<real>): real
    decreases |xs|
  {
    if |xs| == 0 then 0.0 else xs[0] + Sum(xs[1..])
  }

  /** The arithmetic mean, or 0 for an empty sequence: the
      `length > 0 ? sum / length : 0` guard every average in `evDataUtils.ts` repeats. */
  function Mean(xs: seq<real>): (m: real)
    ensures |xs| > 0 ==> m * |xs| as real == Sum(xs)
    ensures |xs| == 0 ==> m == 0.0
  {
    if |xs| == 0 then 0.0 else Sum(xs) / |xs| as real
  }

  lemma {:induction false} SumSingleton(x: real)
    ensures Sum([x]) == x
  {
    assert [x][1..] == [];
  }

  /** A sum of terms none above `c` is at most `|xs|·c`. */
  lemma {:induction false} SumUpperBound(xs: seq<real>, c: real)
    requires forall i :: 0 <= i < |xs| ==> xs[i] <= c
    ensures Sum(xs) <= |xs| as real * c
    decreases |xs|
  {
    if |xs| > 0 {
      SumUpperBound(xs[1..], c);
    }
  }

  /** A sum of terms none below `c` is at least `|xs|·c`. */
  lemma {:induction false} SumLowerBound(xs: seq<real>, c: real)
    requires forall i :: 0 <= i < |xs| ==> xs[i] >= c
    ensures Sum(xs) >= |xs| as real * c
    decreases |xs|
  {
    if |xs| > 0 {
      SumLowerBound(xs[1..], c);
    }
  }

  /** The mean of terms none above `c` is at most `c`. */
  lemma MeanUpperBound(xs: seq<real>, c: real)
    requires |xs| > 0
    requires forall i :: 0 <= i < |xs| ==> xs[i] <= c
    ensures Mean(xs) <= c
  {
    SumUpperBound(xs, c);
    var n := |xs| as real;
    assert Mean(xs) * n <= c * n;
  }

  /** The mean of terms none below `c` is at least `c`. */
  lemma MeanLowerBound(xs: seq<real>, c: real)
    requires |xs| > 0
    requires forall i :: 0 <= i < |xs| ==> xs[i] >= c
    ensures Mean(xs) >= c
  {
    SumLowerBound(xs, c);
    var n := |xs| as real;
    assert Mean(xs) * n >= c * n;
  }
}

=== FILE: summaries.dfy ===
/** Dataset-wide summaries of `src/lib/evDataUtils.ts`: the dashboard's
    headline figures, the per-class cost and emission chart series, the
    merge of externally trained clusters into city summaries, and the base
    parameters the scenario simulator starts from. */
module Summaries {
  import opened Wrappers
  import opened Seqs
  import opened Numbers
  import opened Records
  import Cities

  function EvRows(rs: seq<EvIceRecord>): seq<EvIceRecord> {
    Filter(rs, IsEv)
  }

  function IceRows(rs: seq<EvIceRecord>): seq<EvIceRecord> {
    Filter(rs, IsIce)
  }

  /** The mean of `f` over the rows of `s` satisfying `p` is at least any
      lower bound those rows share. */
  lemma FilteredMeanAtLeast<T>(s: seq<T>, p: T -> bool, f: T -> real, lo: real)
    requires forall j :: 0 <= j < |s| && p(s[j]) ==> f(s[j]) >= lo
    requires |Filter(s, p)| > 0
    ensures Mean(MapSeq(Filter(s, p), f)) >= lo
  {
    var xs := MapSeq(Filter(s, p), f);
    forall k | 0 <= k < |xs| ensures xs[k] >= lo {
      var j :| 0 <= j < |s| && s[j] == Filter(s, p)[k];
    }
    MeanLowerBound(xs, lo);
  }

  /** The mean of `f` over the rows of `s` satisfying `p` is at most any
      upper bound those rows share. */
  lemma FilteredMeanAtMost<T>(s: seq<T>, p: T -> bool, f: T -> real, hi: real)
    requires forall j :: 0 <= j < |s| && p(s[j]) ==> f(s[j]) <= hi
    requires |Filter(s, p)| > 0
    ensures Mean(MapSeq(Filter(s, p), f)) <= hi
  {
    var xs := MapSeq(Filter(s, p), f);
    forall k | 0 <= k < |xs| ensures xs[k] <= hi {
      var j :| 0 <= j < |s| && s[j] == Filter(s, p)[k];
    }
    MeanUpperBound(xs, hi);
  }

  /** The headline figures of the dashboard (`calculateDashboardMetrics`). */
  datatype DashboardMetrics = DashboardMetrics(
    avgCostAdvantage: real,
    avgCo2Advantage: real,
    citiesAnalyzed: nat,
    avgEvCostPerKm: real,
    avgIceCostPerKm: real,
    costSavingsPercent: real,
    totalRecords: nat)

  /** Kilograms to grams. */
  const GramsPerKg: real := 1000.0

  /** A positive factor can be cancelled from both sides of `<=`. */
  lemma CancelPositive(x: real, y: real, c: real)
    requires c > 0.0
    ensures x * c <= y * c ==> x <= y
  {
  }

  /** How much cheaper `ev` is than `ice`, in percent of `ice`; 0 when
      `ice` is not positive. */
  function SavingsPercent(ev: real, ice: real): (pct: real)
    ensures ice <= 0.0 ==> pct == 0.0
    ensures ice > 0.0 ==> ev == ice * (1.0 - pct / 100.0)
    ensures ice > 0.0 && ev >= 0.0 ==> pct <= 100.0
    ensures ice > 0.0 && ev <= ice ==> pct >= 0.0
  {
    if ice > 0.0 then
      var share := (ice - ev) / ice;
      assert share * ice == ice - ev;
      CancelPositive(share, 1.0, ice);
      CancelPositive(0.0, share, ice);
      share * 100.0
    else 0.0
  }

  /** `calculateDashboardMetrics`: means over the EV rows (and, for the ICE
      cost, the ICE rows), the number of distinct cities, and the saving of
      the mean EV over the mean ICE cost per km in percent, 0 when the ICE
      mean is not positive. */
  function CalculateDashboardMetrics(rs: seq<EvIceRecord>): (d: DashboardMetrics)
    ensures d.totalRecords == |rs|
    ensures d.citiesAnalyzed == |Cities.CityKeySet(rs)|
    ensures d.avgIceCostPerKm <= 0.0 ==> d.costSavingsPercent == 0.0
    ensures d.avgIceCostPerKm > 0.0 ==>
      d.avgEvCostPerKm == d.avgIceCostPerKm * (1.0 - d.costSavingsPercent / 100.0)
    ensures |EvRows(rs)| == 0 ==>
      d.avgCostAdvantage == 0.0 && d.avgCo2Advantage == 0.0 && d.avgEvCostPerKm == 0.0
    ensures |IceRows(rs)| == 0 ==> d.avgIceCostPerKm == 0.0
  {
    var evs := EvRows(rs);
    var ices := IceRows(rs);
    var avgEv := Mean(MapSeq(evs, CostPerKmOf));
    var avgIce := Mean(MapSeq(ices, CostPerKmOf));
    DashboardMetrics(
      avgCostAdvantage := Mean(MapSeq(evs, CostAdvantageOf)),
      avgCo2Advantage := Mean(MapSeq(evs, Co2AdvantageOf)) * GramsPerKg,
      citiesAnalyzed := |Cities.CityKeySet(rs)|,
      avgEvCostPerKm := avgEv,
      avgIceCostPerKm := avgIce,
      costSavingsPercent := SavingsPercent(avgEv, avgIce),
      totalRecords := |rs|)
  }

  /** The dashboard's EV cost per km in `d`, times the number of EV rows
      `evs`, is the sum of their costs per km. */
  lemma DashboardEvCostIsMean(rs: seq<EvIceRecord>, d: DashboardMetrics, evs: seq<EvIceRecord>)
    requires d == CalculateDashboardMetrics(rs) && evs == EvRows(rs)
    ensures |evs| > 0 ==> d.avgEvCostPerKm * |evs| as real == Sum(MapSeq(evs, CostPerKmOf))
  {
    MeanTimesCount(d.avgEvCostPerKm, evs, CostPerKmOf);
  }

  /** The dashboard's cost advantage in `d`, times the number of EV rows
      `evs`, is the sum of their cost advantages. */
  lemma DashboardCostAdvantageIsMean(rs: seq<EvIceRecord>, d: DashboardMetrics, evs: seq<EvIceRecord>)
    requires d == CalculateDashboardMetrics(rs) && evs == EvRows(rs)
    ensures |evs| > 0 ==> d.avgCostAdvantage * |evs| as real == Sum(MapSeq(evs, CostAdvantageOf))
  {
    MeanTimesCount(d.avgCostAdvantage, evs, CostAdvantageOf);
  }

  /** The dashboard's CO₂ advantage in `d` is in grams: times the number of
      EV rows `evs` it is the sum of their CO₂ advantages times 1000. */
  lemma DashboardCo2AdvantageIsMean(rs: seq<EvIceRecord>, d: DashboardMetrics, evs: seq<EvIceRecord>)
    requires d == CalculateDashboardMetrics(rs) && evs == EvRows(rs)
    ensures |evs| > 0 ==> d.avgCo2Advantage * |evs| as real == Sum(MapSeq(evs, Co2AdvantageOf)) * GramsPerKg
  {
    ScaledMeanTimesCount(d.avgCo2Advantage, evs, Co2AdvantageOf, GramsPerKg);
  }

  /** The dashboard's ICE cost in `d`, times the number of ICE rows `ices`,
      is the sum of their costs per km. */
  lemma DashboardIceCostIsMean(rs: seq<EvIceRecord>, d: DashboardMetrics, ices: seq<EvIceRecord>)
    requires d == CalculateDashboardMetrics(rs) && ices == IceRows(rs)
    ensures |ices| > 0 ==> d.avgIceCostPerKm * |ices| as real == Sum(MapSeq(ices, CostPerKmOf))
  {
    MeanTimesCount(d.avgIceCostPerKm, ices, CostPerKmOf);
  }

  /** A mean of a field, times the number of rows, is the field's sum. */
  lemma MeanTimesCount(m: real, rows: seq<EvIceRecord>, f: EvIceRecord -> real)
    requires m == Mean(MapSeq(rows, f))
    ensures |rows| > 0 ==> m * |rows| as real == Sum(MapSeq(rows, f))
  {
    assert |MapSeq(rows, f)| == |rows|;
  }

  /** A scaled mean of a field, times the number of rows, is the scaled sum. */
  lemma ScaledMeanTimesCount(m: real, rows: seq<EvIceRecord>, f: EvIceRecord -> real, scale: real)
    requires m == Mean(MapSeq(rows, f)) * scale
    ensures |rows| > 0 ==> m * |rows| as real == Sum(MapSeq(rows, f)) * scale
  {
    var xs := MapSeq(rows, f);
    if |rows| > 0 {
      assert |xs| == |rows|;
      assert Mean(xs) * |rows| as real == Sum(xs);
      assert m * |rows| as real == (Mean(xs) * |rows| as real) * scale;
    }
  }

  /** The dashboard counts as many cities as the city table lists. */
  lemma CitiesAnalyzedMatchesCityTable(rs: seq<EvIceRecord>)
    ensures CalculateDashboardMetrics(rs).citiesAnalyzed == |Cities.GetCityMetrics(rs)|
  {
    var n := |Cities.GetCityMetrics(rs)|;
  }

  /** With no negative EV cost per km the saving never exceeds 100%. */
  lemma SavingsPercentAtMost100(rs: seq<EvIceRecord>)
    requires forall j :: 0 <= j < |rs| && IsEv(rs[j]) ==> rs[j].costPerKm >= 0.0
    ensures CalculateDashboardMetrics(rs).costSavingsPercent <= 100.0
  {
    var d := CalculateDashboardMetrics(rs);
    if |EvRows(rs)| > 0 {
      FilteredMeanAtLeast(rs, IsEv, CostPerKmOf, 0.0);
    }
    assert d.avgEvCostPerKm >= 0.0;
  }

  /** When some price `c` separates every EV cost per km (at most `c`) from
      every ICE cost per km (at least `c`), the saving is not negative. */
  lemma SavingsPercentNonNegative(rs: seq<EvIceRecord>, c: real)
    requires forall j :: 0 <= j < |rs| && IsEv(rs[j]) ==> rs[j].costPerKm <= c
    requires forall j :: 0 <= j < |rs| && IsIce(rs[j]) ==> rs[j].costPerKm >= c
    ensures CalculateDashboardMetrics(rs).costSavingsPercent >= 0.0
  {
    var d := CalculateDashboardMetrics(rs);
    if d.avgIceCostPerKm > 0.0 {
      if |EvRows(rs)| > 0 {
        FilteredMeanAtMost(rs, IsEv, CostPerKmOf, c);
      }
      if |IceRows(rs)| > 0 {
        FilteredMeanAtLeast(rs, IsIce, CostPerKmOf, c);
      }
      assert d.avgEvCostPerKm <= d.avgIceCostPerKm;
    }
  }

  /** One bar group of the cost-comparison chart. */
  datatype CostComparison = CostComparison(name: string, ev: real, ice: real)

  /** The chart name of a vehicle class. */
  function ClassName(vc: VehicleClass): string {
    match vc
    case TwoWheeler => "Two Wheeler"
    case ThreeWheeler => "Three Wheeler"
    case FourWheeler => "Four Wheeler"
  }

  /** Decimals the cost-comparison chart keeps. */
  const CostDigits: nat := 2

  /** The mean EV (or ICE) cost per km of one class over the whole dataset. */
  function ClassMeanCost(rs: seq<EvIceRecord>, vc: VehicleClass, ev: bool): real {
    var rows := if ev then Cities.EvOfClass(rs, ClassLabel(vc)) else Cities.IceOfClass(rs, ClassLabel(vc));
    Mean(MapSeq(rows, CostPerKmOf))
  }

  /** One class's bar group: both means rounded to cents. */
  function CostComparisonOf(rs: seq<EvIceRecord>, vc: VehicleClass): (c: CostComparison)
    ensures c.name == ClassName(vc)
    ensures -0.5 <= (c.ev - ClassMeanCost(rs, vc, true)) * 100.0 <= 0.5
    ensures -0.5 <= (c.ice - ClassMeanCost(rs, vc, false)) * 100.0 <= 0.5
  {
    assert Pow10(CostDigits) == 100;
    CostComparison(
      ClassName(vc),
      ToFixed(ClassMeanCost(rs, vc, true), CostDigits),
      ToFixed(ClassMeanCost(rs, vc, false), CostDigits))
  }

  /** `getCostComparisonData`: one bar group per class, ordered 2W, 3W, 4W. */
  function GetCostComparisonData(rs: seq<EvIceRecord>): (cs: seq<CostComparison>)
    ensures |cs| == 3
    ensures cs[0].name == "Two Wheeler" && cs[1].name == "Three Wheeler" && cs[2].name == "Four Wheeler"
  {
    [CostComparisonOf(rs, TwoWheeler), CostComparisonOf(rs, ThreeWheeler), CostComparisonOf(rs, FourWheeler)]
  }

  /** Each bar group of the chart is its class's cent-rounded pair of means. */
  lemma CostComparisonPerClass(rs: seq<EvIceRecord>, k: nat)
    requires k < 3
    ensures GetCostComparisonData(rs)[k] == CostComparisonOf(rs, AllClasses[k])
    ensures -0.5 <= (GetCostComparisonData(rs)[k].ev - ClassMeanCost(rs, AllClasses[k], true)) * 100.0 <= 0.5
    ensures -0.5 <= (GetCostComparisonData(rs)[k].ice - ClassMeanCost(rs, AllClasses[k], false)) * 100.0 <= 0.5
  {
    if k == 0 {
      assert AllClasses[k] == TwoWheeler;
    } else if k == 1 {
      assert AllClasses[k] == ThreeWheeler;
    } else {
      assert AllClasses[k] == FourWheeler;
    }
  }

  /** One slice of the emissions chart. */
  datatype EmissionSlice = EmissionSlice(name: string, value: int, color: string)

  const EvColor: string := "hsl(142, 71%, 45%)"
  const IceColor: string := "hsl(25, 95%, 53%)"

  /** The CO₂ per km of the first row of `rows`, in grams, or 0 without one. */
  function FirstCo2Grams(rows: seq<EvIceRecord>): real {
    if |rows| > 0 then rows[0].co2PerKm * GramsPerKg else 0.0
  }

  /** The EV or ICE slice of one class: the first row's CO₂ per km (not a
      mean), in whole grams. */
  function EmissionSliceOf(rs: seq<EvIceRecord>, vc: VehicleClass, ev: bool): (e: EmissionSlice)
    ensures e.name == (if ev then "EV " else "ICE ") + ClassLabel(vc)
    ensures e.color == if ev then EvColor else IceColor
    ensures ev && |Cities.EvOfClass(rs, ClassLabel(vc))| == 0 ==> e.value == 0
    ensures !ev && |Cities.IceOfClass(rs, ClassLabel(vc))| == 0 ==> e.value == 0
  {
    RoundInteger(0);
    var cls := ClassLabel(vc);
    if ev then EmissionSlice("EV " + cls, Round(FirstCo2Grams(Cities.EvOfClass(rs, cls))), EvColor)
    else EmissionSlice("ICE " + cls, Round(FirstCo2Grams(Cities.IceOfClass(rs, cls))), IceColor)
  }

  /** `getEmissionsData`: EV then ICE for 2W, 3W and 4W. */
  function GetEmissionsData(rs: seq<EvIceRecord>): (es: seq<EmissionSlice>)
    ensures |es| == 6
    ensures forall i :: 0 <= i < 6 ==>
      es[i].name == (if i % 2 == 0 then "EV " else "ICE ") + ClassLabel(AllClasses[i / 2])
    ensures forall i :: 0 <= i < 6 ==> es[i].color == if i % 2 == 0 then EvColor else IceColor
  {
    seq(6, i requires 0 <= i < 6 => EmissionSliceOf(rs, AllClasses[i / 2], i % 2 == 0))
  }

  /** A slice is the first matching row's CO₂ per km in grams, rounded to the
      nearest gram, and 0 when the class has no row of that powertrain. */
  lemma EmissionSliceIsFirstRow(rs: seq<EvIceRecord>, i: nat, j: nat)
    requires i < 6 && j < |rs|
    requires rs[j].vehicleClass == ClassLabel(AllClasses[i / 2])
    requires rs[j].powertrain == if i % 2 == 0 then EvLabel else IceLabel
    requires forall k :: 0 <= k < j ==>
      !(rs[k].vehicleClass == rs[j].vehicleClass && rs[k].powertrain == rs[j].powertrain)
    ensures var grams := rs[j].co2PerKm * GramsPerKg;
      GetEmissionsData(rs)[i].value as real - 0.5 <= grams < GetEmissionsData(rs)[i].value as real + 0.5
  {
    var cls := ClassLabel(AllClasses[i / 2]);
    if i % 2 == 0 {
      assert Cities.EvOfClassPred(cls)(rs[j]);
      FilterHead(rs, Cities.EvOfClassPred(cls), j);
    } else {
      assert Cities.IceOfClassPred(cls)(rs[j]);
      FilterHead(rs, Cities.IceOfClassPred(cls), j);
    }
  }

  /** A class without a row of a powertrain gets a slice of 0 for it. */
  lemma EmissionSliceWithoutRow(rs: seq<EvIceRecord>, i: nat)
    requires i < 6
    requires forall k :: 0 <= k < |rs| ==>
      !(rs[k].vehicleClass == ClassLabel(AllClasses[i / 2]) && rs[k].powertrain == if i % 2 == 0 then EvLabel else IceLabel)
    ensures GetEmissionsData(rs)[i].value == 0
  {
    var cls := ClassLabel(AllClasses[i / 2]);
    if i % 2 == 0 {
      FilterNone(rs, Cities.EvOfClassPred(cls));
    } else {
      FilterNone(rs, Cities.IceOfClassPred(cls));
    }
  }

  /** Selects the cluster rows matched under `key`. */
  function ClusterFor(key: string): ClusterRecord -> bool {
    c => ClusterKey(c) == key
  }

  /** `clusterMap.get(key)`: filling the map in input order leaves the LAST
      cluster row carrying the key. */
  function ClusterOf(clusters: seq<ClusterRecord>, key: string): (c: Option<ClusterRecord>)
    ensures c.Some? ==> ClusterKey(c.value) == key
    ensures c.None? <==> forall k :: 0 <= k < |clusters| ==> ClusterKey(clusters[k]) != key
  {
    match LastIndex(clusters, ClusterFor(key))
    case None => None
    case Some(k) => Some(clusters[k])
  }

  /** One summary after the merge: the cluster label and both indices come
      from its cluster row, everything else stays. */
  function MergeOne(m: CityMetrics, clusters: seq<ClusterRecord>): CityMetrics {
    match ClusterOf(clusters, MetricsKey(m))
    case None => m
    case Some(c) => m.(cluster := c.cluster,
                       economicIndex := Some(c.economicIndex),
                       environmentalIndex := Some(c.environmentalIndex))
  }

  /** `mergeCityMetricsWithClusters`: same summaries, same order; only the
      cluster label and the two indices can change, and only for summaries
      with a cluster row. */
  function MergeClusters(metrics: seq<CityMetrics>, clusters: seq<ClusterRecord>): (out: seq<CityMetrics>)
    ensures |out| == |metrics|
    ensures forall i :: 0 <= i < |metrics| ==>
      out[i] == metrics[i].(cluster := out[i].cluster,
                            economicIndex := out[i].economicIndex,
                            environmentalIndex := out[i].environmentalIndex)
    ensures forall i :: 0 <= i < |metrics| ==>
      (out[i] == metrics[i] || (out[i].economicIndex.Some? && out[i].environmentalIndex.Some?))
    ensures forall i :: 0 <= i < |metrics| ==>
      ((forall k :: 0 <= k < |clusters| ==> ClusterKey(clusters[k]) != MetricsKey(metrics[i])) ==>
        out[i] == metrics[i])
  {
    seq(|metrics|, i requires 0 <= i < |metrics| => MergeOne(metrics[i], clusters))
  }

  /** A summary with cluster rows takes label and indices from the last of them. */
  lemma MergeLastRowWins(metrics: seq<CityMetrics>, clusters: seq<ClusterRecord>, i: nat, k: nat)
    requires i < |metrics| && k < |clusters|
    requires ClusterKey(clusters[k]) == MetricsKey(metrics[i])
    requires forall l :: k < l < |clusters| ==> ClusterKey(clusters[l]) != MetricsKey(metrics[i])
    ensures var m := MergeClusters(metrics, clusters)[i];
      && m.cluster == clusters[k].cluster
      && m.economicIndex == Some(clusters[k].economicIndex)
      && m.environmentalIndex == Some(clusters[k].environmentalIndex)
  {
    var key := MetricsKey(metrics[i]);
    assert ClusterFor(key)(clusters[k]);
    assert forall l :: k < l < |clusters| ==> !ClusterFor(key)(clusters[l]);
    assert LastIndex(clusters, ClusterFor(key)) == Some(k);
  }

  /** Merging with no cluster rows changes nothing. */
  lemma MergeWithoutClusters(metrics: seq<CityMetrics>)
    ensures MergeClusters(metrics, []) == metrics
  {
  }

  /** Merging keeps every summary's key, so merging again with the same rows
      changes nothing. */
  lemma MergeIdempotent(metrics: seq<CityMetrics>, clusters: seq<ClusterRecord>)
    ensures MergeClusters(MergeClusters(metrics, clusters), clusters) == MergeClusters(metrics, clusters)
  {
    var once := MergeClusters(metrics, clusters);
    forall i | 0 <= i < |metrics|
      ensures MergeOne(once[i], clusters) == once[i]
    {
      assert MetricsKey(once[i]) == MetricsKey(metrics[i]);
    }
  }

  /** Merging `a` and then `b` is merging `a + b`: later rows override
      earlier ones, as they do in the map. */
  lemma MergeSequential(metrics: seq<CityMetrics>, a: seq<ClusterRecord>, b: seq<ClusterRecord>)
    ensures MergeClusters(MergeClusters(metrics, a), b) == MergeClusters(metrics, a + b)
  {
    var once := MergeClusters(metrics, a);
    forall i | 0 <= i < |metrics|
      ensures MergeOne(once[i], b) == MergeOne(metrics[i], a + b)
    {
      MergeOneSequential(metrics[i], a, b);
    }
  }

  /** One summary merged with `a` and then `b` is that summary merged with
      `a + b`. */
  lemma MergeOneSequential(m: CityMetrics, a: seq<ClusterRecord>, b: seq<ClusterRecord>)
    ensures MergeOne(MergeOne(m, a), b) == MergeOne(m, a + b)
  {
    var key := MetricsKey(m);
    assert MetricsKey(MergeOne(m, a)) == key;
    ClusterOfAppend(a, b, key);
  }

  /** In `a + b` the last cluster row of a key is `b`'s when `b` has one,
      and `a`'s otherwise. */
  lemma ClusterOfAppend(a: seq<ClusterRecord>, b: seq<ClusterRecord>, key: string)
    ensures ClusterOf(a + b, key) == if ClusterOf(b, key).Some? then ClusterOf(b, key) else ClusterOf(a, key)
  {
    LastIndexAppend(a, b, ClusterFor(key));
    var lb := LastIndex(b, ClusterFor(key));
    if lb.Some? {
      assert (a + b)[|a| + lb.value] == b[lb.value];
    } else {
      var la := LastIndex(a, ClusterFor(key));
      if la.Some? {
        assert (a + b)[la.value] == a[la.value];
      }
    }
  }

  /** The starting point of the scenario simulator (`ScenarioBaseParams`). */
  datatype ScenarioBaseParams = ScenarioBaseParams(
    avgPetrolPrice: real,
    avgElectricityRate: real,
    avgChargingDensity: real,
    avgMaintenanceCostEV: real,
    avgMaintenanceCostICE: real,
    avgCostAdvantage: real,
    avgCo2Advantage: real)

  /** The values used when the dataset has no rows to average over. */
  const DefaultPetrolPrice: real := 105.0
  const DefaultElectricityRate: real := 8.0
  const DefaultChargingDensity: real := 2.0
  const DefaultMaintenanceCostEV: real := 0.3
  const DefaultMaintenanceCostICE: real := 0.8
  const DefaultCostAdvantage: real := 1.5
  const DefaultCo2Advantage: real := 0.07

  /** `Math.round(x * scale) / scale`: `x` to the nearest `1/scale`, halves up. */
  function RoundTo(x: real, scale: nat): (r: real)
    requires scale > 0
    ensures r * scale as real == Round(x * scale as real) as real
    ensures -0.5 <= (r - x) * scale as real <= 0.5
  {
    Round(x * scale as real) as real / scale as real
  }

  /** The mean of `xs`, or `fallback` when it is empty. */
  function MeanOr(xs: seq<real>, fallback: real): (m: real)
    ensures |xs| == 0 ==> m == fallback
    ensures |xs| > 0 ==> m * |xs| as real == Sum(xs)
  {
    if |xs| == 0 then fallback else Mean(xs)
  }

  /** The positive fuel prices of the ICE rows; zeros and negatives are dropped. */
  function PositiveFuelPrices(rs: seq<EvIceRecord>): seq<real> {
    Filter(MapSeq(IceRows(rs), FuelPriceOf), (p: real) => p > 0.0)
  }

  /** `getScenarioBaseParams`: means over EV rows (ICE rows for the ICE
      maintenance, positive ICE fuel prices for petrol), each falling back to
      its default without rows, rounded to 2 decimals (CO₂ to 3). */
  function GetScenarioBaseParams(rs: seq<EvIceRecord>): (p: ScenarioBaseParams)
    ensures -0.5 <= (p.avgPetrolPrice - MeanOr(PositiveFuelPrices(rs), DefaultPetrolPrice)) * 100.0 <= 0.5
    ensures -0.5 <= (p.avgElectricityRate - MeanOr(MapSeq(EvRows(rs), EnergyChargeOf), DefaultElectricityRate)) * 100.0 <= 0.5
    ensures -0.5 <= (p.avgCo2Advantage - MeanOr(MapSeq(EvRows(rs), Co2AdvantageOf), DefaultCo2Advantage)) * 1000.0 <= 0.5
    ensures -0.5 <= (p.avgChargingDensity - MeanOr(MapSeq(EvRows(rs), ChargingDensityOf), DefaultChargingDensity)) * 100.0 <= 0.5
    ensures -0.5 <= (p.avgMaintenanceCostEV - MeanOr(MapSeq(EvRows(rs), MaintenanceCostOf), DefaultMaintenanceCostEV)) * 100.0 <= 0.5
    ensures -0.5 <= (p.avgMaintenanceCostICE - MeanOr(MapSeq(IceRows(rs), MaintenanceCostOf), DefaultMaintenanceCostICE)) * 100.0 <= 0.5
    ensures -0.5 <= (p.avgCostAdvantage - MeanOr(MapSeq(EvRows(rs), CostAdvantageOf), DefaultCostAdvantage)) * 100.0 <= 0.5
    ensures |PositiveFuelPrices(rs)| == 0 ==> p.avgPetrolPrice == DefaultPetrolPrice
    ensures |EvRows(rs)| == 0 ==>
      && p.avgElectricityRate == DefaultElectricityRate
      && p.avgChargingDensity == DefaultChargingDensity
      && p.avgMaintenanceCostEV == DefaultMaintenanceCostEV
      && p.avgCostAdvantage == DefaultCostAdvantage
      && p.avgCo2Advantage == DefaultCo2Advantage
    ensures |IceRows(rs)| == 0 ==> p.avgMaintenanceCostICE == DefaultMaintenanceCostICE
  {
    var evs := EvRows(rs);
    var ices := IceRows(rs);
    var p := ScenarioBaseParams(
      avgPetrolPrice := RoundTo(MeanOr(PositiveFuelPrices(rs), DefaultPetrolPrice), 100),
      avgElectricityRate := RoundTo(MeanOr(MapSeq(evs, EnergyChargeOf), DefaultElectricityRate), 100),
      avgChargingDensity := RoundTo(MeanOr(MapSeq(evs, ChargingDensityOf), DefaultChargingDensity), 100),
      avgMaintenanceCostEV := RoundTo(MeanOr(MapSeq(evs, MaintenanceCostOf), DefaultMaintenanceCostEV), 100),
      avgMaintenanceCostICE := RoundTo(MeanOr(MapSeq(ices, MaintenanceCostOf), DefaultMaintenanceCostICE), 100),
      avgCostAdvantage := RoundTo(MeanOr(MapSeq(evs, CostAdvantageOf), DefaultCostAdvantage), 100),
      avgCo2Advantage := RoundTo(MeanOr(MapSeq(evs, Co2AdvantageOf), DefaultCo2Advantage), 1000));
    DefaultsSurviveRounding();
    p
  }

  /** Every default is already a whole number of hundredths (thousandths for
      CO₂), so rounding leaves it unchanged. */
  lemma DefaultsSurviveRounding()
    ensures RoundTo(DefaultPetrolPrice, 100) == DefaultPetrolPrice
    ensures RoundTo(DefaultElectricityRate, 100) == DefaultElectricityRate
    ensures RoundTo(DefaultChargingDensity, 100) == DefaultChargingDensity
    ensures RoundTo(DefaultMaintenanceCostEV, 100) == DefaultMaintenanceCostEV
    ensures RoundTo(DefaultMaintenanceCostICE, 100) == DefaultMaintenanceCostICE
    ensures RoundTo(DefaultCostAdvantage, 100) == DefaultCostAdvantage
    ensures RoundTo(DefaultCo2Advantage, 1000) == DefaultCo2Advantage
  {
    RoundInteger(10500);
    RoundInteger(800);
    RoundInteger(200);
    RoundInteger(30);
    RoundInteger(80);
    RoundInteger(150);
    RoundInteger(70);
  }

  /** The petrol price is a mean over positive prices only, so it is never
      negative, and it lies within any bounds the positive prices share. */
  lemma PetrolPriceWithinPositivePrices(rs: seq<EvIceRecord>, lo: real, hi: real)
    requires forall k :: 0 <= k < |PositiveFuelPrices(rs)| ==> lo <= PositiveFuelPrices(rs)[k] <= hi
    ensures GetScenarioBaseParams(rs).avgPetrolPrice >= 0.0
    ensures |PositiveFuelPrices(rs)| > 0 ==>
      lo - 0.005 <= GetScenarioBaseParams(rs).avgPetrolPrice <= hi + 0.005
  {
    var xs := PositiveFuelPrices(rs);
    if |xs| > 0 {
      MeanLowerBound(xs, lo);
      MeanUpperBound(xs, hi);
      MeanLowerBound(xs, 0.0);
    }
  }
}

=== FILE: tco.dfy ===
/** The break-even rule the scenario simulator (`src/pages/Scenarios.tsx`)
    and the location calculator (`src/pages/Calculator.tsx`) share: the
    purchase-price gap divided by the annual running-cost saving, 99 when
    there is no saving, and "15+" from 15 years on. */
module Tco {
  import opened Numbers

  /** Years reported when the annual saving is not positive. */
  const NeverYears: real := 99.0

  /** Break-even values from this many years on are shown as "15+". */
  const BreakEvenCap: real := 15.0

  /** Decimals a break-even is shown with. */
  const BreakEvenDigits: nat := 1

  /** The break-even as shown: a number of years to one decimal, or "15+". */
  datatype BreakEvenLabel = Years(years: real) | FifteenPlus

  /** Years until the saving repays the price gap; 99 without a saving. Not
      clamped below: a negative gap gives a negative number of years. */
  function BreakEvenYears(priceDiff: real, annualSavings: real): (be: real)
    ensures annualSavings <= 0.0 ==> be == NeverYears
    ensures annualSavings > 0.0 ==> be * annualSavings == priceDiff
  {
    if annualSavings > 0.0 then priceDiff / annualSavings else NeverYears
  }

  /** `breakEven < 15 ? breakEven.toFixed(1) : "15+"`. */
  function BreakEvenLabelOf(be: real): (l: BreakEvenLabel)
    ensures l.FifteenPlus? <==> be >= BreakEvenCap
    ensures l.Years? ==> -0.5 <= (l.years - be) * 10.0 <= 0.5
  {
    assert Pow10(BreakEvenDigits) == 10;
    if be < BreakEvenCap then Years(ToFixed(be, BreakEvenDigits)) else FifteenPlus
  }

  /** Rounding both TCOs and their difference keeps the verdict: when the EV
      is cheaper neither the rounded TCOs nor the rounded saving say
      otherwise, and vice versa. */
  lemma RoundedComparison(ev: real, ice: real)
    ensures ev < ice ==> Round(ev) <= Round(ice) && Round(ice - ev) >= 0
    ensures ev >= ice ==> Round(ev) >= Round(ice) && Round(ice - ev) <= 0
  {
    RoundInteger(0);
    if ev < ice {
      RoundMonotone(ev, ice);
      RoundMonotone(0.0, ice - ev);
    } else {
      RoundMonotone(ice, ev);
      RoundMonotone(ice - ev, 0.0);
    }
  }

  /** Without a saving the break-even always shows as "15+": the 99 never
      reaches the screen. */
  lemma NoSavingShowsFifteenPlus(priceDiff: real, annualSavings: real)
    requires annualSavings <= 0.0
    ensures BreakEvenLabelOf(BreakEvenYears(priceDiff, annualSavings)) == FifteenPlus
  {
  }

  /** A larger saving never lengthens a non-negative break-even. */
  lemma BreakEvenAntitone(priceDiff: real, s1: real, s2: real)
    requires priceDiff >= 0.0 && 0.0 < s1 <= s2
    ensures 0.0 <= BreakEvenYears(priceDiff, s2) <= BreakEvenYears(priceDiff, s1)
  {
    var b1 := BreakEvenYears(priceDiff, s1);
    var b2 := BreakEvenYears(priceDiff, s2);
    assert b1 >= 0.0 by {
      SignOfQuotient(priceDiff, s1, b1);
    }
    assert b2 >= 0.0 by {
      SignOfQuotient(priceDiff, s2, b2);
    }
    assert b1 * s2 >= b1 * s1 by {
      MulLeftMonotone(b1, s1, s2);
    }
    assert b2 * s2 == priceDiff && b1 * s1 == priceDiff;
    CancelPositiveFactor(b2, b1, s2);
  }

  lemma SignOfQuotient(n: real, d: real, q: real)
    requires d > 0.0 && q * d == n
    ensures n >= 0.0 ==> q >= 0.0
    ensures n < 0.0 ==> q < 0.0
  {
  }

  lemma MulLeftMonotone(c: real, x: real, y: real)
    requires c >= 0.0 && x <= y
    ensures c * x <= c * y
  {
  }

  lemma CancelPositiveFactor(x: real, y: real, c: real)
    requires c > 0.0 && x * c <= y * c
    ensures x <= y
  {
  }

  /** A price gap that the subsidy more than closes gives a negative
      break-even, which is shown as such (never as 0 or "15+"). */
  lemma NegativeBreakEven(priceDiff: real, annualSavings: real)
    requires priceDiff < 0.0 && annualSavings > 0.0
    ensures BreakEvenYears(priceDiff, annualSavings) < 0.0
    ensures BreakEvenLabelOf(BreakEvenYears(priceDiff, annualSavings)).Years?
    ensures BreakEvenLabelOf(BreakEvenYears(priceDiff, annualSavings)).years <= 0.0
  {
    var be := BreakEvenYears(priceDiff, annualSavings);
    SignOfQuotient(priceDiff, annualSavings, be);
    assert Pow10(BreakEvenDigits) == 10;
    RoundMonotone(0.0, -be * 10.0);
    RoundInteger(0);
  }
}

=== FILE: text.dfy ===
/** The string handling the CSV parsers rely on: `String.prototype.split`
    with a one-character separator and `String.prototype.trim`. */
module Text {

  /** The pieces of `s` between occurrences of `sep`, as `s.split(sep)`
      returns them: an empty string yields one empty piece, and adjacent or
      trailing separators yield empty pieces. */
  function Split(s: string, sep: char): (pieces: seq<string>)
    ensures |pieces| >= 1
    ensures forall i :: 0 <= i < |pieces| ==> sep !in pieces[i]
    ensures Join(pieces, sep) == s
    decreases |s|
  {
    if |s| == 0 then [""]
    else
      var rest := Split(s[1..], sep);
      if s[0] == sep then
        var r := [""] + rest;
        assert r[1..] == rest;
        r
      else
        var r := [[s[0]] + rest[0]] + rest[1..];
        assert |rest| > 1 ==> Join(rest, sep) == rest[0] + [sep] + Join(rest[1..], sep);
        r
  }

  /** The pieces glued back together with `sep` between them (`Array.prototype.join`). */
  function Join(pieces: seq<string>, sep: char): string
    requires |pieces| >= 1
    decreases |pieces|
  {
    if |pieces| == 1 then pieces[0] else pieces[0] + [sep] + Join(pieces[1..], sep)
  }

  /** How many times `c` occurs in `s`. */
  function Occurrences(s: string, c: char): nat
    decreases |s|
  {
    if |s| == 0 then 0 else (if s[0] == c then 1 else 0) + Occurrences(s[1..], c)
  }

  /** A string split on a separator has one piece more than it has separators. */
  lemma {:induction false} SplitCount(s: string, sep: char)
    ensures |Split(s, sep)| == Occurrences(s, sep) + 1
    decreases |s|
  {
    if |s| > 0 {
      SplitCount(s[1..], sep);
    }
  }

  /** A string holding the separator splits into at least two pieces. */
  lemma {:induction false} SplitAtSeparator(s: string, sep: char)
    requires sep in s
    ensures |Split(s, sep)| >= 2
    decreases |s|
  {
    if s[0] != sep {
      assert sep in s[1..];
      SplitAtSeparator(s[1..], sep);
    }
  }

  /** Splitting at a separator splits the two sides independently. */
  lemma {:induction false} SplitConcat(x: string, sep: char, y: string)
    ensures Split(x + [sep] + y, sep) == Split(x, sep) + Split(y, sep)
    decreases |x|
  {
    var s := x + [sep] + y;
    if |x| == 0 {
      assert s[1..] == y;
    } else {
      assert s[1..] == x[1..] + [sep] + y;
      SplitConcat(x[1..], sep, y);
    }
  }

  /** A string without the separator is a single piece. */
  lemma {:induction false} SplitWithoutSeparator(x: string, sep: char)
    requires sep !in x
    ensures Split(x, sep) == [x]
    decreases |x|
  {
    if |x| > 0 {
      assert sep !in x[1..];
      SplitWithoutSeparator(x[1..], sep);
      assert [x[0]] + x[1..] == x;
    }
  }

  /** Splitting undoes joining, as long as no piece contains the separator. */
  lemma {:induction false} SplitJoin(pieces: seq<string>, sep: char)
    requires |pieces| >= 1
    requires forall i :: 0 <= i < |pieces| ==> sep !in pieces[i]
    ensures Split(Join(pieces, sep), sep) == pieces
    decreases |pieces|
  {
    SplitWithoutSeparator(pieces[0], sep);
    if |pieces| > 1 {
      SplitJoin(pieces[1..], sep);
      SplitConcat(pieces[0], sep, Join(pieces[1..], sep));
      assert [pieces[0]] + pieces[1..] == pieces;
    }
  }

  /** The white space and line terminators `String.prototype.trim` removes:
      TAB, VT, FF, SP, NBSP, ZWNBSP, LF, CR, LS, PS and the Unicode space
      separators (category Zs). */
  predicate IsTrimmable(c: char) {
    || c == '\t' || c == '\U{000B}' || c == '\U{000C}' || c == ' '
    || c == '\U{00A0}' || c == '\U{FEFF}' || c == '\n' || c == '\r'
    || c == '\U{2028}' || c == '\U{2029}' || c == '\U{1680}'
    || ('\U{2000}' <= c <= '\U{200A}') || c == '\U{202F}' || c == '\U{205F}'
    || c == '\U{3000}'
  }

  /** `s` without its leading white space. */
  function TrimStart(s: string): (r: string)
    ensures |r| <= |s| && r == s[|s| - |r|..]
    ensures forall i :: 0 <= i < |s| - |r| ==> IsTrimmable(s[i])
    ensures |r| > 0 ==> !IsTrimmable(r[0])
    decreases |s|
  {
    if |s| > 0 && IsTrimmable(s[0]) then TrimStart(s[1..]) else s
  }

  /** `s` without its trailing white space. */
  function TrimEnd(s: string): (r: string)
    ensures |r| <= |s| && r == s[..|r|]
    ensures forall i :: |r| <= i < |s| ==> IsTrimmable(s[i])
    ensures |r| > 0 ==> !IsTrimmable(r[|r| - 1])
    decreases |s|
  {
    if |s| > 0 && IsTrimmable(s[|s| - 1]) then TrimEnd(s[..|s| - 1]) else s
  }

  /** `r` occurs in `s` at offset `k`, and everything of `s` around it is
      white space. */
  predicate TrimmedAt(s: string, r: string, k: int) {
    && 0 <= k <= |s| - |r|
    && r == s[k..k + |r|]
    && (forall i :: 0 <= i < k ==> IsTrimmable(s[i]))
    && (forall i :: k + |r| <= i < |s| ==> IsTrimmable(s[i]))
  }

  /** `s.trim()`: a contiguous part of `s` that neither starts nor ends with
      white space, with only white space cut away. */
  function Trim(s: string): (r: string)
    ensures exists k :: TrimmedAt(s, r, k)
    ensures |r| > 0 ==> !IsTrimmable(r[0]) && !IsTrimmable(r[|r| - 1])
  {
    var t := TrimStart(s);
    var r := TrimEnd(t);
    TrimmedFromParts(s, t, r);
    r
  }

  /** Cutting white space off the front of `s` and then off the back leaves
      a part of `s` with only white space around it. */
  lemma TrimmedFromParts(s: string, t: string, r: string)
    requires |t| <= |s| && t == s[|s| - |t|..]
    requires forall i :: 0 <= i < |s| - |t| ==> IsTrimmable(s[i])
    requires |r| <= |t| && r == t[..|r|]
    requires forall i :: |r| <= i < |t| ==> IsTrimmable(t[i])
    ensures TrimmedAt(s, r, |s| - |t|)
  {
    SliceOfSuffix(s, t, r);
    TrailingWhite(s, t, r);
  }

  /** A prefix of a suffix of `s` is a slice of `s`. */
  lemma SliceOfSuffix(s: string, t: string, r: string)
    requires |t| <= |s| && t == s[|s| - |t|..]
    requires |r| <= |t| && r == t[..|r|]
    ensures r == s[|s| - |t|..|s| - |t| + |r|]
  {
  }

  /** What follows a prefix of a suffix of `s` lies at the end of `s`. */
  lemma TrailingWhite(s: string, t: string, r: string)
    requires |t| <= |s| && t == s[|s| - |t|..]
    requires |r| <= |t|
    requires forall i :: |r| <= i < |t| ==> IsTrimmable(t[i])
    ensures forall i :: |s| - |t| + |r| <= i < |s| ==> IsTrimmable(s[i])
  {
    var k := |s| - |t|;
    forall i | k + |r| <= i < |s|
      ensures IsTrimmable(s[i])
    {
      assert s[i] == t[i - k];
    }
  }

  /** Trimming an already trimmed string changes nothing. */
  lemma TrimIdempotent(s: string)
    ensures Trim(Trim(s)) == Trim(s)
  {
    var r := Trim(s);
    if |r| > 0 {
      assert TrimStart(r) == r;
      assert TrimEnd(r) == r;
    }
  }

  /** The lines of a CSV text: `text.trim().split('\n')`. */
  function Lines(text: string): (lines: seq<string>)
    ensures |lines| >= 1
    ensures forall i :: 0 <= i < |lines| ==> '\n' !in lines[i]
    ensures Join(lines, '\n') == Trim(text)
  {
    Split(Trim(text), '\n')
  }

  /** The comma-separated fields of one line: `line.split(',')`. */
  function Fields(line: string): (values: seq<string>)
    ensures |values| == Occurrences(line, ',') + 1
  {
    SplitCount(line, ',');
    Split(line, ',')
  }
}

=== FILE: wrappers.dfy ===
/** The optional value used wherever the dashboard reads `undefined`, `null`
    or a failed lookup. */
module Wrappers {

  datatype Option<+T> = None | Some(value: T) {

    /** The wrapped value, or `default` when there is none. */
    function GetOr(default: T): T {
      match this
      case Some(v) => v
      case None => default
    }
  }
}
